=== FILE: README.md ===
# Coffee-shop and user API, modelled in Dafny

This project models the decision logic of a FastAPI/SQLAlchemy back end. The back end serves two things:

- a coffee shop: a catalogue, carts, orders and shop users;
- a user API (`/api/v1`): accounts, login, tokens and a user listing.

The database is an in-memory set of tables. Every route and repository method is a pure function from the stored state and the request to a `Result`: the new state plus the response, or the error the route raises. Clocks, password hashing, JWT signing and the chance that a commit fails are explicit parameters.

Modules, following the program's structure:

| module | models |
|---|---|
| `Common` | `Option`, `Result`, the `Error` a route surfaces (an HTTP status with detail, or a propagated exception), `.first()` lookup, OFFSET/LIMIT |
| `Strings`, `Numerals` | the `str` methods the handlers use: `capitalize`, `replace`, `split`, `isdigit`, `int()`, `str()` |
| `Config` | token lifetimes and the `build_pool` validator |
| `Rows` | a table row as column → value, `filter_by` equality, `ORDER BY` with NULLS LAST, a stable sort |
| `Repository` | the generic repository: `create`, `get`, `update`, `delete`, `all`, `f`, `get_or_create`, `get_existing_object` |
| `UserRepository` | the soft-delete user repository: live-only `get` and `all`, `delete` that stamps `deleted_at` |
| `Accounts` | the `/api/v1` user record (`UserBase`) and its row in the `users` table |
| `Tokens` | hashing as an abstract `Hasher`, token issuing, `get_current_user`, `authenticate_user` |
| `AuthApi` | `login_user`, `refresh_token`, `forget_password`, `reset_password` |
| `UserApi` | `get_users` with its presentation rules, `create_user`, get, update and delete by id or uuid |
| `ShopModel` | the shop's tables (users, categories, products, carts, cart items, orders, order items) and the cart-total invariant |
| `Catalog` | product and category routes |
| `Carts` | `add_to_cart`, `remove_from_cart`, `clear_cart` |
| `Orders` | `create_order`, `get_order`, `update_order_status` |
| `ShopUsers` | `register_user`, `login`, `read_users` |

The two user records are kept apart on purpose:

- `Accounts.Account` is the optional-field record of the user API.
- `ShopModel.ShopUser` is the SQLAlchemy record that the shop routes use.

Money is an integer number of minor units. Timestamps are integer seconds.

Behaviour of the code that the model keeps as written:

- Order status has no transition rule. Any admin can set any status, including moving a cancelled order back to pending (`Orders.CancelledBackToPending`).
- Checkout does not reset the cart's total (see Findings).
- `get_users` reads a `subscriptions` field that its response schema does not declare, so it fails for any non-empty listing (see Findings).
- A failed commit in `create` is rolled back and swallowed, and a failed commit in the user repository's `delete` returns `False`. Neither is propagated.
- A token whose `exp` equals the current time still passes the application's own expiry check. The check rejects only an `exp` strictly in the past.
- `add_to_cart` accepts any integer quantity, including 0 and negative ones.
- An empty cart at checkout is a 404.
- The shop's `register_user` is blocked by any stored user with the email, soft-deleted or not. The user API's `create_user` is blocked only by a live user with the email.

## Model

| member | source | states |
|---|---|---|
| Common.FindKey | src/routers/cart.py:23 | `.first()` on an equality query: the first row in table order whose key matches; none exactly when no row matches |
| Common.Window | src/repositories/sqlalchemy.py:114 | OFFSET/LIMIT: at most `limit` rows, the rows from position `skip` on, in order; empty when `skip` is past the end |
| Strings.Capitalize | src/repositories/sqlalchemy.py:35 | `str.capitalize`: same length, first letter upper-cased, the rest lower-cased |
| Strings.Without | src/api/v1/user.py:83 | `replace(' ', '')`: no occurrence of the character is left, and every other character is kept with its multiplicity; its order is fixed by WithoutConcat and WithoutSingle |
| Strings.WithoutConcat | src/api/v1/user.py:83 | removing a character distributes over concatenation, so what is kept stays in order |
| Strings.WithoutSingle | src/api/v1/user.py:83 | one character survives exactly when it is not the one removed |
| Strings.Split | src/api/v1/user.py:83 | `split(',')`: at least one piece, no piece holds the separator, and joining the pieces with the separator gives back the text |
| Strings.WithoutAbsent | src/api/v1/user.py:83 | stripping a character that does not occur leaves the text unchanged |
| Strings.JoinInjective | src/api/v1/user.py:83 | separator-free pieces are determined by their join |
| Strings.SplitJoin | src/api/v1/user.py:83 | splitting a join of separator-free pieces gives back the pieces (the round trip) |
| Numerals.NatToString | src/api/v1/user.py:137 | `str(n)`: all digits, no leading zero |
| Numerals.ParseInt | src/api/v1/user.py:82 | `int(text)` on the modelled forms: succeeds exactly on an optional sign followed by ASCII digits, and reads plain digits as their decimal value (underscore grouping is left out, see below) |
| Numerals.DigitsValueOfNatToString | src/api/v1/user.py:164-165 | reading back the decimal text of `n` gives `n` |
| Numerals.ParseIntOfIntToString | src/repositories/dependence.py:41 | `int(str(n)) == n` for every integer, so a subject written as `str(id)` is read back as `id` |
| Config.DefaultLifetimes | src/core/config.py:13-14 | access tokens last 2880 minutes and refresh tokens 21600, so refresh outlives access |
| Config.FloorDiv | src/core/config.py:47 | Python's `//`: the quotient rounded towards minus infinity, for either sign of divisor |
| Config.BuildPool | src/core/config.py:42-47 | an integer passes unchanged; otherwise the size is `max(DB_POOL_SIZE // WEB_CONCURRENCY, 5)`, at least 5, and a zero concurrency is the division error |
| Config.DefaultPoolSize | src/core/config.py:37-47 | with the defaults (83 connections, 9 workers) the pool size is 9 |
| Rows.ValueLeTotalPreorder | src/repositories/sqlalchemy.py:112 | the `ORDER BY` value order is reflexive, total and transitive (NULLS LAST) |
| Rows.Insert | src/repositories/sqlalchemy.py:112-114 | inserting into a sorted listing keeps it sorted and adds exactly that row |
| Rows.SortBy | src/repositories/sqlalchemy.py:112-114 | the rows ordered by the column: sorted, and a permutation of the input |
| Repository.Hits | src/repositories/sqlalchemy.py:62 | the positions of the admitted rows: all of them, ascending, and no others |
| Repository.Matching | src/repositories/sqlalchemy.py:129-133 | the admitted rows: every one of them and nothing else, one per admitted position |
| Repository.Locate | src/repositories/sqlalchemy.py:62-69 | `scalar_one_or_none`: an unknown column is an error; no match is none; two matches are the "multiple rows" error; otherwise the position of the only match, and when exactly one row is admitted that row's position |
| Repository.LocateUnique | src/repositories/sqlalchemy.py:69 | when exactly one row is admitted, the lookup returns its position |
| Repository.Find | src/repositories/sqlalchemy.py:62-71 | a found row is a stored row that the query admits |
| Repository.Get | src/repositories/sqlalchemy.py:56-71 | `get`: none exactly when no row matches, an error exactly when two rows match, otherwise a stored matching row |
| Repository.F | src/repositories/sqlalchemy.py:126-133 | `f`: fails only on an unknown column; returns every matching row and nothing else |
| Repository.GetExistingObject | src/repositories/sqlalchemy.py:145-152 | the first matching row in table order; several matches are not an error |
| Repository.NextId | src/repositories/sqlalchemy.py:45-46 | the key given to a stored row is above every existing key |
| Repository.Persist | src/repositories/sqlalchemy.py:40-54 | `add=False` returns the object and leaves the table alone; a failed commit is swallowed and changes nothing; a failed flush raises; a successful write appends the object under a fresh key |
| Repository.Create | src/repositories/sqlalchemy.py:22-54 | with unique fields, an existing single match refuses the insert with "<Table> already exists"; with no match, or with no unique fields, the outcome is the write of `Persist` |
| Repository.ApplyPatch | src/repositories/sqlalchemy.py:76-80 | exactly the patch's fields take the patch's values; every other field is unchanged |
| Repository.Update | src/repositories/sqlalchemy.py:73-86 | only the updated row changes, as the patch says; a failed commit propagates |
| Repository.UpdateEmptyPatchIsNoOp | src/repositories/sqlalchemy.py:76-80 | an empty patch changes nothing |
| Repository.RemoveAt | src/repositories/sqlalchemy.py:92 | removing a row leaves every other row with its multiplicity |
| Repository.Delete | src/repositories/sqlalchemy.py:88-93 | no match raises "<Table> not found"; a single match is physically removed when the commit succeeds, and a failed commit propagates |
| Repository.DeleteLeavesNoMatch | src/repositories/sqlalchemy.py:88-93 | a successful delete keeps the columns and leaves no row matching the filters |
| Repository.DeleteThenGone | src/repositories/sqlalchemy.py:88-93 | after a delete, `get` with the same filters finds nothing and a second delete raises "<Table> not found" |
| Repository.DropNulls | src/repositories/sqlalchemy.py:116-117 | the filters with `None` values dropped and the others kept |
| Repository.WindowOfSorted | src/repositories/sqlalchemy.py:114 | a page of a sorted listing is sorted |
| Repository.WindowElements | src/repositories/sqlalchemy.py:114 | a page holds only listed rows, and a first page that is large enough holds all of them |
| Repository.Listed | src/repositories/sqlalchemy.py:112-117 | a listing is sorted, at most `limit` long, holds only admitted stored rows, and on a first page that is large enough holds all of them |
| Repository.ListedLength | src/repositories/sqlalchemy.py:114 | a page holds exactly as many rows as OFFSET `skip` LIMIT `limit` leave of the matches: none past the end, otherwise the smaller of what is left and `limit` |
| Repository.ListedPagesJoin | src/repositories/sqlalchemy.py:114 | two consecutive pages of one size together are the page of twice that size: paging neither skips nor repeats a row |
| Repository.ListedWhole | src/repositories/sqlalchemy.py:112-117 | a first page large enough for every match holds exactly the matching rows, each as often as stored |
| Repository.ListedSliceOfWhole | src/repositories/sqlalchemy.py:114 | every page is the OFFSET/LIMIT window of the full sorted listing, so a first page holds its leading rows |
| Repository.ListRows | src/repositories/sqlalchemy.py:95-124 | the query behind `all` succeeds exactly for a known sort column, `asc`/`desc`, a non-negative skip and limit and known filter columns; with a valid sort, an unknown filter column is `filter_by`'s error whatever the skip and limit, since the database sees OFFSET and LIMIT only at `execute`; a page holds exactly as many rows as OFFSET and LIMIT leave of the matches, sorted, each stored and admitted (the `nulls_first`/`nulls_last` orders are left out, see below) |
| Repository.ListRowsWhole | src/repositories/sqlalchemy.py:112-124 | a valid first page large enough for every match holds exactly the matching rows, each as often as stored |
| Repository.All | src/repositories/sqlalchemy.py:95-124 | `all` of the base repository: succeeds exactly for a known sort column, `asc`/`desc`, non-negative skip and limit and known filter columns; exactly as many rows as OFFSET and LIMIT leave of the matches, each stored and matching the non-`None` filters, sorted as asked; a large enough first page holds every matching row |
| Repository.AllDropsNullFilters | src/repositories/sqlalchemy.py:116-117 | `all` ignores `None` filters entirely |
| Repository.DefaultPageIsNewestHundred | src/repositories/sqlalchemy.py:97-110 | the defaults are `created_at desc`, skip 0, limit 100 |
| Repository.GetOrCreate | src/repositories/sqlalchemy.py:135-143 | an existing match is returned and the table is unchanged; with no match the result is a default `create` |
| Repository.GetAfterAppend | src/repositories/sqlalchemy.py:62-69 | a matching row appended to a table with no match is the row `get` finds |
| Repository.GetOrCreateTwiceAddsNothing | src/repositories/sqlalchemy.py:135-143 | a second `get_or_create` with the same filters finds the stored row and adds nothing |
| UserRepository.Get | src/repositories/user.py:74-90 | never returns a soft-deleted row; none exactly when no live row matches, an error exactly when two live rows match |
| UserRepository.Lookup | src/repositories/user.py:79-88 | the position of the one live match, agreeing with `get` |
| UserRepository.LookupAfterPatch | src/repositories/user.py:79-80 | a patch that leaves the filtered columns and `deleted_at` alone keeps the row the one `get` finds |
| UserRepository.GetAfterAppend | src/repositories/user.py:79-88 | a live matching row appended to a table with no live match is the row `get` finds |
| UserRepository.GetOrCreate | src/repositories/sqlalchemy.py:135-143 | through the live-only `get`, a soft-deleted match does not stop a new row being created |
| UserRepository.All | src/repositories/user.py:40-72 | never lists a soft-deleted row; succeeds exactly when the base listing does; sorted as asked, with exactly as many rows as OFFSET and LIMIT leave of the live matches; a large enough first page holds every live matching row |
| UserRepository.Delete | src/repositories/user.py:18-38 | no live match raises "<Table> not found"; a single live match gets `deleted_at` = now and True when the commit succeeds, and False with the table unchanged when it fails |
| UserRepository.DeleteKeepsRow | src/repositories/user.py:27-33 | a soft delete keeps every row, and only `deleted_at` changes |
| UserRepository.DeleteThenGone | src/repositories/user.py:19-27 | after a delete, `get` finds nothing and a second delete raises "<Table> not found" |
| UserRepository.UsersNotFoundMessage | src/repositories/user.py:23-25 | for the users table the message is "Users not found" |
| Accounts.ToRow | src/schemas/user.py:9-17 | a stored record has exactly the table's columns |
| Accounts.ToRowFields | src/schemas/user.py:11-13 | the email, password and `deleted_at` columns hold the record's values |
| Accounts.FromRowToRow | src/schemas/user.py:29-33 | reading back a stored record gives the record |
| Accounts.ToRowWellTyped | src/schemas/user.py:9-17 | a stored record is a well-typed row: text columns hold text or NULL, integer columns integers or NULL |
| Accounts.ToRowFromRow | src/schemas/user.py:29-33 | storing what was read from a well-typed row gives back the row (the other half of the round trip) |
| Accounts.WithId | src/repositories/sqlalchemy.py:45-46 | the key written by the database is the record's `id` |
| Tokens.Issue | src/repositories/auth.py:22-35 | the caller's claims plus `exp` = issue time + lifetime, signed with the configured key and algorithm |
| Tokens.CreateAccessToken | src/repositories/auth.py:22-27 | `exp` is issue time + ACCESS_TOKEN_EXPIRE_MINUTES, and the other claims are the caller's |
| Tokens.CreateRefreshToken | src/repositories/auth.py:30-35 | `exp` is issue time + REFRESH_TOKEN_EXPIRE_MINUTES, and the other claims are the caller's |
| Tokens.AccessAndRefreshDifferOnlyInExpiry | src/repositories/auth.py:22-35 | the two tokens share key, algorithm and claims, and differ only in `exp`; the longer lifetime expires later |
| Tokens.CheckExpiry | src/repositories/dependence.py:26-31 | a missing or falsy `exp` is 401 "Token has expired", and so is one strictly before now; a non-integer `exp` raises; `exp == now` passes |
| Tokens.CheckSubject | src/repositories/dependence.py:33-38 | a missing or falsy `sub` is 401 "Could not validate credentials"; a non-integer one raises; otherwise `int(sub)` |
| Tokens.GetCurrentUser | src/repositories/dependence.py:17-60 | missing credentials or a wrong key/algorithm are 401; expiry and subject failures pass through; no live user with the id is 401 "Invalid username or password"; otherwise that user |
| Tokens.AuthenticateUser | src/repositories/auth.py:38-46 | the live user with that email; none exactly when no live user has it |
| Tokens.IssuedTokenResolves | src/repositories/dependence.py:26-48 | a token for a live user's id resolves to that user until its `exp` and is refused as expired afterwards |
| Tokens.AuthenticateIgnoresPassword | src/repositories/auth.py:38-46 | the password argument makes no difference |
| AuthApi.PasswordPatchSaves | src/api/v1/auth.py:116-121 | writing a new hash into the password column changes only that column of that row |
| AuthApi.PasswordPatch | src/api/v1/auth.py:117-121 | applying the password patch writes exactly the new hash into the password column |
| AuthApi.StoredHashWithPassword | src/api/v1/auth.py:146-147 | after storing a hash, the row's stored hash is that hash |
| AuthApi.LoginUser | src/api/v1/auth.py:28-62 | unknown email is 404 before any password check; a found user whose hash rejects the password is 401 "Invalid password"; success issues both tokens for `str(id)`, type "bearer", password cleared |
| AuthApi.RefreshToken | src/api/v1/auth.py:72-100 | no token is 400; otherwise it succeeds exactly when the token resolves to a user, and issues a new pair for that user |
| AuthApi.ForgetPassword | src/api/v1/auth.py:103-123 | unknown email is 404; a found user is updated exactly when the commit succeeds, the stored hash becoming the new password's hash with no old-password check (an empty password changes nothing) |
| AuthApi.ResetPassword | src/api/v1/auth.py:126-151 | unknown email is 404; an old password that does not verify is 401 "Password is incorrect"; otherwise the hash of the new password is stored exactly when the commit succeeds |
| AuthApi.LoginSucceeds | src/api/v1/auth.py:37-47 | login succeeds exactly when a live user has the email and its stored hash accepts the password |
| AuthApi.LoginFound | src/api/v1/auth.py:37-59 | the user `get` finds, with a password its hash accepts, logs in |
| AuthApi.LoginAfterPasswordChange | src/api/v1/auth.py:146-149 | after a password change the new password logs in |
| AuthApi.ResetThenLogin | src/api/v1/auth.py:126-151 | after a successful reset the new password logs in |
| AuthApi.ForgetThenLogin | src/api/v1/auth.py:103-123 | anyone who knows the email can set a password that then logs in |
| AuthApi.LoginThenCurrentUser | src/api/v1/auth.py:49-50 | the access token from login resolves to the same user until it expires |
| UserApi.ParseSegment | src/api/v1/user.py:164-167 | an all-digit segment is an integer id, anything else a uuid |
| UserApi.SegmentOfId | src/api/v1/user.py:164-165 | the decimal text of an id addresses that id |
| UserApi.TextsOf | src/api/v1/user.py:86-90 | the texts of exactly the answers whose id is listed |
| UserApi.TextsOfConcat | src/api/v1/user.py:86-90 | the picked texts keep the answers' order and multiplicity: picking distributes over concatenation |
| UserApi.TextsOfSingle | src/api/v1/user.py:86-90 | one answer gives its text exactly when its id is listed, and nothing otherwise |
| UserApi.ParseAll | src/api/v1/user.py:80-85 | `map(int, pieces)` succeeds exactly when every piece is an integer, and keeps their order |
| UserApi.AnswerIds | src/api/v1/user.py:80-85 | the ids of a comma list, spaces ignored, each piece read as an integer in order; fails exactly when a piece is not an integer |
| UserApi.Interests | src/api/v1/user.py:73-90 | an all-digit answer picks `interests` by that id; anything else is a list picked into `selected_interests`, and a bad piece raises |
| UserApi.SelectedInterestsOfList | src/api/v1/user.py:80-90 | a written list of two or more ids reads back as those ids and picks their answers into `selected_interests` |
| UserApi.ChildLevel | src/api/v1/user.py:92-100 | unset exactly for a falsy age; "Grade" exactly for 6; "Toddler" for any other truthy age outside 3..6 |
| UserApi.ChildLevelInverse | src/api/v1/user.py:93-100 | each named level above "Toddler" comes from exactly one age |
| UserApi.Reverse | src/api/v1/user.py:63 | subscriptions in reverse order |
| UserApi.Present | src/api/v1/user.py:58-100 | one user's view as intended (the corrected half of the `subscriptions` finding): the stored record, the child level, reversed subscriptions; interests come only from the answer to the target question |
| UserApi.PresentAll | src/api/v1/user.py:59-61 | every listed user presented, in order; fails exactly when one of them fails |
| UserApi.Listing | src/api/v1/user.py:38-48 | succeeds exactly when `created_at` and the given filter columns exist; newest first, exactly min(100, live matches) live stored users matching the given email and uuid, and all of them when there are at most 100 |
| UserApi.KeptFilter | src/api/v1/user.py:38-48 | only the given email and uuid filters are kept, and a row matches them exactly when it agrees with each given one |
| UserApi.ListingByEmail | src/api/v1/user.py:38-48 | when exactly one live user has the email, listing by it gives that user and nobody else |
| UserApi.GetUsers | src/api/v1/user.py:27-102 | the intended listing (the corrected half of the `subscriptions` finding): succeeds exactly when the interests question exists, the listing succeeds and every listed user can be presented; then each listed user is presented, in order |
| UserApi.GetUsersAsWritten | src/api/v1/user.py:50-63 | the handler as written: a listing error or a missing question passes through, and otherwise it succeeds, with no users, exactly when the listing is empty, because reading `subscriptions` on an `SUserRead` raises |
| UserApi.GetUsersAsWrittenDiffers | src/api/v1/user.py:59-63 | wherever the intended listing succeeds, the written handler gives the same empty result when it is empty and raises on `subscriptions` otherwise |
| UserApi.SubscriptionsExample | src/api/v1/user.py:59-63 | one live user with subscriptions `[1, 2]` and an existing question: the intended listing succeeds, is non-empty and presents only that user, with subscriptions `[2, 1]`; the written handler raises |
| UserApi.GetUsersPresentsListed | src/api/v1/user.py:58-61 | every listed user appears in a successful `get_users` with its stored record |
| UserApi.AsBadRequest | src/api/v1/user.py:146-150 | every exception in `create_user` becomes a 400 |
| UserApi.NewAccount | src/api/v1/user.py:126-127 | a truthy password is replaced by its hash; nothing else changes |
| UserApi.InsertAccount | src/api/v1/user.py:129-145 | with no live user for the email, the insert succeeds exactly when the write does; the new record is stored under a fresh id and both tokens carry it |
| UserApi.CreateUser | src/api/v1/user.py:105-150 | a live user with the email refuses with 400; on success no live user had the email, the hashed record is appended under a fresh id and both tokens name it; every failure is a 400 |
| UserApi.CreateThenLogin | src/api/v1/user.py:126-145 | a created user logs in with the password given at creation |
| UserApi.CreateTwiceRefused | src/api/v1/user.py:116-124 | creating the same email again is refused |
| UserApi.CreateThenListed | src/api/v1/user.py:38-48 | a created user is listed by its email, and a successful `get_users` by that email presents the created record |
| UserApi.GetUserById | src/api/v1/user.py:153-185 | the live user the segment names, whenever `get` finds one; 404 "User not found or has been deleted" when there is none |
| UserApi.HashedPatch | src/api/v1/user.py:207-208 | a non-empty password in the patch is replaced by its hash; every other field is kept |
| UserApi.UpdateUserById | src/api/v1/user.py:188-215 | no live user fails inside `update` on `None`: with a non-empty patch at the first `setattr` (`AttributeError`), with an empty patch when `None` is added to the session (`UnmappedInstanceError`); a found user is updated exactly when the commit succeeds, and only that row changes, by the hashed patch |
| UserApi.UpdateThenGet | src/api/v1/user.py:200-213 | after an update that leaves the addressing column alone, the same segment reads back the updated user |
| UserApi.DeleteUserById | src/api/v1/user.py:218-239 | every failure is a 404 with the exception text; no live user is "<Table> not found"; a found user is always answered with success, and with a good commit its `deleted_at` becomes now; no row is ever removed |
| UserApi.DeleteThenGet | src/api/v1/user.py:226-232 | after a delete the same segment finds no user |
| ShopModel.Drop | src/routers/products.py:101 | the table without one row, the others in order |
| ShopModel.DropRemovesKey | src/routers/products.py:101 | with unique keys, nothing has the dropped row's key any more |
| ShopModel.ItemsOf | src/models/cart.py:12 | a cart's lines: exactly the lines that point at it |
| ShopModel.OtherCarts | src/routers/cart.py:92 | deleting a cart's lines keeps exactly the lines of other carts |
| ShopModel.ItemsOfOtherCarts | src/routers/cart.py:92 | after the delete the cart has no lines and every other cart keeps its own |
| ShopModel.OtherCartsTwice | src/routers/cart.py:92 | deleting the same cart's lines twice is deleting them once |
| ShopModel.CartTotalNoLines | src/routers/cart.py:47 | a cart with no lines sums to 0 |
| ShopModel.RetotalKeepsConsistent | src/routers/cart.py:47 | recomputing one cart's total, when no other cart's lines moved, keeps every total equal to its line sum |
| Carts.RetotalKeepsOwner | src/routers/cart.py:23 | changing a total does not change which cart is the user's |
| Carts.OpenCart | src/routers/cart.py:23-28 | the user's cart, or a new empty one with a fresh key appended |
| Carts.PutLine | src/routers/cart.py:30-44 | the product's first line grows by `quantity` at its old price, or a new line is appended at the product's price with a fresh key |
| Carts.AddToCart | src/routers/cart.py:12-51 | fails (404) exactly for an unknown product; success leaves the other tables alone and the user's cart holds the returned line at total = line sum |
| Carts.AddToCartCarts | src/routers/cart.py:23-28 | an existing cart keeps its key and only its total changes; a user without a cart gets one with a fresh key |
| Carts.AddToCartLine | src/routers/cart.py:35-44 | a product already in the cart grows its line at the original price; otherwise a new line at the current price is appended |
| Carts.MergeLineTotal | src/routers/cart.py:35-36 | growing a line by `quantity` raises its cart's sum by `quantity` × price, and no other cart's |
| Carts.PutLineTotals | src/routers/cart.py:30-47 | putting a line raises that cart's sum by `quantity` × price and leaves other carts' sums alone |
| Carts.OpenCartValid | src/routers/cart.py:23-28 | the cart handed back keeps the cart invariant |
| Carts.NewCartValid | src/routers/cart.py:24-28 | a new empty cart with a fresh key keeps the cart invariant |
| Carts.PutKeepsValid | src/routers/cart.py:23-47 | open, put and recompute keeps the cart invariant and adds `quantity` × price to the cart's total |
| Carts.RetotalKeepsKeys | src/routers/cart.py:47 | changing a total changes no cart's key |
| Carts.PutLineInCarts | src/routers/cart.py:30-44 | the line put in an existing cart is not an orphan |
| Carts.AddToCartKeepsValid | src/routers/cart.py:12-51 | an add keeps every cart total equal to its line sum, and raises the user's total by `quantity` × price |
| Carts.RemoveFromCart | src/routers/cart.py:57-81 | no cart is 404 "Cart not found"; a line not in the user's own cart is 404 "Item not found in cart"; success removes exactly that line and recomputes the total |
| Carts.ClearCart | src/routers/cart.py:83-95 | no cart is 404; otherwise the cart has no lines, its total is 0, and other carts' lines stay |
| Carts.DropLineTotal | src/routers/cart.py:75-78 | dropping a line lowers its cart's sum by the line's amount and no other cart's |
| Carts.DropLineKeepsValid | src/routers/cart.py:75-78 | dropping a line and recomputing keeps the cart invariant |
| Carts.RemoveFromCartKeepsValid | src/routers/cart.py:57-81 | a removal keeps the cart invariant and lowers the total by the line's amount |
| Carts.RemoveFromCartAt | src/routers/cart.py:67-78 | the removal's outcome given where the cart and the line are |
| Carts.AppendedLineFound | src/routers/cart.py:67-70 | a line appended with a fresh key is the one found by its id |
| Carts.AddToCartAppends | src/routers/cart.py:37-47 | adding a product the cart did not hold appends one line with a fresh key and recomputes only that cart |
| Carts.RemoveAppended | src/routers/cart.py:63-78 | removing the line just appended restores the shop |
| Carts.RemoveAfterAdd | src/routers/cart.py:35-78 | add followed by remove of the new line gives back the shop (the inverse) |
| Carts.EmptyCartKeepsValid | src/routers/cart.py:92-93 | deleting a cart's lines and zeroing its total keeps the cart invariant |
| Carts.ClearCartKeepsValid | src/routers/cart.py:83-95 | clearing keeps the cart invariant |
| Carts.ClearCartAt | src/routers/cart.py:88-93 | the clear's outcome given where the cart is |
| Carts.ClearCartIdempotent | src/routers/cart.py:88-93 | clearing twice is clearing once |
| Orders.Snapshot | src/routers/orders.py:38-45 | one order line per cart line, in order, with the same product, quantity and price |
| Orders.SnapshotSum | src/routers/orders.py:38-45 | the order lines are worth what the cart lines were worth |
| Orders.Checkout | src/routers/orders.py:27-49 | a pending order at the cart's stored total with a fresh key; its lines copied; the cart's lines gone, other carts' lines kept, the carts table unchanged |
| Orders.CreateOrder | src/routers/orders.py:12-51 | "Cart is empty" exactly when the user has no cart or it has no lines; otherwise the checkout of that cart |
| Orders.CheckoutTotal | src/routers/orders.py:27-45 | with consistent totals, the order's total equals what its lines are worth |
| Orders.CreateOrderTotal | src/routers/orders.py:27-45 | with consistent totals, a placed order's total equals what its lines are worth |
| Orders.CreateOrderLeavesStaleTotal | src/routers/orders.py:48-49 | as written, a checkout of a cart worth anything leaves its total inconsistent |
| Orders.StaleTotalExample | src/routers/orders.py:48-49 | a one-line cart worth 500 is emptied by checkout and still shows 500 |
| Orders.CreateOrderCorrected | src/routers/orders.py:48-49 | the checkout with the cart's total reset to 0; the same order and the same failures |
| Orders.CreateOrderCorrectedKeepsValid | src/routers/orders.py:48-49 | the corrected checkout keeps every cart total equal to its line sum |
| Orders.CheckoutTwiceRefused | src/routers/orders.py:19-25 | a second checkout straight after the first finds the cart empty |
| Orders.GetOrder | src/routers/orders.py:57-70 | missing is 404; an existing order is shown exactly to an admin or its owner, and is 403 for anyone else |
| Orders.UpdateOrderStatus | src/routers/orders.py:72-89 | admins only (403), then 404 for a missing order; only that order's status changes, to any status |
| Orders.CancelledBackToPending | src/routers/orders.py:79-86 | a cancelled order can be set back to pending, and its owner sees it pending |
| Catalog.CreateProduct | src/routers/products.py:12-39 | non-admin is 403; an unknown category is 404; success appends the product with the given fields under a fresh key |
| Catalog.ReadProduct | src/routers/products.py:45-50 | 404 exactly when no product has the key; otherwise a stored product with it |
| Catalog.UpdateProduct | src/routers/products.py:52-86 | non-admin 403, missing 404, an unknown truthy category 404, and success otherwise; only truthy arguments are assigned and only that product changes |
| Catalog.DeleteProduct | src/routers/products.py:88-103 | non-admin 403; 404 exactly when missing; otherwise that product is removed and the others kept |
| Catalog.CreateThenReadProduct | src/routers/products.py:29-50 | a created product reads back under its new key |
| Catalog.UpdateProductFalsyArgumentsKeep | src/routers/products.py:70-82 | an update with no truthy argument leaves the product as it was |
| Catalog.UpdateThenReadProduct | src/routers/products.py:66-86 | after an update the product reads back as updated |
| Catalog.DeleteThenReadProduct | src/routers/products.py:97-103 | with unique keys, a deleted product reads as 404 |
| Catalog.CreateCategory | src/routers/categories.py:11-25 | fails (403) exactly for a non-admin; success appends the category with the given name and description and no slug, under a fresh key |
| Catalog.ReadCategory | src/routers/categories.py:31-36 | 404 exactly when no category has the key |
| Catalog.UpdateCategory | src/routers/categories.py:38-60 | non-admin 403; 404 exactly when missing; only a truthy name or description is assigned |
| Catalog.UpdateThenReadCategory | src/routers/categories.py:49-60 | an updated category reads back as updated |
| Catalog.DeleteCategory | src/routers/categories.py:62-77 | non-admin 403; 404 exactly when missing; otherwise removed, others kept |
| Catalog.CreateCategoryThenProduct | src/routers/categories.py:21-25 | a new category reads back, and products can be created in it |
| Catalog.DeleteThenReadCategory | src/routers/categories.py:71-77 | with unique keys, a deleted category reads as 404 and products can no longer be created in it |
| ShopUsers.RegisterUser | src/routers/users.py:13-33 | a taken email is 400 and adds no user; a taken username fails; otherwise one inactive customer is appended, storing only the password's hash |
| ShopUsers.Login | src/routers/users.py:35-53 | unknown username and wrong password give the same 401; success issues a bearer token with `sub` = username and the access lifetime |
| ShopUsers.RegisterThenLogin | src/routers/users.py:24-47 | a newly registered user logs in with the password they chose |
| ShopUsers.RegisterTwiceRefused | src/routers/users.py:20-22 | registering the same email again is 400 |
| ShopUsers.ReadUsers | src/routers/users.py:63-73 | non-admin 403; otherwise at most `limit` users from position `skip` on, in table order |
| ShopUsers.ReadUsersPagesJoin | src/routers/users.py:72 | two consecutive pages together are the page of twice the size |

## Left out

- JWT encoding and signatures (PyJWT) are not modelled. A token is its claims plus the key and algorithm it was signed with, and a wrong key or algorithm is the decoder's 401.
- Tokens.GetCurrentUser: does not model PyJWT's own `exp` validation or its "Token expired" 401. That check is inside a library and depends on its version. Only the application's own expiry check is modelled.
- Tokens.IssuedTokenResolves: for the same reason it states acceptance up to and including `exp`, as the application's check has it.
- Password hashing (bcrypt through passlib) is an abstract `Hasher` parameter. The lemmas that need it assume only that `verify(p, hash(p))` holds for every `p`.
- The clock is a `now` parameter. `datetime.utcnow().timestamp()` and its time-zone reading are not modelled.
- Money is an integer number of minor units, not a float. Rounding in `sum(price * quantity)` is not modelled.
- Sessions, autoflush, eager loading (`selectinload`, `relations=`) and migrations are not modelled. A commit or flush that fails is an explicit `storeOk` argument. `cart.items` in `add_to_cart` and `remove_from_cart` is read as the cart's lines after the change.
- Checkout commits twice. The model runs the steps in order and makes no claim of atomicity.
- Commit failures in the shop routes are not modelled: every shop write is assumed to commit.
- Database constraints other than the shop users' unique `username` are not modelled: foreign keys when deleting a product or category, unique category names and slugs, and a unique email column below the route's own check.
- Rows come back in storage order when no ORDER BY is given: `.first()`, `scalar_one_or_none`, and `read_users` without an ORDER BY.
- The stub routes that return fixed messages are out of scope: `get_products`, `get_categories`, `get_cart`, `get_orders`, and the static GET `/users` at src/routers/users.py:59-61. That stub is registered before `read_users` on the same path, so FastAPI serves the stub. `read_users` is modelled anyway.
- `read_users_me` and `get_current_user_router` only return the current user, which is a parameter here. `get_current_active_user` (src/dependencies.py), `get_password_hash` and `create_access_token` with `expires_delta` (src/core/security.py) and `get_db` (src/database.py) are not part of this model. Their roles are taken by the current-user parameter, the `Hasher`, and `Tokens.Issue` with the access lifetime.
- Repository.ListRows: only `asc` and `desc` are accepted as sort orders. The code calls `getattr(column, sort_order)()`, so other no-argument column methods such as `nulls_first` and `nulls_last` would also be accepted there. The model treats them as errors.
- Repository.All and UserRepository.All: for the same reason, they accept only `asc` and `desc`.
- Numerals.ParseInt: reads only an optional sign followed by ASCII digits. Python's `int()` also accepts underscore grouping (`"1_000"`), surrounding white space and other Unicode digits.
- Strings.Capitalize: handles only ASCII letters. It is applied only to ASCII table names.
- Rows.TextLe: orders text by code point (C collation). The database's own collation for text columns is not modelled.
- `str.isdigit` and `int()` accept only ASCII digits here. Python also accepts other Unicode digits and surrounding white space.
- The `interests` list field of the request schema is not stored. The question and answer repositories used by `get_users` are parameters: the question's id, if any, and its answers in listed order.
- `updated_at` on-update stamping, Pydantic validation (EmailStr), and `PostgresDsn` URL building are not modelled. Neither are email, Redis and logging.
- Concurrency and `async` are not modelled.

## Findings

| source | as written | input that shows it | evidently intended | confidence | as-written member | corrected member |
|---|---|---|---|---|---|---|
| src/routers/orders.py:48-49 | checkout deletes the cart's lines but leaves `cart.total_amount` at its old value | a cart with one line of quantity 1 at price 500 and total 500: after checkout it has no lines but still shows 500 | the cart total is reset to 0 with its lines, as `clear_cart` does, so every total stays equal to its line sum | not executed | Orders.CreateOrderLeavesStaleTotal, Orders.StaleTotalExample | Orders.CreateOrderCorrected, Orders.CreateOrderCorrectedKeepsValid |
| src/api/v1/user.py:63 | `user_dict.subscriptions` is read on an `SUserRead`, a Pydantic model that declares no `subscriptions` field (src/schemas/user.py:29-39), so the read raises `AttributeError` | one live user row and the interests question present: the handler fails on the first user instead of listing it | each listed user is presented with its loaded subscriptions in reverse order | not executed | UserApi.GetUsersAsWritten, UserApi.GetUsersAsWrittenDiffers, UserApi.SubscriptionsExample | UserApi.GetUsers, UserApi.Present |

=== FILE: accounts.dfy ===
/** The user record the `/api/v1` layer works with (the pydantic `UserBase`
    fields plus the stored key and timestamps), and its translation to and
    from a row of the `users` table. This is a different record from the
    coffee-shop `User` in `ShopModel`. */
module Accounts {
  import opened Common
  import opened Rows

  /** `UserBase`: every field optional. The list-valued `interests` field is
      not stored in the model. */
  datatype Profile = Profile(
    uuid: Option<string>,
    email: Option<string>,
    oldEmail: Option<string>,
    password: Option<string>,
    name: Option<string>,
    stripeCustomerId: Option<string>,
    kidsAge: Option<int>,
    hero: Option<string>)

  /** A stored user: the profile, the database key and the timestamps. */
  datatype Account = Account(
    id: Option<int>,
    profile: Profile,
    createdAt: Option<int>,
    updatedAt: Option<int>,
    deletedAt: Option<int>)

  const TextColumns: set<string> :=
    {"uuid", "email", "old_email", "password", "name", "stripe_customer_id", "hero"}
  const IntColumns: set<string> :=
    {"id", "kids_age", "created_at", "updated_at", "deleted_at"}
  const Columns: set<string> := TextColumns + IntColumns

  function OfText(o: Option<string>): Value {
    if o.Some? then Text(o.value) else Null
  }

  function OfInt(o: Option<int>): Value {
    if o.Some? then Int(o.value) else Null
  }

  function AsText(v: Value): Option<string> {
    if v.Text? then Some(v.s) else None
  }

  function AsInt(v: Value): Option<int> {
    if v.Int? then Some(v.i) else None
  }

  function ToRow(a: Account): (r: Row)
    ensures r.Keys == Columns
  {
    map[
      "uuid" := OfText(a.profile.uuid),
      "email" := OfText(a.profile.email),
      "old_email" := OfText(a.profile.oldEmail),
      "password" := OfText(a.profile.password),
      "name" := OfText(a.profile.name),
      "stripe_customer_id" := OfText(a.profile.stripeCustomerId),
      "kids_age" := OfInt(a.profile.kidsAge),
      "hero" := OfText(a.profile.hero),
      "created_at" := OfInt(a.createdAt),
      "updated_at" := OfInt(a.updatedAt),
      "deleted_at" := OfInt(a.deletedAt),
      "id" := OfInt(a.id)]
  }

  function FromRow(r: Row): Account {
    Account(
      AsInt(Field(r, "id")),
      Profile(
        AsText(Field(r, "uuid")),
        AsText(Field(r, "email")),
        AsText(Field(r, "old_email")),
        AsText(Field(r, "password")),
        AsText(Field(r, "name")),
        AsText(Field(r, "stripe_customer_id")),
        AsInt(Field(r, "kids_age")),
        AsText(Field(r, "hero"))),
      AsInt(Field(r, "created_at")),
      AsInt(Field(r, "updated_at")),
      AsInt(Field(r, "deleted_at")))
  }

  predicate TextOrNull(v: Value) { v.Null? || v.Text? }
  predicate IntOrNull(v: Value) { v.Null? || v.Int? }

  /** A row of the users table: exactly the columns, each NULL or of its
      column's type. */
  predicate WellTyped(r: Row) {
    r.Keys == Columns && TextsTyped(r) && IntsTyped(r)
  }

  predicate TextsTyped(r: Row)
    requires r.Keys == Columns
  {
    && TextOrNull(r["uuid"]) && TextOrNull(r["email"]) && TextOrNull(r["old_email"])
    && TextOrNull(r["password"]) && TextOrNull(r["name"]) && TextOrNull(r["stripe_customer_id"])
    && TextOrNull(r["hero"])
  }

  predicate IntsTyped(r: Row)
    requires r.Keys == Columns
  {
    && IntOrNull(r["id"]) && IntOrNull(r["kids_age"]) && IntOrNull(r["created_at"])
    && IntOrNull(r["updated_at"]) && IntOrNull(r["deleted_at"])
  }

  /** The columns lookups and logins read from a stored record. */
  lemma ToRowFields(a: Account)
    ensures Field(ToRow(a), "email") == OfText(a.profile.email)
    ensures Field(ToRow(a), "password") == OfText(a.profile.password)
    ensures Field(ToRow(a), "deleted_at") == OfInt(a.deletedAt)
  {
  }

  /** Reading back a stored record gives the record. */
  lemma FromRowToRow(a: Account)
    ensures FromRow(ToRow(a)) == a
  {
  }

  /** A stored record is a well-typed row. */
  lemma ToRowWellTyped(a: Account)
    ensures WellTyped(ToRow(a))
  {
    ToRowTextsTyped(a);
    ToRowIntsTyped(a);
  }

  lemma ToRowTextsTyped(a: Account)
    ensures TextsTyped(ToRow(a))
  {
  }

  lemma ToRowIntsTyped(a: Account)
    ensures IntsTyped(ToRow(a))
  {
  }

  lemma ToRowFromRowTexts(r: Row)
    requires r.Keys == Columns && TextsTyped(r)
    ensures forall k :: k in TextColumns ==> ToRow(FromRow(r))[k] == r[k]
  {
    ToRowFromRowLogin(r);
    ToRowFromRowProfile(r);
  }

  lemma ToRowFromRowLogin(r: Row)
    requires r.Keys == Columns && TextsTyped(r)
    ensures var r2 := ToRow(FromRow(r));
      r2["uuid"] == r["uuid"] && r2["email"] == r["email"] && r2["old_email"] == r["old_email"]
      && r2["password"] == r["password"]
  {
  }

  lemma ToRowFromRowProfile(r: Row)
    requires r.Keys == Columns && TextsTyped(r)
    ensures var r2 := ToRow(FromRow(r));
      r2["name"] == r["name"] && r2["stripe_customer_id"] == r["stripe_customer_id"] && r2["hero"] == r["hero"]
  {
  }

  lemma ToRowFromRowInts(r: Row)
    requires r.Keys == Columns && IntsTyped(r)
    ensures forall k :: k in IntColumns ==> ToRow(FromRow(r))[k] == r[k]
  {
    var r2 := ToRow(FromRow(r));
    assert r2["id"] == r["id"] && r2["kids_age"] == r["kids_age"] && r2["created_at"] == r["created_at"];
    assert r2["updated_at"] == r["updated_at"] && r2["deleted_at"] == r["deleted_at"];
  }

  /** Storing what was read from a well-typed row gives the row. */
  lemma ToRowFromRow(r: Row)
    requires WellTyped(r)
    ensures ToRow(FromRow(r)) == r
  {
    ToRowFromRowTexts(r);
    ToRowFromRowInts(r);
    var r2 := ToRow(FromRow(r));
    assert r2.Keys == r.Keys;
  }

  /** Giving a stored record its database key is setting the `id` column. */
  lemma WithId(a: Account, n: int)
    ensures ToRow(a)["id" := Int(n)] == ToRow(a.(id := Some(n)))
    ensures FromRow(ToRow(a)["id" := Int(n)]) == a.(id := Some(n))
  {
    FromRowToRow(a.(id := Some(n)));
  }
}

=== FILE: auth_api.dfy ===
/** The `/api/v1` authentication handlers: login, token refresh, and the two
    password-changing routes, over the users table. */
module AuthApi {
  import opened Common
  import opened Rows
  import Config
  import Repository
  import Users = UserRepository
  import Accounts
  import opened Tokens

  /** The login response: both tokens, their type and the user without the
      password hash. */
  datatype Login = Login(accessToken: Jwt, refreshToken: Jwt, tokenType: string, data: Accounts.Account)

  datatype TokenPair = TokenPair(accessToken: Jwt, refreshToken: Jwt)

  const EmailColumn: string := "email"
  const PasswordColumn: string := "password"

  function ByEmail(email: string): Filters {
    map[EmailColumn := Text(email)]
  }

  /** The stored password hash of a row, if it has one. */
  function StoredHash(row: Row): Option<string> {
    Accounts.FromRow(row).profile.password
  }

  /** The row with its password column set to `hash`. */
  function WithPassword(row: Row, hash: string): Row {
    row[PasswordColumn := Text(hash)]
  }

  /** Writing a new hash into the password column leaves the row as
      `WithPassword` describes it. */
  lemma PasswordPatchSaves(users: Repository.Table, i: nat, hash: string, storeOk: bool)
    requires i < |users.rows|
    ensures var r := Repository.Update(users, i, map[PasswordColumn := Text(hash)], storeOk);
      r.Ok? ==> r.value.row == WithPassword(users.rows[i], hash)
  {
    var r := Repository.Update(users, i, map[PasswordColumn := Text(hash)], storeOk);
    if r.Ok? {
      assert r.value.row.Keys == WithPassword(users.rows[i], hash).Keys;
    }
  }

  /** Applying the password patch is `WithPassword`. */
  lemma PasswordPatch(row: Row, hash: string)
    ensures Repository.ApplyPatch(row, map[PasswordColumn := Text(hash)]) == WithPassword(row, hash)
  {
    var p := map[PasswordColumn := Text(hash)];
    assert p.Keys == {PasswordColumn};
    assert Repository.ApplyPatch(row, p).Keys == WithPassword(row, hash).Keys;
  }

  lemma StoredHashWithPassword(row: Row, hash: string)
    ensures StoredHash(WithPassword(row, hash)) == Some(hash)
  {
    assert Field(WithPassword(row, hash), PasswordColumn) == Text(hash);
  }

  const UserNotFound: Error := Http(404, "User not found")
  const InvalidPassword: Error := Http(401, "Invalid password")
  const PasswordIncorrect: Error := Http(401, "Password is incorrect")

  /** `login_user`: the live user with the email, whose stored hash accepts
      the password, gets an access and a refresh token for `str(id)`. */
  function LoginUser(cfg: Config.Settings, h: Hasher, users: Repository.Table, email: string, password: string, now: int)
    : (r: Result<Login>)
    ensures Repository.Known(users, ByEmail(email))
      && (forall j :: 0 <= j < |users.rows| ==> !(Matches(users.rows[j], ByEmail(email)) && Repository.Live(users.rows[j])))
      ==> r == Err(UserNotFound)
    ensures r.Ok? ==>
      exists row :: row in users.rows && Repository.Live(row) && Field(row, EmailColumn) == Text(email)
        && VerifyPassword(h, password, StoredHash(row))
        && var a := Accounts.FromRow(row);
        && r.value.data == a.(profile := a.profile.(password := None))
        && r.value.accessToken == CreateAccessToken(cfg, SubjectClaims(a.id), now)
        && r.value.refreshToken == CreateRefreshToken(cfg, SubjectClaims(a.id), now)
        && r.value.tokenType == "bearer"
    ensures var found := Users.Get(users, ByEmail(email));
      found.Ok? && found.value.Some? && !VerifyPassword(h, password, StoredHash(found.value.value))
      ==> r == Err(InvalidPassword)
    ensures r.Err? && r.error == InvalidPassword ==>
      exists row :: row in users.rows && Repository.Live(row) && Field(row, EmailColumn) == Text(email)
        && !VerifyPassword(h, password, StoredHash(row))
  {
    match Users.Get(users, ByEmail(email))
    case Err(e) => Err(e)
    case Ok(None) => Err(UserNotFound)
    case Ok(Some(row)) =>
      var a := Accounts.FromRow(row);
      if !VerifyPassword(h, password, a.profile.password) then Err(InvalidPassword)
      else
        var claims := SubjectClaims(a.id);
        Ok(Login(CreateAccessToken(cfg, claims, now), CreateRefreshToken(cfg, claims, now), "bearer",
                 a.(profile := a.profile.(password := None))))
  }

  /** `refresh_token(token)`: a missing or empty token is a 400; otherwise
      the token is checked like a bearer token and a new pair is issued for
      the user it names. Access and refresh tokens are both accepted. */
  function RefreshToken(cfg: Config.Settings, users: Repository.Table, token: Option<Jwt>, now: int): (r: Result<TokenPair>)
    ensures token.None? ==> r == Err(Http(400, "Token is required"))
    ensures token.Some? ==> (r.Ok? <==> GetCurrentUser(cfg, token, users, now).Ok?)
    ensures r.Ok? ==>
      var u := GetCurrentUser(cfg, token, users, now).value;
      && r.value.accessToken == CreateAccessToken(cfg, SubjectClaims(u.id), now)
      && r.value.refreshToken == CreateRefreshToken(cfg, SubjectClaims(u.id), now)
  {
    if token.None? then Err(Http(400, "Token is required"))
    else
      match GetCurrentUser(cfg, token, users, now)
      case Err(e) => Err(e)
      case Ok(u) =>
        var claims := SubjectClaims(u.id);
        Ok(TokenPair(CreateAccessToken(cfg, claims, now), CreateRefreshToken(cfg, claims, now)))
  }

  /** `forget_password(email, password)`: sets the live user's password to the
      hash of the given one, when it is not empty, without asking for the old
      one. The update writes the user's copy back, so only the password can
      change. */
  function ForgetPassword(h: Hasher, users: Repository.Table, email: string, password: string, storeOk: bool)
    : (r: Result<Repository.Table>)
    ensures Repository.Known(users, ByEmail(email))
      && (forall j :: 0 <= j < |users.rows| ==> !(Matches(users.rows[j], ByEmail(email)) && Repository.Live(users.rows[j])))
      ==> r == Err(UserNotFound)
    ensures r.Ok? ==>
      var l := Users.Lookup(users, ByEmail(email));
      && l.Ok? && l.value.Some? && l.value.value < |users.rows|
      && r.value == (if password == "" then users
                     else users.(rows := users.rows[l.value.value := WithPassword(users.rows[l.value.value], h.hash(password))]))
    ensures var l := Users.Lookup(users, ByEmail(email));
      l.Ok? && l.value.Some? ==> (r.Ok? <==> storeOk)
  {
    match Users.Lookup(users, ByEmail(email))
    case Err(e) => Err(e)
    case Ok(None) => Err(UserNotFound)
    case Ok(Some(i)) =>
      var patch := if password != "" then map[PasswordColumn := Text(h.hash(password))] else map[];
      match Repository.Update(users, i, patch, storeOk)
      case Err(e) => Err(e)
      case Ok(saved) =>
        if password != "" then
          PasswordPatchSaves(users, i, h.hash(password), storeOk);
          Ok(saved.table)
        else
          Repository.UpdateEmptyPatchIsNoOp(users, i);
          Ok(saved.table)
  }

  /** `reset_password(email, password, new_password)`: the old password must
      verify against the stored hash; then the hash of the new one is stored. */
  function ResetPassword(h: Hasher, users: Repository.Table, email: string, password: string, newPassword: string, storeOk: bool)
    : (r: Result<Repository.Table>)
    ensures Repository.Known(users, ByEmail(email))
      && (forall j :: 0 <= j < |users.rows| ==> !(Matches(users.rows[j], ByEmail(email)) && Repository.Live(users.rows[j])))
      ==> r == Err(UserNotFound)
    ensures r.Ok? ==>
      var l := Users.Lookup(users, ByEmail(email));
      && l.Ok? && l.value.Some? && l.value.value < |users.rows|
      && VerifyPassword(h, password, StoredHash(users.rows[l.value.value]))
      && r.value == users.(rows := users.rows[l.value.value := WithPassword(users.rows[l.value.value], h.hash(newPassword))])
    ensures var l := Users.Lookup(users, ByEmail(email));
      l.Ok? && l.value.Some? && l.value.value < |users.rows|
      && !VerifyPassword(h, password, StoredHash(users.rows[l.value.value]))
      ==> r == Err(PasswordIncorrect)
    ensures var l := Users.Lookup(users, ByEmail(email));
      l.Ok? && l.value.Some? && l.value.value < |users.rows|
      && VerifyPassword(h, password, StoredHash(users.rows[l.value.value]))
      ==> (r.Ok? <==> storeOk)
  {
    match Users.Lookup(users, ByEmail(email))
    case Err(e) => Err(e)
    case Ok(None) => Err(UserNotFound)
    case Ok(Some(i)) =>
      if !VerifyPassword(h, password, StoredHash(users.rows[i])) then Err(PasswordIncorrect)
      else
        match Repository.Update(users, i, map[PasswordColumn := Text(h.hash(newPassword))], storeOk)
        case Err(e) => Err(e)
        case Ok(saved) =>
          PasswordPatchSaves(users, i, h.hash(newPassword), storeOk);
          Ok(saved.table)
  }

  /** Login succeeds exactly when the live user found by the email has a
      stored hash that accepts the password. */
  lemma LoginSucceeds(cfg: Config.Settings, h: Hasher, users: Repository.Table, email: string, password: string, now: int)
    ensures LoginUser(cfg, h, users, email, password, now).Ok? <==>
      var found := Users.Get(users, ByEmail(email));
      found.Ok? && found.value.Some? && VerifyPassword(h, password, StoredHash(found.value.value))
  {
  }

  /** Login with the password that the stored hash of the user found by the
      email accepts succeeds. */
  lemma LoginFound(cfg: Config.Settings, h: Hasher, users: Repository.Table, email: string, password: string, now: int, row: Row)
    requires Users.Get(users, ByEmail(email)) == Ok(Some(row))
    requires VerifyPassword(h, password, StoredHash(row))
    ensures LoginUser(cfg, h, users, email, password, now).Ok?
  {
  }

  /** After a password change that stored the hash of `newPassword` for the
      user found by `email`, logging in with that email and `newPassword`
      succeeds. */
  lemma {:induction false} LoginAfterPasswordChange(
    cfg: Config.Settings, h: Hasher, users: Repository.Table, email: string, newPassword: string, i: nat, now: int)
    requires Sound(h)
    requires Users.Lookup(users, ByEmail(email)) == Ok(Some(i))
    ensures i < |users.rows|
    ensures var t1 := users.(rows := users.rows[i := WithPassword(users.rows[i], h.hash(newPassword))]);
      LoginUser(cfg, h, t1, email, newPassword, now).Ok?
  {
    var patch := map[PasswordColumn := Text(h.hash(newPassword))];
    var t1 := users.(rows := users.rows[i := WithPassword(users.rows[i], h.hash(newPassword))]);
    PasswordPatch(users.rows[i], h.hash(newPassword));
    Users.LookupAfterPatch(users, ByEmail(email), i, patch);
    StoredHashWithPassword(users.rows[i], h.hash(newPassword));
    LoginFound(cfg, h, t1, email, newPassword, now, t1.rows[i]);
  }

  /** A successful reset lets the user log in with the new password. */
  lemma ResetThenLogin(
    cfg: Config.Settings, h: Hasher, users: Repository.Table, email: string, password: string, newPassword: string, now: int)
    requires Sound(h)
    requires ResetPassword(h, users, email, password, newPassword, true).Ok?
    ensures LoginUser(cfg, h, ResetPassword(h, users, email, password, newPassword, true).value, email, newPassword, now).Ok?
  {
    var i := Users.Lookup(users, ByEmail(email)).value.value;
    LoginAfterPasswordChange(cfg, h, users, email, newPassword, i, now);
  }

  /** Anyone who knows an account's email can take it over through
      `forget_password`: afterwards the password they chose logs in. */
  lemma ForgetThenLogin(
    cfg: Config.Settings, h: Hasher, users: Repository.Table, email: string, password: string, now: int)
    requires Sound(h) && password != ""
    requires ForgetPassword(h, users, email, password, true).Ok?
    ensures LoginUser(cfg, h, ForgetPassword(h, users, email, password, true).value, email, password, now).Ok?
  {
    var i := Users.Lookup(users, ByEmail(email)).value.value;
    LoginAfterPasswordChange(cfg, h, users, email, password, i, now);
  }

  /** The access token of a successful login identifies the same user through
      `get_current_user` until it expires, provided the user's id is unique
      among live users. */
  lemma {:induction false} LoginThenCurrentUser(
    cfg: Config.Settings, h: Hasher, users: Repository.Table, email: string, password: string,
    now: int, later: int, i: nat, id: int)
    requires Repository.IdColumn in users.columns
    requires Users.Lookup(users, ByEmail(email)) == Ok(Some(i))
    requires i < |users.rows| && Field(users.rows[i], Repository.IdColumn) == Int(id)
    requires forall j :: 0 <= j < |users.rows| && j != i ==>
      !(Repository.Live(users.rows[j]) && Field(users.rows[j], Repository.IdColumn) == Int(id))
    requires LoginUser(cfg, h, users, email, password, now).Ok?
    requires now >= 0 && cfg.accessTokenExpireMinutes > 0
    requires now <= later <= now + cfg.accessTokenExpireMinutes * 60
    ensures GetCurrentUser(cfg, Some(LoginUser(cfg, h, users, email, password, now).value.accessToken), users, later)
      == Ok(Accounts.FromRow(users.rows[i]))
  {
    assert Users.Get(users, ByEmail(email)) == Ok(Some(users.rows[i]));
    assert Accounts.FromRow(users.rows[i]).id == Some(id);
    IssuedTokenResolves(cfg, users, i, id, now, later, cfg.accessTokenExpireMinutes);
  }
}

=== FILE: carts.dfy ===
/** The cart routes: adding a product (merging into an existing line),
    removing a line, and clearing the cart, each for the signed-in user.
    After a change the handler recomputes the cart's total from its lines;
    the model reads `cart.items` as the lines stored after the change. */
module Carts {
  import opened Common
  import opened ShopModel

  const ProductNotFound: Error := Http(404, "Product not found")
  const CartNotFound: Error := Http(404, "Cart not found")
  const ItemNotInCart: Error := Http(404, "Item not found in cart")

  /** The `quantity` query parameter when the caller leaves it out. */
  const DefaultQuantity: int := 1

  /** The stored shop after an add, and the line the route returns. */
  datatype Added = Added(shop: Shop, item: CartItem)

  /** Changing a cart's total does not change which cart is the user's. */
  lemma RetotalKeepsOwner(carts: seq<Cart>, c: nat, userId: int, amount: int)
    requires FindKey(carts, CartOwner, userId) == Some(c)
    ensures FindKey(carts[c := carts[c].(totalAmount := amount)], CartOwner, userId) == Some(c)
  {
    var carts1 := carts[c := carts[c].(totalAmount := amount)];
    assert forall j :: 0 <= j < |carts1| ==> CartOwner(carts1[j]) == CartOwner(carts[j]);
    FindKeyAt(carts1, CartOwner, userId, c);
  }

  /** Lines are looked up by their cart and product. */
  function LineSlot(x: CartItem): (int, int) { (x.cartId, x.productId) }

  /** Lines are removed by their own id within the user's cart. */
  function LineInCart(x: CartItem): (int, int) { (x.id, x.cartId) }

  /** The user's cart, created empty (total 0) when they have none. */
  function OpenCart(carts: seq<Cart>, userId: int): (r: (seq<Cart>, nat))
    ensures r.1 < |r.0| && r.0[r.1].userId == userId
    ensures FindKey(r.0, CartOwner, userId) == Some(r.1)
    ensures FindKey(carts, CartOwner, userId).Some? ==> r.0 == carts
    ensures FindKey(carts, CartOwner, userId).None? ==>
      r.0 == carts + [Cart(NewKey(carts, CartKey), userId, 0)] && r.1 == |carts|
  {
    match FindKey(carts, CartOwner, userId)
    case Some(c) => (carts, c)
    case None =>
      var carts1 := carts + [Cart(NewKey(carts, CartKey), userId, 0)];
      assert forall j :: 0 <= j < |carts| ==> CartOwner(carts1[j]) != userId;
      (carts1, |carts|)
  }

  /** The lines after putting `quantity` more of the product in the cart: the
      first line for it grows and keeps its price, or a new line is appended
      at `unitPrice`. The second component is the position of that line. */
  function PutLine(items: seq<CartItem>, cartId: int, productId: int, quantity: int, unitPrice: int)
    : (r: (seq<CartItem>, nat))
    ensures r.1 < |r.0|
    ensures r.0[r.1].cartId == cartId && r.0[r.1].productId == productId
    ensures match FindKey(items, LineSlot, (cartId, productId))
      case Some(k) =>
        r.0 == items[k := items[k].(quantity := items[k].quantity + quantity)] && r.1 == k
      case None =>
        r.0 == items + [CartItem(NewKey(items, ItemKey), cartId, productId, quantity, unitPrice)] && r.1 == |items|
  {
    match FindKey(items, LineSlot, (cartId, productId))
    case Some(k) => (items[k := items[k].(quantity := items[k].quantity + quantity)], k)
    case None => (items + [CartItem(NewKey(items, ItemKey), cartId, productId, quantity, unitPrice)], |items|)
  }

  /** `add_to_cart(product_id, quantity)` for `user`. */
  function AddToCart(shop: Shop, user: ShopUser, productId: int, quantity: int): (r: Result<Added>)
    ensures r.Err? <==> forall j :: 0 <= j < |shop.products| ==> shop.products[j].id != productId
    ensures r.Err? ==> r.error == ProductNotFound
    ensures r.Ok? ==>
      var s1 := r.value.shop;
      && s1.users == shop.users && s1.categories == shop.categories && s1.products == shop.products
      && s1.orders == shop.orders && s1.orderItems == shop.orderItems
    ensures r.Ok? ==>
      var s1 := r.value.shop;
      var c := FindKey(s1.carts, CartOwner, user.id);
      && c.Some?
      && r.value.item.cartId == s1.carts[c.value].id
      && r.value.item.productId == productId
      && r.value.item in s1.cartItems
      && s1.carts[c.value].totalAmount == CartTotal(s1.cartItems, s1.carts[c.value].id)
  {
    match FindKey(shop.products, ProductKey, productId)
    case None => Err(ProductNotFound)
    case Some(p) =>
      var got := OpenCart(shop.carts, user.id);
      var carts := got.0;
      var c := got.1;
      var cartId := carts[c].id;
      var put := PutLine(shop.cartItems, cartId, productId, quantity, shop.products[p].price);
      var items := put.0;
      var k := put.1;
      var carts1 := carts[c := carts[c].(totalAmount := CartTotal(items, cartId))];
      RetotalKeepsOwner(carts, c, user.id, CartTotal(items, cartId));
      Ok(Added(shop.(carts := carts1, cartItems := items), items[k]))
  }

  /** The user's existing cart keeps its key and only its total changes; a user
      without a cart gets a new one with a fresh key. */
  lemma AddToCartCarts(shop: Shop, user: ShopUser, productId: int, quantity: int)
    requires AddToCart(shop, user, productId, quantity).Ok?
    ensures var a := AddToCart(shop, user, productId, quantity).value;
      var s1 := a.shop;
      match FindKey(shop.carts, CartOwner, user.id)
      case Some(c) =>
        && |s1.carts| == |shop.carts|
        && s1.carts[c] == shop.carts[c].(totalAmount := s1.carts[c].totalAmount)
        && forall i :: 0 <= i < |shop.carts| && i != c ==> s1.carts[i] == shop.carts[i]
      case None =>
        && |s1.carts| == |shop.carts| + 1
        && s1.carts[..|shop.carts|] == shop.carts
        && s1.carts[|shop.carts|].userId == user.id
        && s1.carts[|shop.carts|].id !in CartIds(shop.carts)
  {
  }

  /** A product already in the cart grows its first line by `quantity` at the
      line's original price; otherwise a new line is appended at the
      product's current price, with a fresh key. */
  lemma AddToCartLine(shop: Shop, user: ShopUser, productId: int, quantity: int)
    requires AddToCart(shop, user, productId, quantity).Ok?
    ensures var a := AddToCart(shop, user, productId, quantity).value;
      var s1 := a.shop;
      var item := a.item;
      var p := FindKey(shop.products, ProductKey, productId).value;
      match FindKey(shop.cartItems, LineSlot, (item.cartId, productId))
      case Some(k) =>
        && item == shop.cartItems[k].(quantity := shop.cartItems[k].quantity + quantity)
        && s1.cartItems == shop.cartItems[k := item]
      case None =>
        && item.quantity == quantity && item.price == shop.products[p].price
        && s1.cartItems == shop.cartItems + [item]
        && forall j :: 0 <= j < |shop.cartItems| ==> shop.cartItems[j].id < item.id
  {
    var a := AddToCart(shop, user, productId, quantity).value;
    var p := FindKey(shop.products, ProductKey, productId).value;
    var got := OpenCart(shop.carts, user.id);
    var cartId := got.0[got.1].id;
    var put := PutLine(shop.cartItems, cartId, productId, quantity, shop.products[p].price);
    assert a.item == put.0[put.1] && a.shop.cartItems == put.0;
  }

  /** Replacing one line by another of the same cart changes that cart's
      total by the difference of their amounts and no other cart's. */
  lemma ReplaceLineTotal(front: seq<CartItem>, y: CartItem, y1: CartItem, back: seq<CartItem>, d: int)
    requires y1.cartId == y.cartId
    ensures CartTotal(front + [y1] + back, d)
      == CartTotal(front + [y] + back, d) + (if y.cartId == d then y1.price * y1.quantity - y.price * y.quantity else 0)
  {
    CartTotalConcat(front + [y], back, d);
    CartTotalConcat(front, [y], d);
    CartTotalConcat(front + [y1], back, d);
    CartTotalConcat(front, [y1], d);
    CartTotalSingle(y, d);
    CartTotalSingle(y1, d);
  }

  /** Adding `quantity` to line `k` raises its cart's total by `quantity`
      times the line's price. */
  lemma MergeLineTotal(items: seq<CartItem>, k: nat, quantity: int, d: int)
    requires k < |items|
    ensures CartTotal(items[k := items[k].(quantity := items[k].quantity + quantity)], d)
      == CartTotal(items, d) + (if d == items[k].cartId then quantity * items[k].price else 0)
  {
    var y := items[k];
    var y1 := y.(quantity := y.quantity + quantity);
    var front, back := items[..k], items[k + 1..];
    assert items == front + [y] + back;
    assert items[k := y1] == front + [y1] + back;
    ReplaceLineTotal(front, y, y1, back, d);
    assert y1.price * y1.quantity == y.price * y.quantity + quantity * y.price by {
      Distribute(y.price, y.quantity, quantity);
    }
  }

  lemma Distribute(p: int, a: int, b: int)
    ensures p * (a + b) == p * a + b * p
  {
  }

  /** Putting `quantity` of a product in cart `cartId` raises that cart's
      total by `quantity` times the line's unit price and leaves every other
      cart's total alone. */
  lemma PutLineTotals(items: seq<CartItem>, cartId: int, productId: int, quantity: int, unitPrice: int, d: int)
    ensures var put := PutLine(items, cartId, productId, quantity, unitPrice);
      CartTotal(put.0, d) == CartTotal(items, d) + (if d == cartId then quantity * put.0[put.1].price else 0)
  {
    var put := PutLine(items, cartId, productId, quantity, unitPrice);
    match FindKey(items, LineSlot, (cartId, productId))
    case Some(k) =>
      MergeLineTotal(items, k, quantity, d);
    case None =>
      var x := put.0[|items|];
      assert put.0 == items + [x];
      CartTotalConcat(items, [x], d);
      CartTotalSingle(x, d);
  }

  /** The cart `OpenCart` hands back keeps the cart invariant, and its stored
      total is the sum over its lines. */
  lemma OpenCartValid(carts: seq<Cart>, items: seq<CartItem>, userId: int)
    requires CartKeysUnique(carts) && ItemsInCarts(carts, items) && TotalsConsistent(carts, items)
    ensures var got := OpenCart(carts, userId);
      && CartKeysUnique(got.0) && ItemsInCarts(got.0, items) && TotalsConsistent(got.0, items)
      && CartIds(carts) <= CartIds(got.0)
  {
    if FindKey(carts, CartOwner, userId).None? {
      NewCartValid(carts, items, Cart(NewKey(carts, CartKey), userId, 0));
    }
  }

  /** A cart with a key above every other, total 0 and no lines keeps the
      cart invariant. */
  lemma NewCartValid(carts: seq<Cart>, items: seq<CartItem>, added: Cart)
    requires CartKeysUnique(carts) && ItemsInCarts(carts, items) && TotalsConsistent(carts, items)
    requires forall j :: 0 <= j < |carts| ==> carts[j].id < added.id
    requires added.totalAmount == 0
    ensures var carts1 := carts + [added];
      && CartKeysUnique(carts1) && ItemsInCarts(carts1, items) && TotalsConsistent(carts1, items)
      && CartIds(carts1) == CartIds(carts) + {added.id}
  {
    var carts1 := carts + [added];
    assert added.id !in CartIds(carts);
    forall x | x in items
      ensures x.cartId != added.id
    {
      assert x.cartId in CartIds(carts);
    }
    CartTotalNoLines(items, added.id);
    assert CartIds(carts1) == CartIds(carts) + {added.id} by {
      assert forall x :: x in carts1 <==> x in carts || x == added;
    }
  }

  /** Opening the user's cart, putting the line and recomputing that cart's
      total keeps the cart invariant and raises the total by exactly
      `quantity` times the line's unit price. */
  lemma PutKeepsValid(carts0: seq<Cart>, items0: seq<CartItem>, userId: int, productId: int, quantity: int, unitPrice: int)
    requires CartKeysUnique(carts0) && ItemsInCarts(carts0, items0) && TotalsConsistent(carts0, items0)
    ensures var got := OpenCart(carts0, userId);
      var cartId := got.0[got.1].id;
      var put := PutLine(items0, cartId, productId, quantity, unitPrice);
      var carts1 := got.0[got.1 := got.0[got.1].(totalAmount := CartTotal(put.0, cartId))];
      && CartKeysUnique(carts1) && ItemsInCarts(carts1, put.0) && TotalsConsistent(carts1, put.0)
      && carts1[got.1].totalAmount == got.0[got.1].totalAmount + quantity * put.0[put.1].price
  {
    var got := OpenCart(carts0, userId);
    var carts, c := got.0, got.1;
    var cartId := carts[c].id;
    var put := PutLine(items0, cartId, productId, quantity, unitPrice);
    var items1 := put.0;
    var carts1 := carts[c := carts[c].(totalAmount := CartTotal(items1, cartId))];
    OpenCartValid(carts0, items0, userId);
    forall i | 0 <= i < |carts| && i != c
      ensures CartTotal(items1, carts[i].id) == CartTotal(items0, carts[i].id)
    {
      PutLineTotals(items0, cartId, productId, quantity, unitPrice, carts[i].id);
    }
    PutLineTotals(items0, cartId, productId, quantity, unitPrice, cartId);
    RetotalKeepsConsistent(carts, items0, items1, c);
    RetotalKeepsKeys(carts, c, CartTotal(items1, cartId));
    assert cartId in CartIds(carts);
    PutLineInCarts(carts, items0, cartId, productId, quantity, unitPrice);
  }

  /** Changing a total changes no cart's key. */
  lemma RetotalKeepsKeys(carts: seq<Cart>, c: nat, amount: int)
    requires c < |carts| && CartKeysUnique(carts)
    ensures CartIds(carts[c := carts[c].(totalAmount := amount)]) == CartIds(carts)
    ensures CartKeysUnique(carts[c := carts[c].(totalAmount := amount)])
  {
    var carts1 := carts[c := carts[c].(totalAmount := amount)];
    assert forall i :: 0 <= i < |carts| ==> carts1[i].id == carts[i].id;
    assert forall x :: x in carts ==> exists i :: 0 <= i < |carts| && carts[i] == x;
    assert forall x :: x in carts1 ==> exists i :: 0 <= i < |carts| && carts1[i] == x;
  }

  /** The line put in an existing cart is not an orphan. */
  lemma PutLineInCarts(carts: seq<Cart>, items: seq<CartItem>, cartId: int, productId: int, quantity: int, unitPrice: int)
    requires ItemsInCarts(carts, items) && cartId in CartIds(carts)
    ensures ItemsInCarts(carts, PutLine(items, cartId, productId, quantity, unitPrice).0)
  {
    var items1 := PutLine(items, cartId, productId, quantity, unitPrice).0;
    forall x | x in items1
      ensures x.cartId in CartIds(carts)
    {
      if x !in items {
        assert x.cartId == cartId;
      }
    }
  }

  /** An add keeps the cart invariant, and raises the user's cart total (0
      for a cart it had to create) by exactly `quantity` times the line's
      unit price. */
  lemma AddToCartKeepsValid(shop: Shop, user: ShopUser, productId: int, quantity: int)
    requires Valid(shop)
    requires AddToCart(shop, user, productId, quantity).Ok?
    ensures Valid(AddToCart(shop, user, productId, quantity).value.shop)
    ensures var a := AddToCart(shop, user, productId, quantity).value;
      var c := FindKey(a.shop.carts, CartOwner, user.id).value;
      var before := FindKey(shop.carts, CartOwner, user.id);
      a.shop.carts[c].totalAmount == (if before.Some? then shop.carts[before.value].totalAmount else 0) + quantity * a.item.price
  {
    var p := FindKey(shop.products, ProductKey, productId).value;
    PutKeepsValid(shop.carts, shop.cartItems, user.id, productId, quantity, shop.products[p].price);
  }

  /** `remove_from_cart(item_id)` for `user`: only a line of the user's own
      cart can go. */
  function RemoveFromCart(shop: Shop, user: ShopUser, itemId: int): (r: Result<Shop>)
    ensures FindKey(shop.carts, CartOwner, user.id).None? ==> r == Err(CartNotFound)
    ensures r.Err? ==> r == Err(CartNotFound) || r == Err(ItemNotInCart)
    ensures FindKey(shop.carts, CartOwner, user.id).Some? ==>
      var c := FindKey(shop.carts, CartOwner, user.id).value;
      var cart := shop.carts[c];
      && ((forall j :: 0 <= j < |shop.cartItems| ==> !(shop.cartItems[j].id == itemId && shop.cartItems[j].cartId == cart.id))
          <==> r == Err(ItemNotInCart))
      && (r.Ok? ==>
            var s1 := r.value;
            && s1.users == shop.users && s1.categories == shop.categories && s1.products == shop.products
            && s1.orders == shop.orders && s1.orderItems == shop.orderItems
            && |s1.cartItems| == |shop.cartItems| - 1
            && (exists k :: 0 <= k < |shop.cartItems| && shop.cartItems[k].id == itemId && shop.cartItems[k].cartId == cart.id
                 && s1.cartItems == shop.cartItems[..k] + shop.cartItems[k + 1..])
            && (forall x :: x in shop.cartItems && x.cartId != cart.id ==> x in s1.cartItems)
            && s1.carts == shop.carts[c := cart.(totalAmount := CartTotal(s1.cartItems, cart.id))])
  {
    match FindKey(shop.carts, CartOwner, user.id)
    case None => Err(CartNotFound)
    case Some(c) =>
      var cart := shop.carts[c];
      match FindKey(shop.cartItems, LineInCart, (itemId, cart.id))
      case None => Err(ItemNotInCart)
      case Some(k) =>
        var items := shop.cartItems[..k] + shop.cartItems[k + 1..];
        assert shop.cartItems == shop.cartItems[..k] + [shop.cartItems[k]] + shop.cartItems[k + 1..];
        assert forall x :: x in shop.cartItems && x != shop.cartItems[k] ==> x in items;
        Ok(shop.(carts := shop.carts[c := cart.(totalAmount := CartTotal(items, cart.id))], cartItems := items))
  }

  /** `clear_cart()` for `user`: every line of the cart goes and its total
      becomes 0. */
  function ClearCart(shop: Shop, user: ShopUser): (r: Result<Shop>)
    ensures r.Err? <==> FindKey(shop.carts, CartOwner, user.id).None?
    ensures r.Err? ==> r.error == CartNotFound
    ensures r.Ok? ==>
      var s1 := r.value;
      var c := FindKey(shop.carts, CartOwner, user.id).value;
      && s1.users == shop.users && s1.categories == shop.categories && s1.products == shop.products
      && s1.orders == shop.orders && s1.orderItems == shop.orderItems
      && s1.carts == shop.carts[c := shop.carts[c].(totalAmount := 0)]
      && ItemsOf(s1.cartItems, shop.carts[c].id) == []
      && (forall x :: x in s1.cartItems ==> x in shop.cartItems)
      && (forall x :: x in shop.cartItems && x.cartId != shop.carts[c].id ==> x in s1.cartItems)
  {
    match FindKey(shop.carts, CartOwner, user.id)
    case None => Err(CartNotFound)
    case Some(c) =>
      var cartId := shop.carts[c].id;
      ItemsOfOtherCarts(shop.cartItems, cartId, cartId);
      Ok(shop.(carts := shop.carts[c := shop.carts[c].(totalAmount := 0)],
               cartItems := OtherCarts(shop.cartItems, cartId)))
  }

  /** Dropping line `k` of cart `c` and recomputing that cart's total keeps
      the cart invariant and lowers the total by the line's amount. */
  lemma DropLineKeepsValid(carts: seq<Cart>, items: seq<CartItem>, c: nat, k: nat)
    requires CartKeysUnique(carts) && ItemsInCarts(carts, items) && TotalsConsistent(carts, items)
    requires c < |carts| && k < |items| && items[k].cartId == carts[c].id
    ensures var items1 := items[..k] + items[k + 1..];
      var carts1 := carts[c := carts[c].(totalAmount := CartTotal(items1, carts[c].id))];
      && CartKeysUnique(carts1) && ItemsInCarts(carts1, items1) && TotalsConsistent(carts1, items1)
      && carts1[c].totalAmount == carts[c].totalAmount - items[k].price * items[k].quantity
  {
    var cartId := carts[c].id;
    var items1 := items[..k] + items[k + 1..];
    forall i | 0 <= i < |carts|
      ensures CartTotal(items1, carts[i].id)
        == CartTotal(items, carts[i].id) - (if carts[i].id == cartId then items[k].price * items[k].quantity else 0)
    {
      DropLineTotal(items, k, carts[i].id);
    }
    RetotalKeepsConsistent(carts, items, items1, c);
    RetotalKeepsKeys(carts, c, CartTotal(items1, cartId));
    assert forall x :: x in items1 ==> x in items;
  }

  /** Dropping line `k` lowers its cart's total by the line's amount and
      leaves every other cart's total alone. */
  lemma DropLineTotal(items: seq<CartItem>, k: nat, d: int)
    requires k < |items|
    ensures CartTotal(items[..k] + items[k + 1..], d)
      == CartTotal(items, d) - (if items[k].cartId == d then items[k].price * items[k].quantity else 0)
  {
    var y := items[k];
    var front, back := items[..k], items[k + 1..];
    assert items == front + [y] + back;
    CartTotalConcat(front + [y], back, d);
    CartTotalConcat(front, [y], d);
    CartTotalConcat(front, back, d);
    CartTotalSingle(y, d);
  }

  /** A removal keeps the cart invariant and lowers the user's cart total by
      exactly the removed line's price times quantity. */
  lemma RemoveFromCartKeepsValid(shop: Shop, user: ShopUser, itemId: int)
    requires Valid(shop)
    requires RemoveFromCart(shop, user, itemId).Ok?
    ensures Valid(RemoveFromCart(shop, user, itemId).value)
    ensures var c := FindKey(shop.carts, CartOwner, user.id).value;
      var k := FindKey(shop.cartItems, LineInCart, (itemId, shop.carts[c].id)).value;
      RemoveFromCart(shop, user, itemId).value.carts[c].totalAmount
        == shop.carts[c].totalAmount - shop.cartItems[k].price * shop.cartItems[k].quantity
  {
    var c := FindKey(shop.carts, CartOwner, user.id).value;
    var k := FindKey(shop.cartItems, LineInCart, (itemId, shop.carts[c].id)).value;
    RemoveFromCartAt(shop, user, itemId, c, k);
    DropLineKeepsValid(shop.carts, shop.cartItems, c, k);
  }

  /** The outcome of a removal, given where the user's cart and the line
      are. */
  lemma RemoveFromCartAt(shop: Shop, user: ShopUser, itemId: int, c: nat, k: nat)
    requires FindKey(shop.carts, CartOwner, user.id) == Some(c)
    requires FindKey(shop.cartItems, LineInCart, (itemId, shop.carts[c].id)) == Some(k)
    ensures var items := shop.cartItems[..k] + shop.cartItems[k + 1..];
      RemoveFromCart(shop, user, itemId)
        == Ok(shop.(carts := shop.carts[c := shop.carts[c].(totalAmount := CartTotal(items, shop.carts[c].id))], cartItems := items))
  {
  }

  /** A line appended with a key above every other is the one found by its
      key and cart. */
  lemma AppendedLineFound(items: seq<CartItem>, x: CartItem)
    requires forall j :: 0 <= j < |items| ==> items[j].id < x.id
    ensures FindKey(items + [x], LineInCart, (x.id, x.cartId)) == Some(|items|)
  {
    FindKeyAt(items + [x], LineInCart, (x.id, x.cartId), |items|);
  }

  /** An add of a product the user's existing cart does not hold appends one
      line, with a key above every other, and recomputes that cart's total. */
  lemma AddToCartAppends(shop: Shop, user: ShopUser, productId: int, quantity: int, a: Added, c: nat)
    requires AddToCart(shop, user, productId, quantity) == Ok(a)
    requires FindKey(shop.carts, CartOwner, user.id) == Some(c)
    requires FindKey(shop.cartItems, LineSlot, (shop.carts[c].id, productId)).None?
    ensures a.item.cartId == shop.carts[c].id
    ensures forall j :: 0 <= j < |shop.cartItems| ==> shop.cartItems[j].id < a.item.id
    ensures a.shop == shop.(carts := shop.carts[c := shop.carts[c].(totalAmount := CartTotal(shop.cartItems + [a.item], shop.carts[c].id))],
                            cartItems := shop.cartItems + [a.item])
  {
  }

  /** Removing the line just appended to a consistent cart restores the
      shop, whatever total the cart showed in between. */
  lemma RemoveAppended(shop: Shop, user: ShopUser, c: nat, x: CartItem, total: int)
    requires FindKey(shop.carts, CartOwner, user.id) == Some(c)
    requires TotalsConsistent(shop.carts, shop.cartItems)
    requires x.cartId == shop.carts[c].id
    requires forall j :: 0 <= j < |shop.cartItems| ==> shop.cartItems[j].id < x.id
    ensures RemoveFromCart(shop.(carts := shop.carts[c := shop.carts[c].(totalAmount := total)], cartItems := shop.cartItems + [x]),
                           user, x.id) == Ok(shop)
  {
    var s1 := shop.(carts := shop.carts[c := shop.carts[c].(totalAmount := total)], cartItems := shop.cartItems + [x]);
    var n := |shop.cartItems|;
    RetotalKeepsOwner(shop.carts, c, user.id, total);
    AppendedLineFound(shop.cartItems, x);
    RemoveFromCartAt(s1, user, x.id, c, n);
    assert s1.cartItems[..n] + s1.cartItems[n + 1..] == shop.cartItems;
    assert s1.carts[c := s1.carts[c].(totalAmount := CartTotal(shop.cartItems, x.cartId))] == shop.carts;
    assert s1.(carts := shop.carts, cartItems := shop.cartItems) == shop;
  }

  /** Adding a product the user's cart did not hold and then removing the
      line that came back restores the shop exactly. */
  lemma RemoveAfterAdd(shop: Shop, user: ShopUser, productId: int, quantity: int, a: Added)
    requires Valid(shop)
    requires FindKey(shop.carts, CartOwner, user.id).Some?
    requires forall j :: 0 <= j < |shop.cartItems| ==>
      LineSlot(shop.cartItems[j]) != (shop.carts[FindKey(shop.carts, CartOwner, user.id).value].id, productId)
    requires AddToCart(shop, user, productId, quantity) == Ok(a)
    ensures RemoveFromCart(a.shop, user, a.item.id) == Ok(shop)
  {
    var c := FindKey(shop.carts, CartOwner, user.id).value;
    AddToCartAppends(shop, user, productId, quantity, a, c);
    RemoveAppended(shop, user, c, a.item, CartTotal(shop.cartItems + [a.item], shop.carts[c].id));
  }

  /** Emptying cart `c` and setting its total to 0 keeps the cart
      invariant. */
  lemma EmptyCartKeepsValid(carts: seq<Cart>, items: seq<CartItem>, c: nat)
    requires c < |carts|
    requires CartKeysUnique(carts) && ItemsInCarts(carts, items) && TotalsConsistent(carts, items)
    ensures var carts1 := carts[c := carts[c].(totalAmount := 0)];
      var items1 := OtherCarts(items, carts[c].id);
      CartKeysUnique(carts1) && ItemsInCarts(carts1, items1) && TotalsConsistent(carts1, items1)
  {
    var cartId := carts[c].id;
    var items1 := OtherCarts(items, cartId);
    forall i | 0 <= i < |carts|
      ensures CartTotal(items1, carts[i].id) == if i == c then 0 else CartTotal(items, carts[i].id)
    {
      ItemsOfOtherCarts(items, cartId, carts[i].id);
    }
    RetotalKeepsConsistent(carts, items, items1, c);
    RetotalKeepsKeys(carts, c, 0);
  }

  /** Clearing keeps the cart invariant. */
  lemma ClearCartKeepsValid(shop: Shop, user: ShopUser)
    requires Valid(shop)
    requires ClearCart(shop, user).Ok?
    ensures Valid(ClearCart(shop, user).value)
  {
    var c := FindKey(shop.carts, CartOwner, user.id).value;
    ClearCartAt(shop, user, c);
    EmptyCartKeepsValid(shop.carts, shop.cartItems, c);
  }

  /** The outcome of a clear, given where the user's cart is. */
  lemma ClearCartAt(shop: Shop, user: ShopUser, c: nat)
    requires FindKey(shop.carts, CartOwner, user.id) == Some(c)
    ensures ClearCart(shop, user)
      == Ok(shop.(carts := shop.carts[c := shop.carts[c].(totalAmount := 0)], cartItems := OtherCarts(shop.cartItems, shop.carts[c].id)))
  {
  }

  /** Clearing twice is clearing once. */
  lemma ClearCartIdempotent(shop: Shop, user: ShopUser)
    requires ClearCart(shop, user).Ok?
    ensures ClearCart(ClearCart(shop, user).value, user) == ClearCart(shop, user)
  {
    var c := FindKey(shop.carts, CartOwner, user.id).value;
    var cartId := shop.carts[c].id;
    ClearCartAt(shop, user, c);
    var s1 := shop.(carts := shop.carts[c := shop.carts[c].(totalAmount := 0)], cartItems := OtherCarts(shop.cartItems, cartId));
    RetotalKeepsOwner(shop.carts, c, user.id, 0);
    ClearCartAt(s1, user, c);
    OtherCartsTwice(shop.cartItems, cartId);
    assert s1.carts[c := s1.carts[c].(totalAmount := 0)] == s1.carts;
    assert s1.(carts := s1.carts, cartItems := s1.cartItems) == s1;
  }
}

=== FILE: catalog.dfy ===
/** The catalogue routes: products and categories. Reading is open to
    everyone; creating, changing and deleting need the admin role, which is
    checked before anything is looked up. An update only assigns the
    arguments that are truthy. */
module Catalog {
  import opened Common
  import opened ShopModel

  const ProductNotFound: Error := Http(404, "Product not found")
  const CategoryNotFound: Error := Http(404, "Category not found")

  datatype ProductSaved = ProductSaved(shop: Shop, product: Product)
  datatype CategorySaved = CategorySaved(shop: Shop, category: Category)

  /** Python truthiness of an optional text argument (`if name:`). */
  predicate GivenText(o: Option<string>) {
    o.Some? && o.value != ""
  }

  /** Python truthiness of an optional number (`if price:`). */
  predicate GivenNumber(o: Option<int>) {
    o.Some? && o.value != 0
  }

  function HasCategory(shop: Shop, categoryId: int): bool {
    FindKey(shop.categories, CategoryKey, categoryId).Some?
  }

  // ----- products ---------------------------------------------------------

  /** `create_product(name, description, price, category_id, image_url)`. */
  function CreateProduct(
    shop: Shop, user: ShopUser, name: string, description: string, price: int, categoryId: int, imageUrl: Option<string>)
    : (r: Result<ProductSaved>)
    ensures user.role != Admin ==> r == Err(NotEnoughPermissions)
    ensures user.role == Admin && !HasCategory(shop, categoryId) ==> r == Err(CategoryNotFound)
    ensures r.Ok? <==> user.role == Admin && HasCategory(shop, categoryId)
    ensures r.Ok? ==>
      var p := r.value.product;
      && p == Product(p.id, name, Some(description), price, imageUrl, categoryId)
      && (forall j :: 0 <= j < |shop.products| ==> shop.products[j].id < p.id)
      && r.value.shop == shop.(products := shop.products + [p])
  {
    if user.role != Admin then Err(NotEnoughPermissions)
    else if !HasCategory(shop, categoryId) then Err(CategoryNotFound)
    else
      var p := Product(NewKey(shop.products, ProductKey), name, Some(description), price, imageUrl, categoryId);
      Ok(ProductSaved(shop.(products := shop.products + [p]), p))
  }

  /** `read_product(product_id)`: the first product with the key. */
  function ReadProduct(shop: Shop, productId: int): (r: Result<Product>)
    ensures r.Err? <==> forall j :: 0 <= j < |shop.products| ==> shop.products[j].id != productId
    ensures r.Err? ==> r.error == ProductNotFound
    ensures r.Ok? ==> r.value in shop.products && r.value.id == productId
  {
    match FindKey(shop.products, ProductKey, productId)
    case None => Err(ProductNotFound)
    case Some(k) => Ok(shop.products[k])
  }

  /** The product after the truthy arguments of an update are assigned. */
  function Patched(p: Product, name: Option<string>, description: Option<string>, price: Option<int>,
                   categoryId: Option<int>, imageUrl: Option<string>): Product
  {
    p.(name := if GivenText(name) then name.value else p.name,
       description := if GivenText(description) then description else p.description,
       price := if GivenNumber(price) then price.value else p.price,
       categoryId := if GivenNumber(categoryId) then categoryId.value else p.categoryId,
       imageUrl := if GivenText(imageUrl) then imageUrl else p.imageUrl)
  }

  /** `update_product(product_id, ...)`: a truthy `category_id` must name a
      category, or the route fails before anything is committed. */
  function UpdateProduct(
    shop: Shop, user: ShopUser, productId: int, name: Option<string>, description: Option<string>,
    price: Option<int>, categoryId: Option<int>, imageUrl: Option<string>)
    : (r: Result<ProductSaved>)
    ensures user.role != Admin ==> r == Err(NotEnoughPermissions)
    ensures user.role == Admin && ReadProduct(shop, productId).Err? ==> r == Err(ProductNotFound)
    ensures user.role == Admin && ReadProduct(shop, productId).Ok? && GivenNumber(categoryId) && !HasCategory(shop, categoryId.value)
      ==> r == Err(CategoryNotFound)
    ensures r.Ok? <==>
      user.role == Admin && ReadProduct(shop, productId).Ok? && (GivenNumber(categoryId) ==> HasCategory(shop, categoryId.value))
    ensures r.Ok? ==>
      var k := FindKey(shop.products, ProductKey, productId).value;
      var was := shop.products[k];
      var p := r.value.product;
      && p.id == was.id
      && p.name == (if GivenText(name) then name.value else was.name)
      && p.description == (if GivenText(description) then description else was.description)
      && p.price == (if GivenNumber(price) then price.value else was.price)
      && p.categoryId == (if GivenNumber(categoryId) then categoryId.value else was.categoryId)
      && p.imageUrl == (if GivenText(imageUrl) then imageUrl else was.imageUrl)
      && HasCategory(shop, p.categoryId) == (GivenNumber(categoryId) || HasCategory(shop, was.categoryId))
      && r.value.shop == shop.(products := shop.products[k := p])
  {
    if user.role != Admin then Err(NotEnoughPermissions)
    else
      match FindKey(shop.products, ProductKey, productId)
      case None => Err(ProductNotFound)
      case Some(k) =>
        if GivenNumber(categoryId) && !HasCategory(shop, categoryId.value) then Err(CategoryNotFound)
        else
          var p := Patched(shop.products[k], name, description, price, categoryId, imageUrl);
          Ok(ProductSaved(shop.(products := shop.products[k := p]), p))
  }

  /** `delete_product(product_id)`: the first product with the key goes. */
  function DeleteProduct(shop: Shop, user: ShopUser, productId: int): (r: Result<Shop>)
    ensures user.role != Admin ==> r == Err(NotEnoughPermissions)
    ensures user.role == Admin ==> (r.Err? <==> ReadProduct(shop, productId).Err?)
    ensures r.Err? ==> r.error == NotEnoughPermissions || r.error == ProductNotFound
    ensures r.Ok? ==>
      var k := FindKey(shop.products, ProductKey, productId).value;
      && r.value == shop.(products := Drop(shop.products, k))
      && |r.value.products| == |shop.products| - 1
      && (forall x :: x in shop.products && x.id != productId ==> x in r.value.products)
  {
    if user.role != Admin then Err(NotEnoughPermissions)
    else
      match FindKey(shop.products, ProductKey, productId)
      case None => Err(ProductNotFound)
      case Some(k) =>
        var rest := Drop(shop.products, k);
        assert shop.products == shop.products[..k] + [shop.products[k]] + shop.products[k + 1..];
        assert forall x :: x in shop.products && x != shop.products[k] ==> x in rest;
        Ok(shop.(products := rest))
  }

  /** A created product can be read back under its new key. */
  lemma CreateThenReadProduct(
    shop: Shop, user: ShopUser, name: string, description: string, price: int, categoryId: int, imageUrl: Option<string>,
    saved: ProductSaved)
    requires CreateProduct(shop, user, name, description, price, categoryId, imageUrl) == Ok(saved)
    ensures ReadProduct(saved.shop, saved.product.id) == Ok(saved.product)
  {
    FindKeyAt(saved.shop.products, ProductKey, saved.product.id, |shop.products|);
  }

  /** An update with no truthy argument (all missing, empty texts, zero
      numbers) changes nothing and returns the product as it was. */
  lemma UpdateProductFalsyArgumentsKeep(
    shop: Shop, user: ShopUser, productId: int, name: Option<string>, description: Option<string>,
    price: Option<int>, categoryId: Option<int>, imageUrl: Option<string>)
    requires user.role == Admin && ReadProduct(shop, productId).Ok?
    requires !GivenText(name) && !GivenText(description) && !GivenNumber(price)
    requires !GivenNumber(categoryId) && !GivenText(imageUrl)
    ensures UpdateProduct(shop, user, productId, name, description, price, categoryId, imageUrl)
      == Ok(ProductSaved(shop, ReadProduct(shop, productId).value))
  {
    var k := FindKey(shop.products, ProductKey, productId).value;
    assert shop.products[k := shop.products[k]] == shop.products;
  }

  /** After an update the product reads back as updated. */
  lemma UpdateThenReadProduct(
    shop: Shop, user: ShopUser, productId: int, name: Option<string>, description: Option<string>,
    price: Option<int>, categoryId: Option<int>, imageUrl: Option<string>, saved: ProductSaved)
    requires UpdateProduct(shop, user, productId, name, description, price, categoryId, imageUrl) == Ok(saved)
    ensures ReadProduct(saved.shop, productId) == Ok(saved.product)
  {
    var k := FindKey(shop.products, ProductKey, productId).value;
    assert forall j :: 0 <= j < |shop.products| ==> ProductKey(saved.shop.products[j]) == ProductKey(shop.products[j]);
    FindKeyAt(saved.shop.products, ProductKey, productId, k);
  }

  /** With unique product keys, a deleted product can no longer be read. */
  lemma DeleteThenReadProduct(shop: Shop, user: ShopUser, productId: int, after: Shop)
    requires KeysUnique(shop.products, ProductKey)
    requires DeleteProduct(shop, user, productId) == Ok(after)
    ensures ReadProduct(after, productId) == Err(ProductNotFound)
  {
    var k := FindKey(shop.products, ProductKey, productId).value;
    DropRemovesKey(shop.products, ProductKey, k);
  }

  // ----- categories -------------------------------------------------------

  /** `create_category(name, description)`; the slug is left unset. */
  function CreateCategory(shop: Shop, user: ShopUser, name: string, description: Option<string>): (r: Result<CategorySaved>)
    ensures r.Err? <==> user.role != Admin
    ensures r.Err? ==> r.error == NotEnoughPermissions
    ensures r.Ok? ==>
      var c := r.value.category;
      && c.name == name && c.description == description && c.slug.None?
      && (forall j :: 0 <= j < |shop.categories| ==> shop.categories[j].id < c.id)
      && r.value.shop == shop.(categories := shop.categories + [c])
  {
    if user.role != Admin then Err(NotEnoughPermissions)
    else
      var c := Category(NewKey(shop.categories, CategoryKey), name, description, None);
      Ok(CategorySaved(shop.(categories := shop.categories + [c]), c))
  }

  /** `read_category(category_id)`. */
  function ReadCategory(shop: Shop, categoryId: int): (r: Result<Category>)
    ensures r.Err? <==> !HasCategory(shop, categoryId)
    ensures r.Err? ==> r.error == CategoryNotFound
    ensures r.Ok? ==> r.value in shop.categories && r.value.id == categoryId
  {
    match FindKey(shop.categories, CategoryKey, categoryId)
    case None => Err(CategoryNotFound)
    case Some(k) => Ok(shop.categories[k])
  }

  /** `update_category(category_id, name, description)`. */
  function UpdateCategory(shop: Shop, user: ShopUser, categoryId: int, name: Option<string>, description: Option<string>)
    : (r: Result<CategorySaved>)
    ensures user.role != Admin ==> r == Err(NotEnoughPermissions)
    ensures user.role == Admin ==> (r.Err? <==> !HasCategory(shop, categoryId))
    ensures r.Err? ==> r.error == NotEnoughPermissions || r.error == CategoryNotFound
    ensures r.Ok? ==>
      var k := FindKey(shop.categories, CategoryKey, categoryId).value;
      var was := shop.categories[k];
      var c := r.value.category;
      && c.id == was.id && c.slug == was.slug
      && c.name == (if GivenText(name) then name.value else was.name)
      && c.description == (if GivenText(description) then description else was.description)
      && r.value.shop == shop.(categories := shop.categories[k := c])
  {
    if user.role != Admin then Err(NotEnoughPermissions)
    else
      match FindKey(shop.categories, CategoryKey, categoryId)
      case None => Err(CategoryNotFound)
      case Some(k) =>
        var was := shop.categories[k];
        var c := was.(name := if GivenText(name) then name.value else was.name,
                      description := if GivenText(description) then description else was.description);
        Ok(CategorySaved(shop.(categories := shop.categories[k := c]), c))
  }

  /** `delete_category(category_id)`. */
  function DeleteCategory(shop: Shop, user: ShopUser, categoryId: int): (r: Result<Shop>)
    ensures user.role != Admin ==> r == Err(NotEnoughPermissions)
    ensures user.role == Admin ==> (r.Err? <==> !HasCategory(shop, categoryId))
    ensures r.Err? ==> r.error == NotEnoughPermissions || r.error == CategoryNotFound
    ensures r.Ok? ==>
      var k := FindKey(shop.categories, CategoryKey, categoryId).value;
      && r.value == shop.(categories := Drop(shop.categories, k))
      && (forall x :: x in shop.categories && x.id != categoryId ==> x in r.value.categories)
  {
    if user.role != Admin then Err(NotEnoughPermissions)
    else
      match FindKey(shop.categories, CategoryKey, categoryId)
      case None => Err(CategoryNotFound)
      case Some(k) =>
        var rest := Drop(shop.categories, k);
        assert shop.categories == shop.categories[..k] + [shop.categories[k]] + shop.categories[k + 1..];
        assert forall x :: x in shop.categories && x != shop.categories[k] ==> x in rest;
        Ok(shop.(categories := rest))
  }

  /** A new category can be read back, and products can then be created in
      it. */
  lemma CreateCategoryThenProduct(
    shop: Shop, admin: ShopUser, name: string, description: Option<string>, saved: CategorySaved,
    productName: string, productDescription: string, price: int, imageUrl: Option<string>)
    requires CreateCategory(shop, admin, name, description) == Ok(saved)
    ensures ReadCategory(saved.shop, saved.category.id) == Ok(saved.category)
    ensures CreateProduct(saved.shop, admin, productName, productDescription, price, saved.category.id, imageUrl).Ok?
  {
    FindKeyAt(saved.shop.categories, CategoryKey, saved.category.id, |shop.categories|);
  }

  /** An updated category reads back as updated. */
  lemma UpdateThenReadCategory(
    shop: Shop, user: ShopUser, categoryId: int, name: Option<string>, description: Option<string>, saved: CategorySaved)
    requires UpdateCategory(shop, user, categoryId, name, description) == Ok(saved)
    ensures ReadCategory(saved.shop, categoryId) == Ok(saved.category)
  {
    var k := FindKey(shop.categories, CategoryKey, categoryId).value;
    assert forall j :: 0 <= j < |shop.categories| ==> CategoryKey(saved.shop.categories[j]) == CategoryKey(shop.categories[j]);
    FindKeyAt(saved.shop.categories, CategoryKey, categoryId, k);
  }

  /** With unique category keys, a deleted category can no longer be read,
      and no product can be created in it. */
  lemma DeleteThenReadCategory(
    shop: Shop, user: ShopUser, categoryId: int, after: Shop,
    productName: string, productDescription: string, price: int, imageUrl: Option<string>)
    requires KeysUnique(shop.categories, CategoryKey)
    requires DeleteCategory(shop, user, categoryId) == Ok(after)
    ensures ReadCategory(after, categoryId) == Err(CategoryNotFound)
    ensures CreateProduct(after, user, productName, productDescription, price, categoryId, imageUrl) == Err(CategoryNotFound)
  {
    var k := FindKey(shop.categories, CategoryKey, categoryId).value;
    DropRemovesKey(shop.categories, CategoryKey, k);
  }
}

=== FILE: common.dfy ===
/** Shared vocabulary: optional values, results that carry the application's
    failures, and small sequence helpers used by every store in the model. */
module Common {

  datatype Option<+T> = None | Some(value: T)

  /** A failure as the application surfaces it: either an HTTP error raised by a
      handler (status code and detail text) or any other exception that
      propagates out of the handler (a plain `Exception`, a database error, a
      `ValueError` from `int(...)`), identified by its message. */
  datatype Error = Http(status: int, detail: string) | Raised(message: string)

  datatype Result<+T> = Ok(value: T) | Err(error: Error)

  /** Index of the first element whose key equals `k`, the way `.first()` picks
      the first row of an unordered query in table order. */
  function FindKey<T, K(==)>(s: seq<T>, key: T -> K, k: K): (r: Option<nat>)
    ensures r.Some? ==> r.value < |s| && key(s[r.value]) == k
    ensures r.Some? ==> forall j :: 0 <= j < r.value ==> key(s[j]) != k
    ensures r.None? <==> forall j :: 0 <= j < |s| ==> key(s[j]) != k
  {
    if |s| == 0 then None
    else if key(s[0]) == k then Some(0)
    else
      match FindKey(s[1..], key, k)
      case None => None
      case Some(i) => Some(i + 1)
  }

  /** `FindKey` is pinned down by the first matching position. */
  lemma FindKeyAt<T, K>(s: seq<T>, key: T -> K, k: K, i: nat)
    requires i < |s| && key(s[i]) == k
    requires forall j :: 0 <= j < i ==> key(s[j]) != k
    ensures FindKey(s, key, k) == Some(i)
  {
    var r := FindKey(s, key, k);
    assert r.Some?;
  }

  /** OFFSET `skip` LIMIT `limit` over an already ordered sequence. */
  function Window<T>(s: seq<T>, skip: nat, limit: nat): (r: seq<T>)
    ensures |r| <= limit
    ensures skip >= |s| ==> r == []
    ensures skip < |s| ==> |r| == if |s| - skip < limit then |s| - skip else limit
    ensures forall i :: 0 <= i < |r| ==> r[i] == s[skip + i]
  {
    var from := if skip < |s| then skip else |s|;
    var rest := s[from..];
    if |rest| <= limit then rest else rest[..limit]
  }

  /** How many of `n` ordered rows OFFSET `skip` LIMIT `limit` keeps. */
  function PageLength(n: int, skip: int, limit: int): int {
    if skip >= n then 0 else if n - skip < limit then n - skip else limit
  }

  /** Two consecutive windows of the same size together are the window of
      twice that size. */
  lemma WindowJoin<T>(s: seq<T>, skip: nat, limit: nat)
    ensures Window(s, skip, limit) + Window(s, skip + limit, limit) == Window(s, skip, 2 * limit)
  {
    var a, b, c := Window(s, skip, limit), Window(s, skip + limit, limit), Window(s, skip, 2 * limit);
    assert |a + b| == |c|;
    forall i | 0 <= i < |c|
      ensures (a + b)[i] == c[i]
    {
      if i >= |a| {
        assert |a| == limit;
        assert (a + b)[i] == b[i - limit];
      }
    }
  }

  /** Largest element of a sequence of integers, 0 for the empty sequence. */
  function MaxOr0(ids: seq<int>): (m: int)
    ensures m >= 0
    ensures forall i :: 0 <= i < |ids| ==> ids[i] <= m
  {
    if |ids| == 0 then 0
    else
      var rest := MaxOr0(ids[..|ids| - 1]);
      var last := ids[|ids| - 1];
      if last > rest then last else rest
  }

  /** The primary key the database's sequence hands out next: one more than
      every key already present. */
  function FreshId(ids: seq<int>): (r: int)
    ensures r >= 1
    ensures forall i :: 0 <= i < |ids| ==> ids[i] < r
  {
    MaxOr0(ids) + 1
  }
}

=== FILE: config.dfy ===
/** Application settings: token lifetimes, the signing key, and the connection
    pool size validator. Values come from the environment at start-up; the
    model takes them as an explicit record. */
module Config {
  import opened Common

  datatype Settings = Settings(
    accessTokenExpireMinutes: int,
    refreshTokenExpireMinutes: int,
    jwtSecret: string,
    jwtAlgorithm: string,
    dbPoolSize: int,
    webConcurrency: int,
    maxOverflow: int)

  /** Two days. */
  const AccessTokenExpireMinutes: int := 60 * 24 * 2
  /** Fifteen days. */
  const RefreshTokenExpireMinutes: int := 60 * 24 * 15

  /** The settings when no environment variable overrides a default. */
  const Defaults: Settings := Settings(
    AccessTokenExpireMinutes, RefreshTokenExpireMinutes, "", "", 83, 9, 64)

  lemma DefaultLifetimes()
    ensures Defaults.accessTokenExpireMinutes == 2880
    ensures Defaults.refreshTokenExpireMinutes == 21600
    ensures Defaults.accessTokenExpireMinutes < Defaults.refreshTokenExpireMinutes
  {
  }

  /** Python's `//`: the quotient rounded towards minus infinity. */
  function FloorDiv(n: int, d: int): (q: int)
    requires d != 0
    ensures d > 0 ==> q * d <= n < q * d + d
    ensures d < 0 ==> q * d >= n > q * d + d
  {
    if d > 0 then n / d else (-n) / (-d)
  }

  /** The raw `POOL_SIZE` the validator receives before type coercion. */
  datatype PoolInput = PoolUnset | PoolInt(n: int) | PoolText(text: string)

  /** `build_pool`: an integer passes through untouched; anything else (unset,
      or text from the environment) is replaced by
      `max(DB_POOL_SIZE // WEB_CONCURRENCY, 5)`, and a zero concurrency is the
      `ZeroDivisionError` that aborts loading the settings. */
  function BuildPool(v: PoolInput, dbPoolSize: int, webConcurrency: int): (r: Result<int>)
    ensures v.PoolInt? ==> r == Ok(v.n)
    ensures !v.PoolInt? ==> (r.Err? <==> webConcurrency == 0)
    ensures !v.PoolInt? && r.Ok? ==> r.value >= 5
    ensures !v.PoolInt? && r.Ok? && r.value > 5 ==> r.value == FloorDiv(dbPoolSize, webConcurrency)
    ensures !v.PoolInt? && r.Ok? && r.value == 5 ==> FloorDiv(dbPoolSize, webConcurrency) <= 5
  {
    if v.PoolInt? then Ok(v.n)
    else if webConcurrency == 0 then Err(Raised("integer division or modulo by zero"))
    else
      var q := FloorDiv(dbPoolSize, webConcurrency);
      Ok(if q > 5 then q else 5)
  }

  /** With the default 83 connections over 9 workers the pool gets 9. */
  lemma DefaultPoolSize()
    ensures BuildPool(PoolUnset, Defaults.dbPoolSize, Defaults.webConcurrency) == Ok(9)
  {
    assert FloorDiv(83, 9) == 9;
  }
}

=== FILE: numerals.dfy ===
/** Decimal text <-> integers: Python's `str.isdigit`, `int(text)` and
    `str(n)`, restricted to ASCII digits. */
module Numerals {
  import opened Common

  /** The `ValueError` that `int(text)` raises on text that is not an
      integer. */
  const NotAnInteger: Error := Raised("invalid literal for int() with base 10")

  predicate IsDigit(ch: char) {
    '0' <= ch <= '9'
  }

  /** `str.isdigit()`: non-empty and every character a digit. */
  predicate IsDigits(s: string) {
    |s| > 0 && forall i :: 0 <= i < |s| ==> IsDigit(s[i])
  }

  function DigitValue(ch: char): nat
    requires IsDigit(ch)
  {
    ch as int - '0' as int
  }

  function DigitChar(d: nat): (ch: char)
    requires d < 10
    ensures IsDigit(ch) && DigitValue(ch) == d
  {
    ('0' as int + d) as char
  }

  /** Value of a run of digits, most significant first. */
  function DigitsValue(s: string): nat
    requires forall i :: 0 <= i < |s| ==> IsDigit(s[i])
  {
    if |s| == 0 then 0
    else DigitsValue(s[..|s| - 1]) * 10 + DigitValue(s[|s| - 1])
  }

  /** `str(n)` for a non-negative integer: no leading zeros. */
  function NatToString(n: nat): (s: string)
    ensures IsDigits(s)
    ensures |s| > 1 ==> s[0] != '0'
  {
    if n < 10 then [DigitChar(n)]
    else NatToString(n / 10) + [DigitChar(n % 10)]
  }

  /** `str(n)` for any integer. */
  function IntToString(n: int): string {
    if n < 0 then "-" + NatToString(-n) else NatToString(n)
  }

  /** `int(text)`: an optional sign followed by at least one digit; anything
      else is the `ValueError` the caller sees as `None` here. */
  function ParseInt(s: string): (r: Option<int>)
    ensures r.Some? <==> IsDigits(s) || (|s| > 1 && (s[0] == '-' || s[0] == '+') && IsDigits(s[1..]))
    ensures IsDigits(s) ==> r == Some(DigitsValue(s))
  {
    if IsDigits(s) then Some(DigitsValue(s))
    else if |s| > 1 && s[0] == '-' && IsDigits(s[1..]) then Some(0 - DigitsValue(s[1..]) as int)
    else if |s| > 1 && s[0] == '+' && IsDigits(s[1..]) then Some(DigitsValue(s[1..]))
    else None
  }

  /** Reading back the decimal text of `n` gives `n`. */
  lemma {:induction false} DigitsValueOfNatToString(n: nat)
    ensures DigitsValue(NatToString(n)) == n
  {
    if n >= 10 {
      DigitsValueOfNatToString(n / 10);
      var s := NatToString(n / 10) + [DigitChar(n % 10)];
      assert s[..|s| - 1] == NatToString(n / 10);
    }
  }

  /** `int(str(n)) == n` for every integer, the round trip a token subject
      relies on. */
  lemma ParseIntOfIntToString(n: int)
    ensures ParseInt(IntToString(n)) == Some(n)
  {
    if n < 0 {
      DigitsValueOfNatToString(-n);
      var s := IntToString(n);
      assert s[1..] == NatToString(-n);
      assert !IsDigits(s) by { assert !IsDigit(s[0]); }
    } else {
      DigitsValueOfNatToString(n);
    }
  }
}

=== FILE: orders.dfy ===
/** The order routes: checkout of the signed-in user's cart into a pending
    order, reading one order, and the admin's status change. Checkout is
    modelled as one step; its two commits are not. */
module Orders {
  import opened Common
  import opened ShopModel
  import Carts

  const CartIsEmpty: Error := Http(404, "Cart is empty")
  const OrderNotFound: Error := Http(404, "Order not found")

  /** The stored shop after a checkout or a status change, and the order the
      route returns. */
  datatype Placed = Placed(shop: Shop, order: Order)

  /** The order lines a checkout writes: one per cart line, in cart order,
      with keys handed out from `firstKey` on. */
  function Snapshot(lines: seq<CartItem>, orderId: int, firstKey: int): (r: seq<OrderItem>)
    ensures |r| == |lines|
    ensures forall i :: 0 <= i < |lines| ==>
      && r[i].orderId == orderId && r[i].id == firstKey + i
      && r[i].productId == lines[i].productId && r[i].quantity == lines[i].quantity && r[i].price == lines[i].price
  {
    seq(|lines|, i requires 0 <= i < |lines| =>
      OrderItem(firstKey + i, orderId, lines[i].productId, lines[i].quantity, lines[i].price))
  }

  /** The sum of `price * quantity` over order lines. */
  function OrderLineSum(lines: seq<OrderItem>): int {
    if |lines| == 0 then 0
    else OrderLineSum(lines[..|lines| - 1]) + lines[|lines| - 1].price * lines[|lines| - 1].quantity
  }

  /** The snapshot is worth what the cart lines were worth. */
  lemma {:induction false} SnapshotSum(lines: seq<CartItem>, orderId: int, firstKey: int)
    ensures OrderLineSum(Snapshot(lines, orderId, firstKey)) == LineSum(lines)
  {
    if |lines| > 0 {
      var n := |lines| - 1;
      var s := Snapshot(lines, orderId, firstKey);
      assert s[..n] == Snapshot(lines[..n], orderId, firstKey);
      SnapshotSum(lines[..n], orderId, firstKey);
    }
  }

  /** The checkout of cart `c` for user `userId`: the cart's lines move into
      a new pending order priced at the cart's stored total, and the cart is
      emptied but keeps its total. */
  function Checkout(shop: Shop, c: nat, userId: int, address: string, phone: string): (p: Placed)
    requires c < |shop.carts|
    ensures var cart := shop.carts[c];
      var s1 := p.shop;
      var o := p.order;
      var lines := ItemsOf(shop.cartItems, cart.id);
      && o.userId == userId && o.status == Pending && o.totalAmount == cart.totalAmount
      && o.deliveryAddress == address && o.phoneNumber == phone
      && (forall j :: 0 <= j < |shop.orders| ==> shop.orders[j].id < o.id)
      && s1.orders == shop.orders + [o]
      && |s1.orderItems| == |shop.orderItems| + |lines|
      && s1.orderItems[..|shop.orderItems|] == shop.orderItems
      && (forall i :: 0 <= i < |lines| ==>
            var oi := s1.orderItems[|shop.orderItems| + i];
            oi.orderId == o.id && oi.productId == lines[i].productId
            && oi.quantity == lines[i].quantity && oi.price == lines[i].price)
      && ItemsOf(s1.cartItems, cart.id) == []
      && (forall x :: x in shop.cartItems && x.cartId != cart.id ==> x in s1.cartItems)
      && (forall x :: x in s1.cartItems ==> x in shop.cartItems)
      && s1.carts == shop.carts
      && s1.users == shop.users && s1.categories == shop.categories && s1.products == shop.products
  {
    var cart := shop.carts[c];
    var lines := ItemsOf(shop.cartItems, cart.id);
    var o := Order(NewKey(shop.orders, OrderKey), userId, Pending, cart.totalAmount, address, phone);
    var written := Snapshot(lines, o.id, NewKey(shop.orderItems, OrderItemKey));
    ItemsOfOtherCarts(shop.cartItems, cart.id, cart.id);
    assert (shop.orderItems + written)[..|shop.orderItems|] == shop.orderItems;
    Placed(shop.(orders := shop.orders + [o],
                 orderItems := shop.orderItems + written,
                 cartItems := OtherCarts(shop.cartItems, cart.id)), o)
  }

  /** `create_order(delivery_address, phone_number)` for `user`, as written:
      a 404 when the user has no cart or the cart has no lines, otherwise the
      checkout of the user's cart. */
  function CreateOrder(shop: Shop, user: ShopUser, address: string, phone: string): (r: Result<Placed>)
    ensures FindKey(shop.carts, CartOwner, user.id).None? ==> r == Err(CartIsEmpty)
    ensures r.Err? ==> r.error == CartIsEmpty
    ensures FindKey(shop.carts, CartOwner, user.id).Some? ==>
      var c := FindKey(shop.carts, CartOwner, user.id).value;
      && (r.Err? <==> ItemsOf(shop.cartItems, shop.carts[c].id) == [])
      && (r.Ok? ==> r.value == Checkout(shop, c, user.id, address, phone))
  {
    match FindKey(shop.carts, CartOwner, user.id)
    case None => Err(CartIsEmpty)
    case Some(c) =>
      if ItemsOf(shop.cartItems, shop.carts[c].id) == [] then Err(CartIsEmpty)
      else Ok(Checkout(shop, c, user.id, address, phone))
  }

  /** With the cart invariant in force, the order's total is what its lines
      are worth. */
  lemma CheckoutTotal(shop: Shop, c: nat, userId: int, address: string, phone: string)
    requires c < |shop.carts| && Valid(shop)
    ensures var p := Checkout(shop, c, userId, address, phone);
      p.order.totalAmount == OrderLineSum(p.shop.orderItems[|shop.orderItems|..])
  {
    var p := Checkout(shop, c, userId, address, phone);
    var lines := ItemsOf(shop.cartItems, shop.carts[c].id);
    var written := Snapshot(lines, p.order.id, NewKey(shop.orderItems, OrderItemKey));
    assert p.shop.orderItems[|shop.orderItems|..] == written;
    SnapshotSum(lines, p.order.id, NewKey(shop.orderItems, OrderItemKey));
  }

  /** With the cart invariant in force, a placed order's total is what its
      lines are worth. */
  lemma CreateOrderTotal(shop: Shop, user: ShopUser, address: string, phone: string, p: Placed)
    requires Valid(shop)
    requires CreateOrder(shop, user, address, phone) == Ok(p)
    ensures p.order.totalAmount == OrderLineSum(p.shop.orderItems[|shop.orderItems|..])
  {
    CheckoutTotal(shop, FindKey(shop.carts, CartOwner, user.id).value, user.id, address, phone);
  }

  /** As written, checkout leaves the emptied cart showing its old total: a
      cart that was worth anything breaks the cart invariant afterwards. */
  lemma CreateOrderLeavesStaleTotal(shop: Shop, user: ShopUser, address: string, phone: string, p: Placed)
    requires CreateOrder(shop, user, address, phone) == Ok(p)
    requires shop.carts[FindKey(shop.carts, CartOwner, user.id).value].totalAmount != 0
    ensures !TotalsConsistent(p.shop.carts, p.shop.cartItems)
  {
    var c := FindKey(shop.carts, CartOwner, user.id).value;
    assert p.shop.carts[c] == shop.carts[c];
    assert CartTotal(p.shop.cartItems, shop.carts[c].id) == 0;
  }

  /** A one-line cart worth 500 goes through checkout and stays at 500 with
      no lines. */
  lemma StaleTotalExample()
    ensures var user := ShopUser(1, "ann", "ann@example.com", "h", true, true, Customer, 0, 0, None);
      var shop := Shop([user], [], [], [Cart(1, 1, 500)], [CartItem(1, 1, 7, 1, 500)], [], []);
      && Valid(shop)
      && CreateOrder(shop, user, "Main St 1", "555").Ok?
      && var s1 := CreateOrder(shop, user, "Main St 1", "555").value.shop;
         s1.cartItems == [] && s1.carts == [Cart(1, 1, 500)]
  {
    var user := ShopUser(1, "ann", "ann@example.com", "h", true, true, Customer, 0, 0, None);
    var x := CartItem(1, 1, 7, 1, 500);
    var shop := Shop([user], [], [], [Cart(1, 1, 500)], [x], [], []);
    CartTotalSingle(x, 1);
    assert CartIds(shop.carts) == {1};
    assert FindKey(shop.carts, CartOwner, 1) == Some(0);
    ItemsOfSingle(x, 1);
    assert [x][..0] == [];
    assert OtherCarts([x], 1) == [];
  }

  /** `create_order` with the cart's total reset to 0 along with its lines,
      the way `clear_cart` leaves a cart. */
  function CreateOrderCorrected(shop: Shop, user: ShopUser, address: string, phone: string): (r: Result<Placed>)
    ensures r.Err? <==> CreateOrder(shop, user, address, phone).Err?
    ensures r.Ok? ==>
      var c := FindKey(shop.carts, CartOwner, user.id).value;
      var p := CreateOrder(shop, user, address, phone).value;
      && r.value.order == p.order
      && r.value.shop == p.shop.(carts := shop.carts[c := shop.carts[c].(totalAmount := 0)])
  {
    match CreateOrder(shop, user, address, phone)
    case Err(e) => Err(e)
    case Ok(p) =>
      var c := FindKey(shop.carts, CartOwner, user.id).value;
      Ok(p.(shop := p.shop.(carts := shop.carts[c := shop.carts[c].(totalAmount := 0)])))
  }

  /** The corrected checkout keeps the cart invariant. */
  lemma CreateOrderCorrectedKeepsValid(shop: Shop, user: ShopUser, address: string, phone: string, p: Placed)
    requires Valid(shop)
    requires CreateOrderCorrected(shop, user, address, phone) == Ok(p)
    ensures Valid(p.shop)
  {
    var c := FindKey(shop.carts, CartOwner, user.id).value;
    assert p.shop.cartItems == OtherCarts(shop.cartItems, shop.carts[c].id);
    Carts.EmptyCartKeepsValid(shop.carts, shop.cartItems, c);
  }

  /** A second checkout straight after the first finds the cart empty. */
  lemma CheckoutTwiceRefused(shop: Shop, user: ShopUser, address: string, phone: string, p: Placed)
    requires CreateOrder(shop, user, address, phone) == Ok(p)
    ensures CreateOrder(p.shop, user, address, phone) == Err(CartIsEmpty)
  {
    assert p.shop.carts == shop.carts;
  }

  /** `get_order(order_id)` for `user`: a missing order is a 404 for anyone;
      an existing one is shown to an admin or its owner, and is a 403 for
      everyone else. */
  function GetOrder(shop: Shop, user: ShopUser, orderId: int): (r: Result<Order>)
    ensures (forall j :: 0 <= j < |shop.orders| ==> shop.orders[j].id != orderId) ==> r == Err(OrderNotFound)
    ensures r.Ok? ==> r.value in shop.orders && r.value.id == orderId && (user.role == Admin || r.value.userId == user.id)
    ensures (exists j :: 0 <= j < |shop.orders| && shop.orders[j].id == orderId) ==>
      var o := shop.orders[FindKey(shop.orders, OrderKey, orderId).value];
      (r.Ok? <==> user.role == Admin || o.userId == user.id)
      && (r.Err? ==> r.error == NotEnoughPermissions)
  {
    match FindKey(shop.orders, OrderKey, orderId)
    case None => Err(OrderNotFound)
    case Some(k) =>
      var o := shop.orders[k];
      if user.role != Admin && o.userId != user.id then Err(NotEnoughPermissions)
      else Ok(o)
  }

  /** `update_order_status(order_id, status)`: admins only, checked before
      the order is looked up; any status may follow any other. */
  function UpdateOrderStatus(shop: Shop, user: ShopUser, orderId: int, status: OrderStatus): (r: Result<Placed>)
    ensures user.role != Admin ==> r == Err(NotEnoughPermissions)
    ensures user.role == Admin ==>
      (r.Err? <==> forall j :: 0 <= j < |shop.orders| ==> shop.orders[j].id != orderId)
    ensures r.Err? ==> r.error == NotEnoughPermissions || r.error == OrderNotFound
    ensures r.Ok? ==>
      var k := FindKey(shop.orders, OrderKey, orderId).value;
      && r.value.order == shop.orders[k].(status := status)
      && r.value.shop == shop.(orders := shop.orders[k := r.value.order])
  {
    if user.role != Admin then Err(NotEnoughPermissions)
    else
      match FindKey(shop.orders, OrderKey, orderId)
      case None => Err(OrderNotFound)
      case Some(k) =>
        var o := shop.orders[k].(status := status);
        Ok(Placed(shop.(orders := shop.orders[k := o]), o))
  }

  /** There is no transition rule: an admin can move a cancelled order back
      to pending, and its owner then sees it pending. */
  lemma CancelledBackToPending(shop: Shop, admin: ShopUser, owner: ShopUser, orderId: int, p: Placed)
    requires admin.role == Admin
    requires UpdateOrderStatus(shop, admin, orderId, Cancelled) == Ok(p)
    requires p.order.userId == owner.id
    ensures UpdateOrderStatus(p.shop, admin, orderId, Pending).Ok?
    ensures GetOrder(UpdateOrderStatus(p.shop, admin, orderId, Pending).value.shop, owner, orderId)
      == Ok(p.order.(status := Pending))
  {
    var k := FindKey(shop.orders, OrderKey, orderId).value;
    assert forall j :: 0 <= j < |shop.orders| ==> OrderKey(p.shop.orders[j]) == OrderKey(shop.orders[j]);
    FindKeyAt(p.shop.orders, OrderKey, orderId, k);
    var q := UpdateOrderStatus(p.shop, admin, orderId, Pending).value;
    assert forall j :: 0 <= j < |shop.orders| ==> OrderKey(q.shop.orders[j]) == OrderKey(shop.orders[j]);
    FindKeyAt(q.shop.orders, OrderKey, orderId, k);
  }
}

=== FILE: repository.dfy ===
/** The generic repository over one table: `create`, `get`, `update`,
    `delete`, `all`, `f`, `get_or_create` and `get_existing_object`, as pure
    transitions of an in-memory table. A database write that fails is an
    explicit `storeOk == false` argument. */
module Repository {
  import opened Common
  import opened Rows
  import Strings

  /** A table: its name (`__tablename__`), its column names and its rows in
      storage order. */
  datatype Table = Table(name: string, columns: set<string>, rows: seq<Row>)

  const IdColumn: string := "id"
  const CreatedAtColumn: string := "created_at"
  const DeletedAtColumn: string := "deleted_at"

  /** A SELECT: equality filters, plus `deleted_at IS NULL` when `liveOnly`. */
  datatype Query = Query(eq: Filters, liveOnly: bool)

  /** Not soft-deleted. */
  predicate Live(row: Row) {
    Field(row, DeletedAtColumn) == Null
  }

  predicate Admits(q: Query, row: Row) {
    Matches(row, q.eq) && (q.liveOnly ==> Live(row))
  }

  /** `filter_by` only accepts names of the table's columns. */
  predicate Known(t: Table, f: Filters) {
    f.Keys <= t.columns
  }

  function UnknownColumn(t: Table): Error {
    Raised("Entity namespace for \"" + t.name + "\" has no such property")
  }

  const MultipleRows: Error := Raised("Multiple rows were found when one or none was required")

  function CommitFailed(): Error {
    Raised("commit failed")
  }

  /** Positions holding `true`, ascending. */
  function Positions(flags: seq<bool>): (r: seq<nat>)
    ensures forall i :: 0 <= i < |r| ==> r[i] < |flags| && flags[r[i]]
    ensures forall i, j :: 0 <= i < j < |r| ==> r[i] < r[j]
  {
    if |flags| == 0 then []
    else
      var n := |flags| - 1;
      var prefix := Positions(flags[..n]);
      if flags[n] then prefix + [n] else prefix
  }

  /** No `true` position is missed. */
  lemma {:induction false} PositionsComplete(flags: seq<bool>)
    ensures forall j :: 0 <= j < |flags| && flags[j] ==> j in Positions(flags)
  {
    if |flags| > 0 {
      var n := |flags| - 1;
      PositionsComplete(flags[..n]);
      assert forall j :: 0 <= j < n ==> flags[..n][j] == flags[j];
    }
  }

  /** The first position listed is the first `true` one. */
  lemma {:induction false} PositionsFirst(flags: seq<bool>)
    ensures |Positions(flags)| > 0 ==> forall j :: 0 <= j < Positions(flags)[0] ==> !flags[j]
  {
    if |flags| > 0 {
      var n := |flags| - 1;
      var pre := flags[..n];
      PositionsFirst(pre);
      PositionsComplete(pre);
      assert forall j :: 0 <= j < n ==> pre[j] == flags[j];
    }
  }

  /** Positions of the admitted rows, in storage order. */
  function Hits(rows: seq<Row>, q: Query): (r: seq<nat>)
    ensures forall i :: 0 <= i < |r| ==> r[i] < |rows| && Admits(q, rows[r[i]])
    ensures forall j :: 0 <= j < |rows| && Admits(q, rows[j]) ==> j in r
    ensures forall i, j :: 0 <= i < j < |r| ==> r[i] < r[j]
    ensures |r| > 0 ==> forall j :: 0 <= j < r[0] ==> !Admits(q, rows[j])
    ensures (forall j :: 0 <= j < |rows| ==> !Admits(q, rows[j])) ==> r == []
  {
    var flags := seq(|rows|, j requires 0 <= j < |rows| => Admits(q, rows[j]));
    PositionsComplete(flags);
    PositionsFirst(flags);
    Positions(flags)
  }

  function Select(rows: seq<Row>, idx: seq<nat>): (r: seq<Row>)
    requires forall i :: 0 <= i < |idx| ==> idx[i] < |rows|
    ensures |r| == |idx|
    ensures forall i :: 0 <= i < |idx| ==> r[i] == rows[idx[i]]
  {
    seq(|idx|, i requires 0 <= i < |idx| => rows[idx[i]])
  }

  /** The admitted rows in storage order: every one of them and nothing else. */
  function Matching(rows: seq<Row>, q: Query): (r: seq<Row>)
    ensures |r| == |Hits(rows, q)|
    ensures forall x :: x in r ==> x in rows && Admits(q, x)
    ensures forall j :: 0 <= j < |rows| && Admits(q, rows[j]) ==> rows[j] in r
  {
    var h := Hits(rows, q);
    var r := Select(rows, h);
    assert forall j :: 0 <= j < |rows| && Admits(q, rows[j]) ==> rows[j] in r by {
      forall j | 0 <= j < |rows| && Admits(q, rows[j])
        ensures rows[j] in r
      {
        var k :| 0 <= k < |h| && h[k] == j;
        assert r[k] == rows[j];
      }
    }
    r
  }

  lemma HitsAtMostOne(rows: seq<Row>, q: Query)
    ensures |Hits(rows, q)| <= 1 <==>
      forall i, j :: 0 <= i < |rows| && 0 <= j < |rows| && Admits(q, rows[i]) && Admits(q, rows[j]) ==> i == j
  {
    var h := Hits(rows, q);
    if |h| > 1 {
      assert h[0] < h[1];
      assert Admits(q, rows[h[0]]) && Admits(q, rows[h[1]]);
    }
  }

  /** `scalar_one_or_none()` on a query: the position of the one admitted row,
      nothing when no row is admitted, an error when several are. */
  function Locate(t: Table, q: Query): (r: Result<Option<nat>>)
    ensures !Known(t, q.eq) ==> r == Err(UnknownColumn(t))
    ensures Known(t, q.eq) ==>
      (r == Ok(None) <==> forall j :: 0 <= j < |t.rows| ==> !Admits(q, t.rows[j]))
    ensures Known(t, q.eq) ==>
      (r == Err(MultipleRows) <==>
        exists i, j :: 0 <= i < |t.rows| && 0 <= j < |t.rows| && i != j && Admits(q, t.rows[i]) && Admits(q, t.rows[j]))
    ensures r.Ok? && r.value.Some? ==>
      r.value.value < |t.rows| && Admits(q, t.rows[r.value.value])
      && forall j :: 0 <= j < |t.rows| && Admits(q, t.rows[j]) ==> j == r.value.value
    ensures r.Err? ==> r == Err(UnknownColumn(t)) || r == Err(MultipleRows)
    ensures forall i :: Known(t, q.eq) && 0 <= i < |t.rows| && Admits(q, t.rows[i])
              && (forall j :: 0 <= j < |t.rows| && j != i ==> !Admits(q, t.rows[j]))
              ==> r == Ok(Some(i))
  {
    if !Known(t, q.eq) then Err(UnknownColumn(t))
    else
      var h := Hits(t.rows, q);
      HitsAtMostOne(t.rows, q);
      if |h| == 0 then Ok(None)
      else if |h| == 1 then Ok(Some(h[0]))
      else Err(MultipleRows)
  }

  /** When exactly one row is admitted, `Locate` finds its position. */
  lemma LocateUnique(t: Table, q: Query, i: nat)
    requires Known(t, q.eq) && i < |t.rows| && Admits(q, t.rows[i])
    requires forall j :: 0 <= j < |t.rows| && j != i ==> !Admits(q, t.rows[j])
    ensures Locate(t, q) == Ok(Some(i))
  {
    assert Locate(t, q) != Ok(None);
  }

  /** A lookup through `Locate` returning the row itself. */
  function Find(t: Table, q: Query): (r: Result<Option<Row>>)
    ensures r.Ok? && r.value.Some? ==> r.value.value in t.rows && Admits(q, r.value.value)
  {
    match Locate(t, q)
    case Err(e) => Err(e)
    case Ok(None) => Ok(None)
    case Ok(Some(i)) => Ok(Some(t.rows[i]))
  }

  /** `get(**filters)`: the single row whose columns equal every filter, a
      `None`-valued filter meaning `IS NULL`; `None` when no row matches, and
      an error when more than one does. */
  function Get(t: Table, filters: Filters): (r: Result<Option<Row>>)
    ensures !Known(t, filters) ==> r.Err?
    ensures Known(t, filters) ==>
      (r == Ok(None) <==> forall j :: 0 <= j < |t.rows| ==> !Matches(t.rows[j], filters))
    ensures Known(t, filters) ==>
      (r.Err? <==>
        exists i, j :: 0 <= i < |t.rows| && 0 <= j < |t.rows| && i != j && Matches(t.rows[i], filters) && Matches(t.rows[j], filters))
    ensures r.Ok? && r.value.Some? ==> r.value.value in t.rows && Matches(r.value.value, filters)
  {
    Find(t, Query(filters, false))
  }

  /** `f(**filters)`: every matching row, in storage order. */
  function F(t: Table, filters: Filters): (r: Result<seq<Row>>)
    ensures r.Err? <==> !Known(t, filters)
    ensures r.Ok? ==> forall x :: x in r.value ==> x in t.rows && Matches(x, filters)
    ensures r.Ok? ==> forall j :: 0 <= j < |t.rows| && Matches(t.rows[j], filters) ==> t.rows[j] in r.value
  {
    if !Known(t, filters) then Err(UnknownColumn(t))
    else Ok(Matching(t.rows, Query(filters, false)))
  }

  /** `get_existing_object(unique_fields)`: the first matching row, if any;
      several matches are not an error here. */
  function GetExistingObject(t: Table, uniqueFields: Filters): (r: Result<Option<Row>>)
    ensures r.Err? <==> !Known(t, uniqueFields)
    ensures r.Ok? ==>
      (r.value.None? <==> forall j :: 0 <= j < |t.rows| ==> !Matches(t.rows[j], uniqueFields))
    ensures r.Ok? && r.value.Some? ==>
      exists k :: 0 <= k < |t.rows| && t.rows[k] == r.value.value && Matches(t.rows[k], uniqueFields)
        && forall j :: 0 <= j < k ==> !Matches(t.rows[j], uniqueFields)
  {
    if !Known(t, uniqueFields) then Err(UnknownColumn(t))
    else
      var h := Hits(t.rows, Query(uniqueFields, false));
      if |h| == 0 then Ok(None)
      else Ok(Some(t.rows[h[0]]))
  }

  // ----- create ---------------------------------------------------------

  /** The keyword options of `create`. An empty `uniqueFields` is the
      default `None`. */
  datatype CreateOptions = CreateOptions(add: bool, flush: bool, commit: bool, uniqueFields: Filters)

  const DefaultCreate: CreateOptions := CreateOptions(true, true, true, map[])

  /** The table after a call, and the object the call hands back. */
  datatype Saved = Saved(table: Table, row: Row)

  function IdOf(row: Row): int {
    match Field(row, IdColumn)
    case Int(i) => i
    case _ => 0
  }

  function Ids(rows: seq<Row>): seq<int> {
    seq(|rows|, i requires 0 <= i < |rows| => IdOf(rows[i]))
  }

  /** The key the database assigns to the next inserted row. */
  function NextId(t: Table): (n: int)
    ensures n >= 1
    ensures forall j :: 0 <= j < |t.rows| ==> IdOf(t.rows[j]) < n
  {
    var ids := Ids(t.rows);
    assert forall j :: 0 <= j < |t.rows| ==> ids[j] == IdOf(t.rows[j]);
    FreshId(ids)
  }

  /** The object as stored once the database has written it. */
  function Stored(t: Table, obj: Row): Row {
    obj[IdColumn := Int(NextId(t))]
  }

  function AlreadyExists(t: Table): Error {
    Raised(Strings.Capitalize(t.name) + " already exists")
  }

  function NotFound(t: Table): Error {
    Raised(Strings.Capitalize(t.name) + " not found")
  }

  /** The part of `create` after the uniqueness check. */
  function Persist(t: Table, obj: Row, opts: CreateOptions, storeOk: bool): (r: Result<Saved>)
    ensures r.Err? <==> opts.add && !opts.commit && opts.flush && !storeOk
    ensures !opts.add && r.Ok? ==> r.value == Saved(t, obj)
    ensures opts.add && opts.commit && !storeOk ==> r == Ok(Saved(t, obj))
    ensures opts.add && (opts.commit || opts.flush) && storeOk ==>
      && r.Ok?
      && r.value.table == t.(rows := t.rows + [r.value.row])
      && r.value.row.Keys == obj.Keys + {IdColumn}
      && (forall k :: k in obj && k != IdColumn ==> r.value.row[k] == obj[k])
      && (forall j :: 0 <= j < |t.rows| ==> IdOf(t.rows[j]) < IdOf(r.value.row))
  {
    if !opts.add then Ok(Saved(t, obj))
    else if opts.commit then
      // a failed commit is rolled back, logged and swallowed
      if storeOk then Ok(Saved(t.(rows := t.rows + [Stored(t, obj)]), Stored(t, obj)))
      else Ok(Saved(t, obj))
    else if opts.flush then
      if storeOk then Ok(Saved(t.(rows := t.rows + [Stored(t, obj)]), Stored(t, obj)))
      else Err(Raised("flush failed"))
    else
      // added to the session only; the key is assigned at a later flush
      Ok(Saved(t.(rows := t.rows + [obj]), obj))
  }

  /** `create(obj, add=, flush=, commit=, unique_fields=)`: with unique
      fields, an existing match refuses the insert; otherwise the write goes
      through `Persist`. */
  function Create(t: Table, obj: Row, opts: CreateOptions, storeOk: bool): (r: Result<Saved>)
    ensures |opts.uniqueFields| > 0 && Known(t, opts.uniqueFields)
      && (exists j :: 0 <= j < |t.rows| && Matches(t.rows[j], opts.uniqueFields))
      ==> r.Err?
    ensures |opts.uniqueFields| > 0 && (exists j :: 0 <= j < |t.rows| && Matches(t.rows[j], opts.uniqueFields))
      && (forall i, j :: (0 <= i < |t.rows| && 0 <= j < |t.rows| && Matches(t.rows[i], opts.uniqueFields)
            && Matches(t.rows[j], opts.uniqueFields)) ==> i == j)
      && Known(t, opts.uniqueFields)
      ==> r == Err(AlreadyExists(t))
    ensures |opts.uniqueFields| > 0 && r.Ok? ==>
      forall j :: 0 <= j < |t.rows| ==> !Matches(t.rows[j], opts.uniqueFields)
    ensures |opts.uniqueFields| > 0 && Known(t, opts.uniqueFields)
      && (forall j :: 0 <= j < |t.rows| ==> !Matches(t.rows[j], opts.uniqueFields))
      ==> r == Persist(t, obj, opts, storeOk)
    ensures |opts.uniqueFields| == 0 ==> r == Persist(t, obj, opts, storeOk)
  {
    if |opts.uniqueFields| > 0 then
      match Get(t, opts.uniqueFields)
      case Err(e) => Err(e)
      case Ok(Some(_)) => Err(AlreadyExists(t))
      case Ok(None) => Persist(t, obj, opts, storeOk)
    else Persist(t, obj, opts, storeOk)
  }

  // ----- update ---------------------------------------------------------

  /** `setattr` for every field set in the patch (`exclude_unset=True`). */
  function ApplyPatch(row: Row, patch: Row): (r: Row)
    ensures r.Keys == row.Keys + patch.Keys
    ensures forall k :: k in patch ==> r[k] == patch[k]
    ensures forall k :: k !in patch ==> Field(r, k) == Field(row, k)
  {
    row + patch
  }

  /** `update(obj_current, obj_in)` for the row at position `at`. The commit is
      not guarded, so a failed write propagates. */
  function Update(t: Table, at: nat, patch: Row, storeOk: bool): (r: Result<Saved>)
    requires at < |t.rows|
    ensures r.Err? <==> !storeOk
    ensures r.Ok? ==> r.value.table == t.(rows := t.rows[at := r.value.row])
    ensures r.Ok? ==> forall k :: k in patch ==> k in r.value.row && r.value.row[k] == patch[k]
    ensures r.Ok? ==> forall k :: k !in patch ==> Field(r.value.row, k) == Field(t.rows[at], k)
  {
    if !storeOk then Err(CommitFailed())
    else
      var row := ApplyPatch(t.rows[at], patch);
      Ok(Saved(t.(rows := t.rows[at := row]), row))
  }

  /** An empty patch changes nothing. */
  lemma UpdateEmptyPatchIsNoOp(t: Table, at: nat)
    requires at < |t.rows|
    ensures Update(t, at, map[], true) == Ok(Saved(t, t.rows[at]))
  {
    assert ApplyPatch(t.rows[at], map[]) == t.rows[at];
    assert t.rows[at := t.rows[at]] == t.rows;
  }

  // ----- delete ---------------------------------------------------------

  function RemoveAt(s: seq<Row>, i: nat): (r: seq<Row>)
    requires i < |s|
    ensures |r| == |s| - 1
    ensures multiset(r) == multiset(s) - multiset{s[i]}
  {
    assert s == s[..i] + [s[i]] + s[i + 1..];
    s[..i] + s[i + 1..]
  }

  /** `delete(**filters)`: the one matching row is physically removed; no
      match raises "<Table> not found". The commit is not guarded. */
  function Delete(t: Table, filters: Filters, storeOk: bool): (r: Result<Table>)
    ensures Known(t, filters) && (forall j :: 0 <= j < |t.rows| ==> !Matches(t.rows[j], filters))
      ==> r == Err(NotFound(t))
    ensures forall i :: Known(t, filters) && 0 <= i < |t.rows| && Matches(t.rows[i], filters)
              && (forall j :: 0 <= j < |t.rows| && j != i ==> !Matches(t.rows[j], filters))
              ==> r == (if storeOk then Ok(t.(rows := t.rows[..i] + t.rows[i + 1..])) else Err(CommitFailed()))
    ensures r.Ok? ==>
      && r.value.name == t.name && r.value.columns == t.columns
      && |r.value.rows| == |t.rows| - 1
      && exists j :: 0 <= j < |t.rows| && Matches(t.rows[j], filters)
           && multiset(r.value.rows) == multiset(t.rows) - multiset{t.rows[j]}
  {
    match Locate(t, Query(filters, false))
    case Err(e) => Err(e)
    case Ok(None) => Err(NotFound(t))
    case Ok(Some(i)) =>
      if storeOk then Ok(t.(rows := RemoveAt(t.rows, i))) else Err(CommitFailed())
  }

  /** After a delete the same filters find nothing, and deleting again
      raises "<Table> not found". */
  lemma DeleteThenGone(t: Table, filters: Filters, storeOk: bool)
    requires Delete(t, filters, true).Ok?
    ensures var t1 := Delete(t, filters, true).value;
      && Get(t1, filters) == Ok(None)
      && Delete(t1, filters, storeOk) == Err(NotFound(t1))
  {
    DeleteLeavesNoMatch(t, filters);
  }

  /** A successful delete leaves a table with the same columns in which no
      row matches the filters. */
  lemma DeleteLeavesNoMatch(t: Table, filters: Filters)
    requires Delete(t, filters, true).Ok?
    ensures var t1 := Delete(t, filters, true).value;
      && Known(t1, filters)
      && forall j :: 0 <= j < |t1.rows| ==> !Matches(t1.rows[j], filters)
  {
    var q := Query(filters, false);
    var l := Locate(t, q);
    assert l.Ok? && l.value.Some?;
    var i := l.value.value;
    assert Delete(t, filters, true).value.rows == RemoveAt(t.rows, i);
    RemoveOnlyMatch(t.rows, i, filters);
  }

  /** Removing the only matching row leaves no matching row. */
  lemma RemoveOnlyMatch(rows: seq<Row>, i: nat, filters: Filters)
    requires i < |rows|
    requires forall j :: 0 <= j < |rows| && Matches(rows[j], filters) ==> j == i
    ensures forall j :: 0 <= j < |RemoveAt(rows, i)| ==> !Matches(RemoveAt(rows, i)[j], filters)
  {
    var r := RemoveAt(rows, i);
    forall j | 0 <= j < |r|
      ensures !Matches(r[j], filters)
    {
      if j < i {
        assert r[j] == rows[j];
      } else {
        assert r[j] == rows[j + 1];
      }
    }
  }

  // ----- all ------------------------------------------------------------

  /** Paging and sorting arguments of `all`; an empty or missing sort field or
      order falls back to the default. */
  datatype Page = Page(skip: int, limit: int, sortField: Option<string>, sortOrder: Option<string>)

  const DefaultPage: Page := Page(0, 100, None, None)

  function OrDefault(o: Option<string>, d: string): string {
    if o.None? || o.value == "" then d else o.value
  }

  /** `{k: v for k, v in kwargs.items() if v is not None}`. */
  function DropNulls(f: Filters): (r: Filters)
    ensures r.Keys <= f.Keys
    ensures forall k :: k in r ==> r[k] == f[k] && r[k] != Null
    ensures forall k :: k in f && f[k] != Null ==> k in r
  {
    map k | k in f && f[k] != Null :: f[k]
  }

  function SortColumn(p: Page): string {
    OrDefault(p.sortField, CreatedAtColumn)
  }

  function SortOrder(p: Page): string {
    OrDefault(p.sortOrder, "desc")
  }

  lemma WindowOfSorted(s: seq<Row>, skip: nat, limit: nat, column: string, ascending: bool)
    requires Sorted(s, column, ascending)
    ensures Sorted(Window(s, skip, limit), column, ascending)
  {
    var w := Window(s, skip, limit);
    forall i | 0 <= i < |w| - 1
      ensures RowBefore(w[i], w[i + 1], column, ascending)
    {
      assert w[i] == s[skip + i] && w[i + 1] == s[skip + i + 1];
    }
  }

  lemma WindowElements(s: seq<Row>, skip: nat, limit: nat)
    ensures forall x :: x in Window(s, skip, limit) ==> x in s
    ensures skip == 0 && |s| <= limit ==> Window(s, skip, limit) == s
  {
    var w := Window(s, skip, limit);
    forall x | x in w
      ensures x in s
    {
      var i :| 0 <= i < |w| && w[i] == x;
      assert x == s[skip + i];
    }
  }

  /** The rows a valid `all` query returns: the admitted rows, ordered,
      then windowed. */
  function Listed(rows: seq<Row>, q: Query, column: string, ascending: bool, skip: nat, limit: nat): (r: seq<Row>)
    ensures |r| <= limit
    ensures Sorted(r, column, ascending)
    ensures forall x :: x in r ==> x in rows && Admits(q, x)
    ensures skip == 0 && |Matching(rows, q)| <= limit ==>
      forall j :: 0 <= j < |rows| && Admits(q, rows[j]) ==> rows[j] in r
  {
    var chosen := Matching(rows, q);
    var sorted := SortBy(chosen, column, ascending);
    WindowOfSorted(sorted, skip, limit, column, ascending);
    WindowElements(sorted, skip, limit);
    SortBySameElements(chosen, column, ascending);
    Window(sorted, skip, limit)
  }

  /** Sorting keeps the set of elements. */
  lemma SortBySameElements(s: seq<Row>, column: string, ascending: bool)
    ensures forall x :: x in SortBy(s, column, ascending) <==> x in s
  {
    var sorted := SortBy(s, column, ascending);
    forall x
      ensures x in sorted <==> x in s
    {
      assert x in sorted <==> x in multiset(sorted);
      assert x in s <==> x in multiset(s);
    }
  }

  /** A listing page holds as many rows as OFFSET and LIMIT leave of the
      matches. */
  lemma ListedLength(rows: seq<Row>, q: Query, column: string, ascending: bool, skip: nat, limit: nat)
    ensures |Listed(rows, q, column, ascending, skip, limit)| == PageLength(|Matching(rows, q)|, skip, limit)
  {
    assert |SortBy(Matching(rows, q), column, ascending)| == |Matching(rows, q)|;
  }

  /** Consecutive pages of a listing join into the page of twice the size:
      paging neither skips nor repeats a row. */
  lemma ListedPagesJoin(rows: seq<Row>, q: Query, column: string, ascending: bool, skip: nat, limit: nat)
    ensures Listed(rows, q, column, ascending, skip, limit) + Listed(rows, q, column, ascending, skip + limit, limit)
      == Listed(rows, q, column, ascending, skip, 2 * limit)
  {
    WindowJoin(SortBy(Matching(rows, q), column, ascending), skip, limit);
  }

  /** A first page large enough for every match holds exactly the matching
      rows, each as often as it is stored. */
  lemma {:induction false} ListedWhole(rows: seq<Row>, q: Query, column: string, ascending: bool, limit: nat)
    requires |Matching(rows, q)| <= limit
    ensures multiset(Listed(rows, q, column, ascending, 0, limit)) == multiset(Matching(rows, q))
  {
    WindowElements(SortBy(Matching(rows, q), column, ascending), 0, limit);
  }

  /** Every page is the OFFSET/LIMIT window of the one full listing, so the
      first page holds the first rows of the whole sorted listing. */
  lemma ListedSliceOfWhole(rows: seq<Row>, q: Query, column: string, ascending: bool, skip: nat, limit: nat, n: nat)
    requires |Matching(rows, q)| <= n
    ensures Listed(rows, q, column, ascending, skip, limit) == Window(Listed(rows, q, column, ascending, 0, n), skip, limit)
  {
    var sorted := SortBy(Matching(rows, q), column, ascending);
    WindowElements(sorted, 0, n);
  }

  /** The query behind `all`: filter, `ORDER BY`, `OFFSET`, `LIMIT`. */
  function ListRows(t: Table, page: Page, filters: Filters, liveOnly: bool): (r: Result<seq<Row>>)
    ensures r.Ok? <==>
      && SortColumn(page) in t.columns
      && SortOrder(page) in {"asc", "desc"}
      && page.skip >= 0 && page.limit >= 0
      && Known(t, DropNulls(filters))
    ensures SortColumn(page) in t.columns && SortOrder(page) in {"asc", "desc"} && !Known(t, DropNulls(filters))
      ==> r == Err(UnknownColumn(t))
    ensures r.Ok? ==> |r.value| <= page.limit
    ensures r.Ok? ==> |r.value| == PageLength(|Matching(t.rows, Query(DropNulls(filters), liveOnly))|, page.skip, page.limit)
    ensures r.Ok? ==> Sorted(r.value, SortColumn(page), SortOrder(page) == "asc")
    ensures r.Ok? ==> forall x :: x in r.value ==>
      x in t.rows && Matches(x, DropNulls(filters)) && (liveOnly ==> Live(x))
    ensures (r.Ok? && page.skip == 0
      && |Matching(t.rows, Query(DropNulls(filters), liveOnly))| <= page.limit) ==>
      (forall j :: 0 <= j < |t.rows| && Admits(Query(DropNulls(filters), liveOnly), t.rows[j]) ==> t.rows[j] in r.value)
  {
    var column := SortColumn(page);
    var order := SortOrder(page);
    var kept := DropNulls(filters);
    if column !in t.columns then Err(Raised("KeyError: " + column))
    else if order != "asc" && order != "desc" then Err(Raised("AttributeError: " + order))
    else if !Known(t, kept) then Err(UnknownColumn(t))
    else if page.skip < 0 then Err(Raised("OFFSET must not be negative"))
    else if page.limit < 0 then Err(Raised("LIMIT must not be negative"))
    else
      ListedLength(t.rows, Query(kept, liveOnly), column, order == "asc", page.skip, page.limit);
      Ok(Listed(t.rows, Query(kept, liveOnly), column, order == "asc", page.skip, page.limit))
  }

  /** `all(skip, limit, sort_field, sort_order, **filters)` of the base
      repository: no soft-delete filter. */
  function All(t: Table, page: Page, filters: Filters): (r: Result<seq<Row>>)
    ensures r.Ok? <==>
      && SortColumn(page) in t.columns
      && SortOrder(page) in {"asc", "desc"}
      && page.skip >= 0 && page.limit >= 0
      && Known(t, DropNulls(filters))
    ensures r.Ok? ==> |r.value| <= page.limit
    ensures r.Ok? ==> |r.value| == PageLength(|Matching(t.rows, Query(DropNulls(filters), false))|, page.skip, page.limit)
    ensures r.Ok? ==> forall x :: x in r.value ==> x in t.rows && Matches(x, DropNulls(filters))
    ensures r.Ok? ==> Sorted(r.value, SortColumn(page), SortOrder(page) == "asc")
    ensures (r.Ok? && page.skip == 0 && |Matching(t.rows, Query(DropNulls(filters), false))| <= page.limit) ==>
      forall j :: 0 <= j < |t.rows| && Matches(t.rows[j], DropNulls(filters)) ==> t.rows[j] in r.value
  {
    ListRows(t, page, filters, false)
  }

  /** `all` ignores `None` filters entirely, where `get` turns them into
      `IS NULL` constraints. */
  lemma AllDropsNullFilters(t: Table, page: Page, filters: Filters, liveOnly: bool)
    ensures ListRows(t, page, filters, liveOnly) == ListRows(t, page, DropNulls(filters), liveOnly)
  {
    assert DropNulls(DropNulls(filters)) == DropNulls(filters);
  }

  /** A first page of `all` large enough for every match holds exactly the
      matching rows. */
  lemma ListRowsWhole(t: Table, page: Page, filters: Filters, liveOnly: bool)
    requires ListRows(t, page, filters, liveOnly).Ok?
    requires page.skip == 0 && |Matching(t.rows, Query(DropNulls(filters), liveOnly))| <= page.limit
    ensures multiset(ListRows(t, page, filters, liveOnly).value) == multiset(Matching(t.rows, Query(DropNulls(filters), liveOnly)))
  {
    ListedWhole(t.rows, Query(DropNulls(filters), liveOnly), SortColumn(page), SortOrder(page) == "asc", page.limit);
  }

  /** With the defaults the page is the newest 100 rows first. */
  lemma DefaultPageIsNewestHundred()
    ensures SortColumn(DefaultPage) == "created_at"
    ensures SortOrder(DefaultPage) == "desc"
    ensures DefaultPage.skip == 0 && DefaultPage.limit == 100
  {
  }

  // ----- get_or_create --------------------------------------------------

  /** `get_or_create(obj_in, **filters)`: the existing match, or a default
      `create`. */
  function GetOrCreate(t: Table, obj: Row, filters: Filters, storeOk: bool): (r: Result<Saved>)
    ensures Known(t, filters) ==> (r.Err? <==>
      exists i, j :: 0 <= i < |t.rows| && 0 <= j < |t.rows| && i != j && Matches(t.rows[i], filters) && Matches(t.rows[j], filters))
    ensures r.Ok? && (exists j :: 0 <= j < |t.rows| && Matches(t.rows[j], filters)) ==>
      r.value.table == t && r.value.row in t.rows && Matches(r.value.row, filters)
    ensures r.Ok? && (forall j :: 0 <= j < |t.rows| ==> !Matches(t.rows[j], filters)) ==>
      r == Create(t, obj, DefaultCreate, storeOk)
  {
    match Get(t, filters)
    case Err(e) => Err(e)
    case Ok(Some(row)) => Ok(Saved(t, row))
    case Ok(None) => Create(t, obj, DefaultCreate, storeOk)
  }

  /** Appending a matching row to a table in which nothing matched makes it
      the one row `get` finds. */
  lemma GetAfterAppend(t: Table, row: Row, filters: Filters)
    requires Known(t, filters) && Matches(row, filters)
    requires forall j :: 0 <= j < |t.rows| ==> !Matches(t.rows[j], filters)
    ensures Get(t.(rows := t.rows + [row]), filters) == Ok(Some(row))
  {
    var q := Query(filters, false);
    var t1 := t.(rows := t.rows + [row]);
    assert forall j :: 0 <= j < |t.rows| ==> t1.rows[j] == t.rows[j];
    LocateUnique(t1, q, |t.rows|);
  }

  /** Once `get_or_create` has stored an object that satisfies its own
      filters, calling it again with the same filters finds that row and adds
      nothing. */
  lemma GetOrCreateTwiceAddsNothing(t: Table, obj: Row, filters: Filters, storeOk: bool)
    requires Matches(obj, filters) && IdColumn !in filters
    requires GetOrCreate(t, obj, filters, true).Ok?
    ensures var first := GetOrCreate(t, obj, filters, true).value;
      GetOrCreate(first.table, obj, filters, storeOk) == Ok(first)
  {
    var first := GetOrCreate(t, obj, filters, true).value;
    if Get(t, filters).Ok? && Get(t, filters).value.None? {
      assert Known(t, filters);
      var row := Stored(t, obj);
      var t1 := t.(rows := t.rows + [row]);
      assert first == Saved(t1, row);
      assert Matches(row, filters) by {
        forall k | k in filters ensures Field(row, k) == filters[k] {
          assert k != IdColumn;
        }
      }
      GetAfterAppend(t, row, filters);
    }
  }
}

=== FILE: rows.dfy ===
/** Rows of a relational table as the repository sees them: column name to
    value, compared for equality by `filter_by` and ordered by `ORDER BY`. */
module Rows {

  /** A column value. Timestamps are integer seconds; money is an integer
      amount of minor units. */
  datatype Value = Null | Int(i: int) | Text(s: string) | Flag(b: bool)

  type Row = map<string, Value>

  /** Column equality constraints, as passed to `filter_by(**kwargs)`. */
  type Filters = map<string, Value>

  /** Reading a column; a column the row does not carry reads as NULL. */
  function Field(row: Row, column: string): Value {
    if column in row then row[column] else Null
  }

  /** `filter_by(**f)`: every named column equals the given value
      (`column = NULL` for a `None` value, i.e. `IS NULL`). */
  predicate Matches(row: Row, f: Filters) {
    forall k :: k in f ==> Field(row, k) == f[k]
  }

  /** Python truthiness of a column value. */
  predicate Truthy(v: Value) {
    match v
    case Null => false
    case Int(i) => i != 0
    case Text(s) => s != ""
    case Flag(b) => b
  }

  // ----- ORDER BY -------------------------------------------------------

  /** Code-point (C collation) order on text. */
  predicate TextLe(x: string, y: string) {
    |x| == 0 || (|y| > 0 && (x[0] < y[0] || (x[0] == y[0] && TextLe(x[1..], y[1..]))))
  }

  function Rank(v: Value): nat {
    match v
    case Flag(_) => 0
    case Int(_) => 1
    case Text(_) => 2
    case Null => 3
  }

  /** Ascending order with PostgreSQL's default NULLS LAST. */
  predicate ValueLe(a: Value, b: Value) {
    if Rank(a) != Rank(b) then Rank(a) < Rank(b)
    else match a
      case Null => true
      case Int(i) => i <= b.i
      case Text(s) => TextLe(s, b.s)
      case Flag(x) => !x || b.b
  }

  lemma {:induction false} TextLeTotal(x: string, y: string)
    ensures TextLe(x, y) || TextLe(y, x)
  {
    if |x| > 0 && |y| > 0 && x[0] == y[0] {
      TextLeTotal(x[1..], y[1..]);
    }
  }

  lemma {:induction false} TextLeTransitive(x: string, y: string, z: string)
    requires TextLe(x, y) && TextLe(y, z)
    ensures TextLe(x, z)
  {
    if |x| > 0 && x[0] == y[0] && y[0] == z[0] {
      TextLeTransitive(x[1..], y[1..], z[1..]);
    }
  }

  /** The column order is a total preorder, so a sorted page is well defined. */
  lemma ValueLeTotalPreorder(a: Value, b: Value, c: Value)
    ensures ValueLe(a, b) || ValueLe(b, a)
    ensures ValueLe(a, b) && ValueLe(b, c) ==> ValueLe(a, c)
  {
    if a.Text? && b.Text? {
      TextLeTotal(a.s, b.s);
      if c.Text? && ValueLe(a, b) && ValueLe(b, c) {
        TextLeTransitive(a.s, b.s, c.s);
      }
    }
  }

  /** `ORDER BY column ASC` (ascending) or `DESC` (descending, so NULLS FIRST). */
  predicate RowBefore(x: Row, y: Row, column: string, ascending: bool) {
    if ascending then ValueLe(Field(x, column), Field(y, column))
    else ValueLe(Field(y, column), Field(x, column))
  }

  predicate Sorted(s: seq<Row>, column: string, ascending: bool) {
    forall i :: 0 <= i < |s| - 1 ==> RowBefore(s[i], s[i + 1], column, ascending)
  }

  lemma RowBeforeTotal(x: Row, y: Row, column: string, ascending: bool)
    ensures RowBefore(x, y, column, ascending) || RowBefore(y, x, column, ascending)
  {
    ValueLeTotalPreorder(Field(x, column), Field(y, column), Null);
  }

  lemma SortedCons(h: Row, t: seq<Row>, column: string, ascending: bool)
    requires Sorted(t, column, ascending)
    requires |t| > 0 ==> RowBefore(h, t[0], column, ascending)
    ensures Sorted([h] + t, column, ascending)
    ensures multiset([h] + t) == multiset(t) + multiset{h}
  {
    var s := [h] + t;
    forall i | 0 <= i < |s| - 1
      ensures RowBefore(s[i], s[i + 1], column, ascending)
    {
      if i > 0 {
        assert s[i] == t[i - 1] && s[i + 1] == t[i];
      }
    }
  }

  lemma SortedTail(s: seq<Row>, column: string, ascending: bool)
    requires |s| > 0 && Sorted(s, column, ascending)
    ensures Sorted(s[1..], column, ascending)
  {
    var t := s[1..];
    forall i | 0 <= i < |t| - 1
      ensures RowBefore(t[i], t[i + 1], column, ascending)
    {
      assert t[i] == s[i + 1] && t[i + 1] == s[i + 2];
    }
  }

  /** The step of `Insert` that keeps the head of `s` in front of the
      insertion into its tail. */
  lemma InsertBehind(x: Row, s: seq<Row>, rest: seq<Row>, column: string, ascending: bool)
    requires |s| > 0 && Sorted(s, column, ascending) && !RowBefore(x, s[0], column, ascending)
    requires Sorted(rest, column, ascending)
    requires multiset(rest) == multiset(s[1..]) + multiset{x}
    requires |rest| > 0 && (rest[0] == x || (|s| > 1 && rest[0] == s[1]))
    ensures Sorted([s[0]] + rest, column, ascending)
    ensures multiset([s[0]] + rest) == multiset(s) + multiset{x}
  {
    RowBeforeTotal(x, s[0], column, ascending);
    SortedCons(s[0], rest, column, ascending);
    assert s == [s[0]] + s[1..];
  }

  function Insert(x: Row, s: seq<Row>, column: string, ascending: bool): (r: seq<Row>)
    requires Sorted(s, column, ascending)
    ensures Sorted(r, column, ascending)
    ensures multiset(r) == multiset(s) + multiset{x}
    ensures |r| > 0 && (r[0] == x || (|s| > 0 && r[0] == s[0]))
  {
    if |s| == 0 || RowBefore(x, s[0], column, ascending) then
      SortedCons(x, s, column, ascending);
      [x] + s
    else
      SortedTail(s, column, ascending);
      var rest := Insert(x, s[1..], column, ascending);
      InsertBehind(x, s, rest, column, ascending);
      [s[0]] + rest
  }

  /** Stable insertion sort: the rows ordered by `column`, same rows, same
      multiplicities. */
  function SortBy(s: seq<Row>, column: string, ascending: bool): (r: seq<Row>)
    ensures Sorted(r, column, ascending)
    ensures multiset(r) == multiset(s)
    ensures |r| == |s|
  {
    if |s| == 0 then []
    else
      assert s == [s[0]] + s[1..];
      Insert(s[0], SortBy(s[1..], column, ascending), column, ascending)
  }
}

=== FILE: shop_model.dfy ===
/** The coffee-shop records (users, categories, products, carts, orders) and
    the store that holds them, with the cart-total bookkeeping the routers
    rely on. This `ShopUser` is a different record from the `/api/v1`
    account in `Accounts`. Money is an integer number of minor units. */
module ShopModel {
  import opened Common

  datatype Role = Customer | Admin

  /** `OrderStatus`: the six states an order can be put in. */
  datatype OrderStatus = Pending | Confirmed | Preparing | Ready | Completed | Cancelled

  datatype ShopUser = ShopUser(
    id: int,
    username: string,
    email: string,
    hashedPassword: string,
    isActive: bool,
    isVerified: bool,
    role: Role,
    createdAt: int,
    updatedAt: int,
    deletedAt: Option<int>)

  datatype Category = Category(id: int, name: string, description: Option<string>, slug: Option<string>)

  datatype Product = Product(
    id: int,
    name: string,
    description: Option<string>,
    price: int,
    imageUrl: Option<string>,
    categoryId: int)

  datatype Cart = Cart(id: int, userId: int, totalAmount: int)

  /** A line of a cart: `price` is the unit price when the line was first
      added. */
  datatype CartItem = CartItem(id: int, cartId: int, productId: int, quantity: int, price: int)

  datatype Order = Order(
    id: int,
    userId: int,
    status: OrderStatus,
    totalAmount: int,
    deliveryAddress: string,
    phoneNumber: string)

  datatype OrderItem = OrderItem(id: int, orderId: int, productId: int, quantity: int, price: int)

  /** Every table of the shop, rows in storage order. */
  datatype Shop = Shop(
    users: seq<ShopUser>,
    categories: seq<Category>,
    products: seq<Product>,
    carts: seq<Cart>,
    cartItems: seq<CartItem>,
    orders: seq<Order>,
    orderItems: seq<OrderItem>)

  const NotEnoughPermissions: Error := Http(403, "Not enough permissions")

  // ----- keys -----------------------------------------------------------

  function UserKey(u: ShopUser): int { u.id }
  function ProductKey(p: Product): int { p.id }
  function CategoryKey(c: Category): int { c.id }
  function CartOwner(c: Cart): int { c.userId }
  function CartKey(c: Cart): int { c.id }
  function ItemKey(i: CartItem): int { i.id }
  function OrderKey(o: Order): int { o.id }
  function OrderItemKey(i: OrderItem): int { i.id }

  /** The keys of a table, in storage order. */
  function Keys<T>(s: seq<T>, key: T -> int): (r: seq<int>)
    ensures |r| == |s|
    ensures forall i :: 0 <= i < |s| ==> r[i] == key(s[i])
  {
    seq(|s|, i requires 0 <= i < |s| => key(s[i]))
  }

  /** The key the database gives the next row of a table. */
  function NewKey<T>(s: seq<T>, key: T -> int): (n: int)
    ensures n >= 1
    ensures forall i :: 0 <= i < |s| ==> key(s[i]) < n
  {
    var ks := Keys(s, key);
    FreshId(ks)
  }

  /** No two rows of a table share a key (a primary key or unique
      constraint). */
  predicate KeysUnique<T>(s: seq<T>, key: T -> int) {
    forall i, j :: 0 <= i < |s| && 0 <= j < |s| && key(s[i]) == key(s[j]) ==> i == j
  }

  /** The table without its row at position `k`. */
  function Drop<T>(s: seq<T>, k: nat): (r: seq<T>)
    requires k < |s|
    ensures |r| == |s| - 1
    ensures forall j :: 0 <= j < |r| ==> r[j] == if j < k then s[j] else s[j + 1]
  {
    s[..k] + s[k + 1..]
  }

  /** Once the row with a key is dropped, nothing has that key any more. */
  lemma DropRemovesKey<T>(s: seq<T>, key: T -> int, k: nat)
    requires k < |s| && KeysUnique(s, key)
    ensures FindKey(Drop(s, k), key, key(s[k])).None?
  {
    var r := Drop(s, k);
    forall j | 0 <= j < |r|
      ensures key(r[j]) != key(s[k])
    {
      if j < k {
        assert r[j] == s[j];
      } else {
        assert r[j] == s[j + 1];
      }
    }
  }

  /** No two carts share a key (the primary key constraint). */
  predicate CartKeysUnique(carts: seq<Cart>) {
    forall i, j :: 0 <= i < |carts| && 0 <= j < |carts| && carts[i].id == carts[j].id ==> i == j
  }

  // ----- cart contents and totals ------------------------------------------

  /** The lines of one cart, in storage order. */
  function ItemsOf(items: seq<CartItem>, cartId: int): (r: seq<CartItem>)
    ensures |r| <= |items|
    ensures forall x :: x in r ==> x in items && x.cartId == cartId
    ensures forall x :: x in items && x.cartId == cartId ==> x in r
  {
    if |items| == 0 then []
    else
      var n := |items| - 1;
      var pre := ItemsOf(items[..n], cartId);
      assert items == items[..n] + [items[n]];
      if items[n].cartId == cartId then pre + [items[n]] else pre
  }

  /** `sum(item.price * item.quantity for item in lines)`. */
  function LineSum(lines: seq<CartItem>): int {
    if |lines| == 0 then 0
    else LineSum(lines[..|lines| - 1]) + lines[|lines| - 1].price * lines[|lines| - 1].quantity
  }

  /** The total a cart should show: the sum over its lines. */
  function CartTotal(items: seq<CartItem>, cartId: int): int {
    LineSum(ItemsOf(items, cartId))
  }

  /** Every cart's `total_amount` is the sum over its lines. */
  predicate TotalsConsistent(carts: seq<Cart>, items: seq<CartItem>) {
    forall i :: 0 <= i < |carts| ==> carts[i].totalAmount == CartTotal(items, carts[i].id)
  }

  lemma {:induction false} LineSumConcat(a: seq<CartItem>, b: seq<CartItem>)
    ensures LineSum(a + b) == LineSum(a) + LineSum(b)
    decreases |b|
  {
    if |b| == 0 {
      assert a + b == a;
    } else {
      var n := |b| - 1;
      assert (a + b)[..|a + b| - 1] == a + b[..n];
      LineSumConcat(a, b[..n]);
    }
  }

  lemma {:induction false} ItemsOfConcat(a: seq<CartItem>, b: seq<CartItem>, cartId: int)
    ensures ItemsOf(a + b, cartId) == ItemsOf(a, cartId) + ItemsOf(b, cartId)
    decreases |b|
  {
    if |b| == 0 {
      assert a + b == a;
    } else {
      var n := |b| - 1;
      assert (a + b)[..|a + b| - 1] == a + b[..n];
      ItemsOfConcat(a, b[..n], cartId);
    }
  }

  lemma ItemsOfSingle(x: CartItem, cartId: int)
    ensures ItemsOf([x], cartId) == if x.cartId == cartId then [x] else []
  {
    assert [x][..0] == [];
  }

  /** Lines kept by a clear of cart `cartId`: every line of other carts. */
  function OtherCarts(items: seq<CartItem>, cartId: int): (r: seq<CartItem>)
    ensures forall x :: x in r ==> x in items && x.cartId != cartId
    ensures forall x :: x in items && x.cartId != cartId ==> x in r
  {
    if |items| == 0 then []
    else
      var n := |items| - 1;
      var pre := OtherCarts(items[..n], cartId);
      assert items == items[..n] + [items[n]];
      if items[n].cartId != cartId then pre + [items[n]] else pre
  }

  /** Clearing a cart empties it and leaves the other carts' lines alone. */
  lemma {:induction false} ItemsOfOtherCarts(items: seq<CartItem>, cleared: int, cartId: int)
    ensures ItemsOf(OtherCarts(items, cleared), cartId) == if cartId == cleared then [] else ItemsOf(items, cartId)
  {
    if |items| > 0 {
      var n := |items| - 1;
      ItemsOfOtherCarts(items[..n], cleared, cartId);
      var pre := OtherCarts(items[..n], cleared);
      if items[n].cartId != cleared {
        ItemsOfConcat(pre, [items[n]], cartId);
        ItemsOfSingle(items[n], cartId);
      }
    }
  }

  /** Dropping one cart's lines a second time drops nothing more. */
  lemma {:induction false} OtherCartsTwice(items: seq<CartItem>, cartId: int)
    ensures OtherCarts(OtherCarts(items, cartId), cartId) == OtherCarts(items, cartId)
  {
    if |items| > 0 {
      var n := |items| - 1;
      OtherCartsTwice(items[..n], cartId);
      var pre := OtherCarts(items[..n], cartId);
      if items[n].cartId != cartId {
        var once := pre + [items[n]];
        assert once[..|once| - 1] == pre;
      }
    }
  }

  /** The keys of the carts present. */
  function CartIds(carts: seq<Cart>): set<int> {
    set c | c in carts :: c.id
  }

  /** Every line belongs to a cart that exists (the `cart_id` foreign key). */
  predicate ItemsInCarts(carts: seq<Cart>, items: seq<CartItem>) {
    forall x :: x in items ==> x.cartId in CartIds(carts)
  }

  /** The cart invariant: keys unique, no orphan lines, totals up to date. */
  predicate Valid(shop: Shop) {
    CartKeysUnique(shop.carts) && ItemsInCarts(shop.carts, shop.cartItems) && TotalsConsistent(shop.carts, shop.cartItems)
  }

  lemma CartTotalConcat(a: seq<CartItem>, b: seq<CartItem>, cartId: int)
    ensures CartTotal(a + b, cartId) == CartTotal(a, cartId) + CartTotal(b, cartId)
  {
    ItemsOfConcat(a, b, cartId);
    LineSumConcat(ItemsOf(a, cartId), ItemsOf(b, cartId));
  }

  lemma CartTotalSingle(x: CartItem, cartId: int)
    ensures CartTotal([x], cartId) == if x.cartId == cartId then x.price * x.quantity else 0
  {
    ItemsOfSingle(x, cartId);
    assert [x][..0] == [];
    assert LineSum([x]) == LineSum([]) + x.price * x.quantity;
  }

  /** A cart no line points at has total 0. */
  lemma CartTotalNoLines(items: seq<CartItem>, cartId: int)
    requires forall x :: x in items ==> x.cartId != cartId
    ensures ItemsOf(items, cartId) == [] && CartTotal(items, cartId) == 0
  {
    var r := ItemsOf(items, cartId);
    assert forall i :: 0 <= i < |r| ==> r[i] in r;
  }

  /** Setting one cart's total to the sum over its lines, when no other line
      moved, keeps every total consistent. */
  lemma RetotalKeepsConsistent(
    carts: seq<Cart>, items: seq<CartItem>, items1: seq<CartItem>, c: nat)
    requires c < |carts| && CartKeysUnique(carts)
    requires TotalsConsistent(carts, items)
    requires forall i :: 0 <= i < |carts| && i != c ==> CartTotal(items1, carts[i].id) == CartTotal(items, carts[i].id)
    ensures TotalsConsistent(carts[c := carts[c].(totalAmount := CartTotal(items1, carts[c].id))], items1)
  {
  }
}

=== FILE: shop_users.dfy ===
/** The shop's own user routes: registration, username/password login, and
    the admin's user listing, over the shop's `ShopUser` records. */
module ShopUsers {
  import opened Common
  import opened ShopModel
  import Config
  import Tokens

  const EmailTaken: Error := Http(400, "Email already registered")
  const BadLogin: Error := Http(401, "Incorrect username or password")

  /** The database refusing a second row with the same unique `username`. */
  const UsernameTaken: Error := Raised("duplicate key value violates unique constraint")

  /** PostgreSQL refusing a negative OFFSET or LIMIT. */
  const NegativeOffset: Error := Raised("OFFSET must not be negative")
  const NegativeLimit: Error := Raised("LIMIT must not be negative")

  function UserEmail(u: ShopUser): string { u.email }
  function UserName(u: ShopUser): string { u.username }

  /** The login response: the token and its type. */
  datatype Token = Token(accessToken: Tokens.Jwt, tokenType: string)

  /** A newly registered user at time `now`: inactive, unverified, an
      ordinary customer, with only the hash of the password stored. */
  function NewUser(shop: Shop, h: Tokens.Hasher, username: string, email: string, password: string, now: int): ShopUser {
    ShopUser(NewKey(shop.users, UserKey), username, email, h.hash(password), false, false, Customer, now, now, None)
  }

  /** `register_user(username, email, password)` at time `now`. Any stored
      user with the email blocks it, soft-deleted or not. */
  function RegisterUser(shop: Shop, h: Tokens.Hasher, username: string, email: string, password: string, now: int)
    : (r: Result<Shop>)
    ensures (exists j :: 0 <= j < |shop.users| && shop.users[j].email == email) ==> r == Err(EmailTaken)
    ensures r.Err? ==> r == Err(EmailTaken) || r == Err(UsernameTaken)
    ensures r.Ok? <==>
      (forall j :: 0 <= j < |shop.users| ==> shop.users[j].email != email && shop.users[j].username != username)
    ensures r.Ok? ==>
      && |r.value.users| == |shop.users| + 1
      && r.value.users[..|shop.users|] == shop.users
      && var u := r.value.users[|shop.users|];
      && u.username == username && u.email == email && u.hashedPassword == h.hash(password)
      && !u.isActive && !u.isVerified && u.role == Customer && u.deletedAt.None?
      && (forall j :: 0 <= j < |shop.users| ==> shop.users[j].id < u.id)
      && r.value == shop.(users := shop.users + [u])
  {
    if FindKey(shop.users, UserEmail, email).Some? then Err(EmailTaken)
    else if FindKey(shop.users, UserName, username).Some? then Err(UsernameTaken)
    else
      var u := NewUser(shop, h, username, email, password, now);
      assert (shop.users + [u])[..|shop.users|] == shop.users;
      Ok(shop.(users := shop.users + [u]))
  }

  /** The access token the shop login issues: `sub` is the username. */
  function LoginToken(cfg: Config.Settings, username: string, now: int): Tokens.Jwt {
    Tokens.Issue(cfg, map[Tokens.Sub := Tokens.ClaimText(username)], now, cfg.accessTokenExpireMinutes)
  }

  /** `login(username, password)` at time `now`: an unknown username and a
      wrong password get the same 401. */
  function Login(cfg: Config.Settings, h: Tokens.Hasher, shop: Shop, username: string, password: string, now: int)
    : (r: Result<Token>)
    ensures r.Err? ==> r.error == BadLogin
    ensures r.Ok? <==>
      var k := FindKey(shop.users, UserName, username);
      k.Some? && h.verify(password, shop.users[k.value].hashedPassword)
    ensures r.Ok? ==>
      && r.value.tokenType == "bearer"
      && r.value.accessToken.claims.Keys == {Tokens.Sub, Tokens.Exp}
      && r.value.accessToken.claims[Tokens.Sub] == Tokens.ClaimText(username)
      && r.value.accessToken.claims[Tokens.Exp] == Tokens.ClaimInt(now + cfg.accessTokenExpireMinutes * 60)
  {
    match FindKey(shop.users, UserName, username)
    case None => Err(BadLogin)
    case Some(k) =>
      if !h.verify(password, shop.users[k].hashedPassword) then Err(BadLogin)
      else Ok(Token(LoginToken(cfg, username, now), "bearer"))
  }

  /** A newly registered user can log in with the password they chose. */
  lemma RegisterThenLogin(
    cfg: Config.Settings, h: Tokens.Hasher, shop: Shop, username: string, email: string, password: string,
    now: int, later: int, after: Shop)
    requires Tokens.Sound(h)
    requires RegisterUser(shop, h, username, email, password, now) == Ok(after)
    ensures Login(cfg, h, after, username, password, later) == Ok(Token(LoginToken(cfg, username, later), "bearer"))
  {
    var n := |shop.users|;
    assert forall j :: 0 <= j < n ==> UserName(after.users[j]) != username;
    FindKeyAt(after.users, UserName, username, n);
  }

  /** Registering the same email twice is refused the second time. */
  lemma RegisterTwiceRefused(
    shop: Shop, h: Tokens.Hasher, username: string, username2: string, email: string, password: string, password2: string,
    now: int, later: int, after: Shop)
    requires RegisterUser(shop, h, username, email, password, now) == Ok(after)
    ensures RegisterUser(after, h, username2, email, password2, later) == Err(EmailTaken)
  {
    assert after.users[|shop.users|].email == email;
  }

  /** `read_users(skip, limit)`: admins only, checked first; then the users
      in table order, `skip` of them passed over and at most `limit`
      returned. Deleted users are listed too. */
  function ReadUsers(shop: Shop, user: ShopUser, skip: int, limit: int): (r: Result<seq<ShopUser>>)
    ensures user.role != Admin ==> r == Err(NotEnoughPermissions)
    ensures user.role == Admin && skip < 0 ==> r == Err(NegativeOffset)
    ensures r.Ok? <==> user.role == Admin && skip >= 0 && limit >= 0
    ensures r.Ok? ==>
      && |r.value| <= limit
      && |r.value| == (if skip >= |shop.users| then 0 else if |shop.users| - skip < limit then |shop.users| - skip else limit)
      && forall i :: 0 <= i < |r.value| ==> r.value[i] == shop.users[skip + i]
  {
    if user.role != Admin then Err(NotEnoughPermissions)
    else if skip < 0 then Err(NegativeOffset)
    else if limit < 0 then Err(NegativeLimit)
    else Ok(Window(shop.users, skip, limit))
  }

  /** Pages of `limit` users taken one after another cover the table in
      order: the page at `skip` followed by the page at `skip + limit` is the
      window of twice the size. */
  lemma {:induction false} ReadUsersPagesJoin(shop: Shop, admin: ShopUser, skip: nat, limit: nat)
    requires admin.role == Admin
    ensures ReadUsers(shop, admin, skip, limit).value + ReadUsers(shop, admin, skip + limit, limit).value
      == ReadUsers(shop, admin, skip, 2 * limit).value
  {
    var a := ReadUsers(shop, admin, skip, limit).value;
    var b := ReadUsers(shop, admin, skip + limit, limit).value;
    var c := ReadUsers(shop, admin, skip, 2 * limit).value;
    assert |a + b| == |c|;
    forall i | 0 <= i < |c|
      ensures (a + b)[i] == c[i]
    {
      if i < |a| {
        assert (a + b)[i] == a[i];
      } else {
        assert (a + b)[i] == b[i - |a|];
        assert |a| == limit;
      }
    }
  }
}

=== FILE: strings.dfy ===
/** The handful of Python `str` methods the handlers rely on, over ASCII text:
    `capitalize`, `replace(c, '')` and `split(sep)`. */
module Strings {

  function ToUpper(ch: char): char {
    if 'a' <= ch <= 'z' then (ch as int - 32) as char else ch
  }

  function ToLower(ch: char): char {
    if 'A' <= ch <= 'Z' then (ch as int + 32) as char else ch
  }

  /** `str.capitalize`: the first character upper-cased, every other one
      lower-cased (ASCII letters only). */
  function Capitalize(s: string): (r: string)
    ensures |r| == |s|
    ensures |s| > 0 ==> r[0] == ToUpper(s[0])
    ensures forall i :: 0 < i < |s| ==> r[i] == ToLower(s[i])
  {
    if |s| == 0 then ""
    else [ToUpper(s[0])] + seq(|s| - 1, i requires 0 <= i < |s| - 1 => ToLower(s[i + 1]))
  }

  /** `s.replace(c, '')`: every occurrence of `c` dropped, everything else kept
      in order. */
  function Without(s: string, c: char): (r: string)
    ensures forall i :: 0 <= i < |r| ==> r[i] != c
    ensures multiset(r) == multiset(s)[c := 0]
  {
    if |s| == 0 then ""
    else
      var rest := Without(s[1..], c);
      WithoutStep(s, c, rest);
      if s[0] == c then rest else [s[0]] + rest
  }

  lemma WithoutStep(s: string, c: char, rest: string)
    requires |s| > 0 && multiset(rest) == multiset(s[1..])[c := 0]
    ensures s[0] == c ==> multiset(rest) == multiset(s)[c := 0]
    ensures s[0] != c ==> multiset([s[0]] + rest) == multiset(s)[c := 0]
  {
    assert s == [s[0]] + s[1..];
    assert multiset(s) == multiset{s[0]} + multiset(s[1..]);
    assert multiset([s[0]] + rest) == multiset{s[0]} + multiset(rest);
  }

  /** `Without` keeps the order of what it keeps: it distributes over
      concatenation, and one character stays exactly when it is not `c`. */
  lemma {:induction false} WithoutConcat(a: string, b: string, c: char)
    ensures Without(a + b, c) == Without(a, c) + Without(b, c)
    decreases |a|
  {
    if |a| == 0 {
      assert a + b == b;
    } else {
      assert (a + b)[0] == a[0] && (a + b)[1..] == a[1..] + b;
      WithoutConcat(a[1..], b, c);
    }
  }

  /** One character survives `Without` exactly when it is not the one
      removed. */
  lemma WithoutSingle(x: char, c: char)
    ensures Without([x], c) == if x == c then "" else [x]
  {
    assert [x][1..] == "";
  }

  /** Inverse of `Split`: the pieces glued back together with `sep`. */
  function Join(pieces: seq<string>, sep: char): string
    requires |pieces| >= 1
  {
    if |pieces| == 1 then pieces[0] else pieces[0] + [sep] + Join(pieces[1..], sep)
  }

  /** `s.split(sep)` for a one-character separator: always at least one piece
      (the empty string splits into `[""]`), no piece holds the separator, and
      joining the pieces with the separator gives back `s`. */
  function Split(s: string, sep: char): (r: seq<string>)
    ensures |r| >= 1
    ensures forall k :: 0 <= k < |r| ==> sep !in r[k]
    ensures Join(r, sep) == s
  {
    if |s| == 0 then [""]
    else
      var rest := Split(s[1..], sep);
      if s[0] == sep then
        assert s == [sep] + s[1..];
        [""] + rest
      else
        var head := [s[0]] + rest[0];
        var r := [head] + rest[1..];
        assert r[1..] == rest[1..];
        assert s == [s[0]] + s[1..];
        assert Join(r, sep) == s by {
          if |rest| == 1 {
          } else {
            assert Join(rest, sep) == rest[0] + [sep] + Join(rest[1..], sep);
          }
        }
        r
  }

  /** Dropping a character that does not occur changes nothing. */
  lemma {:induction false} WithoutAbsent(s: string, c: char)
    requires c !in s
    ensures Without(s, c) == s
  {
    if |s| > 0 {
      assert c !in s[1..] by { assert forall i :: 0 <= i < |s| - 1 ==> s[1..][i] == s[i + 1]; }
      WithoutAbsent(s[1..], c);
      assert s == [s[0]] + s[1..];
    }
  }

  /** With at least two pieces, the separator occurs right after the first. */
  lemma JoinSeparator(pieces: seq<string>, sep: char)
    requires |pieces| >= 2
    ensures |pieces[0]| < |Join(pieces, sep)| && Join(pieces, sep)[|pieces[0]|] == sep
  {
  }

  /** The join holds the separator exactly when there are several pieces. */
  lemma JoinHasSeparator(pieces: seq<string>, sep: char)
    requires |pieces| >= 1
    requires forall k :: 0 <= k < |pieces| ==> sep !in pieces[k]
    ensures sep in Join(pieces, sep) <==> |pieces| >= 2
  {
    if |pieces| >= 2 {
      JoinSeparator(pieces, sep);
    }
  }

  lemma FirstSeparator(a: string, sep: char, rest: string)
    requires sep !in a
    ensures forall i :: 0 <= i < |a| ==> (a + [sep] + rest)[i] != sep
    ensures (a + [sep] + rest)[|a|] == sep
  {
  }

  /** Pieces free of the separator are determined by their join. */
  lemma {:induction false} JoinInjective(p: seq<string>, q: seq<string>, sep: char)
    requires |p| >= 1 && |q| >= 1
    requires forall k :: 0 <= k < |p| ==> sep !in p[k]
    requires forall k :: 0 <= k < |q| ==> sep !in q[k]
    requires Join(p, sep) == Join(q, sep)
    ensures p == q
    decreases |p|
  {
    var s := Join(p, sep);
    JoinHasSeparator(p, sep);
    JoinHasSeparator(q, sep);
    if |p| == 1 {
      assert q == [q[0]];
    } else {
      FirstSeparator(p[0], sep, Join(p[1..], sep));
      FirstSeparator(q[0], sep, Join(q[1..], sep));
      assert |p[0]| == |q[0]|;
      var n := |p[0]|;
      assert p[0] == s[..n] == q[0];
      assert Join(p[1..], sep) == s[n + 1..] == Join(q[1..], sep);
      JoinInjective(p[1..], q[1..], sep);
      assert p == [p[0]] + p[1..] && q == [q[0]] + q[1..];
    }
  }

  /** `Split` undoes `Join` for pieces free of the separator. */
  lemma SplitJoin(pieces: seq<string>, sep: char)
    requires |pieces| >= 1
    requires forall k :: 0 <= k < |pieces| ==> sep !in pieces[k]
    ensures Split(Join(pieces, sep), sep) == pieces
  {
    JoinInjective(Split(Join(pieces, sep), sep), pieces, sep);
  }
}

=== FILE: tokens.dfy ===
/** Password hashing, token issuing and the bearer-token check that resolves
    the current user. A token is its claims plus the key and algorithm it was
    signed with; encoding and signature bytes are not modelled. */
module Tokens {
  import opened Common
  import opened Rows
  import Numerals
  import Config
  import Repository
  import Accounts
  import Users = UserRepository

  // ----- passwords ------------------------------------------------------

  /** The one-way password hash and its checker (bcrypt behind passlib). */
  datatype Hasher = Hasher(hash: string -> string, verify: (string, string) -> bool)

  /** The checker accepts every password against its own hash. */
  ghost predicate Sound(h: Hasher) {
    forall p :: h.verify(p, h.hash(p))
  }

  /** `verify_password(password, stored)`; a missing stored hash never
      verifies. */
  predicate VerifyPassword(h: Hasher, password: string, stored: Option<string>) {
    stored.Some? && h.verify(password, stored.value)
  }

  // ----- issuing --------------------------------------------------------

  datatype Claim = ClaimText(text: string) | ClaimInt(n: int)

  type Claims = map<string, Claim>

  datatype Jwt = Jwt(claims: Claims, secret: string, algorithm: string)

  const Exp: string := "exp"
  const Sub: string := "sub"

  /** A copy of the caller's claims with `exp` set `minutes` after `now`
      (seconds), signed with the configured key and algorithm. */
  function Issue(cfg: Config.Settings, data: Claims, now: int, minutes: int): (t: Jwt)
    ensures t.claims.Keys == data.Keys + {Exp}
    ensures t.claims[Exp] == ClaimInt(now + minutes * 60)
    ensures forall k :: k in data && k != Exp ==> t.claims[k] == data[k]
    ensures t.secret == cfg.jwtSecret && t.algorithm == cfg.jwtAlgorithm
  {
    Jwt(data[Exp := ClaimInt(now + minutes * 60)], cfg.jwtSecret, cfg.jwtAlgorithm)
  }

  /** `create_access_token(data)` at time `now`. */
  function CreateAccessToken(cfg: Config.Settings, data: Claims, now: int): (t: Jwt)
    ensures Exp in t.claims && t.claims[Exp] == ClaimInt(now + cfg.accessTokenExpireMinutes * 60)
    ensures t.claims - {Exp} == data - {Exp}
    ensures t.secret == cfg.jwtSecret
  {
    Issue(cfg, data, now, cfg.accessTokenExpireMinutes)
  }

  /** `create_refresh_token(data)` at time `now`. */
  function CreateRefreshToken(cfg: Config.Settings, data: Claims, now: int): (t: Jwt)
    ensures Exp in t.claims && t.claims[Exp] == ClaimInt(now + cfg.refreshTokenExpireMinutes * 60)
    ensures t.claims - {Exp} == data - {Exp}
    ensures t.secret == cfg.jwtSecret
  {
    Issue(cfg, data, now, cfg.refreshTokenExpireMinutes)
  }

  /** The two kinds of token differ only in `exp`; with the default lifetimes
      the refresh token outlives the access token. */
  lemma AccessAndRefreshDifferOnlyInExpiry(cfg: Config.Settings, data: Claims, now: int)
    ensures var a := CreateAccessToken(cfg, data, now);
      var r := CreateRefreshToken(cfg, data, now);
      && a.secret == r.secret && a.algorithm == r.algorithm
      && a.claims - {Exp} == r.claims - {Exp}
      && (cfg.accessTokenExpireMinutes < cfg.refreshTokenExpireMinutes ==> a.claims[Exp].n < r.claims[Exp].n)
  {
  }

  /** The subject claim `{"sub": str(id)}` the handlers put in tokens;
      `str(None)` is the text "None". */
  function SubjectClaims(id: Option<int>): Claims {
    map[Sub := ClaimText(if id.Some? then Numerals.IntToString(id.value) else "None")]
  }

  // ----- checking -------------------------------------------------------

  /** Python truthiness of a claim (`not expire`, `not user_id`). */
  predicate ClaimTruthy(c: Claim) {
    if c.ClaimText? then c.text != "" else c.n != 0
  }

  /** `int(claim)`: `None` stands for the `ValueError`. */
  function ClaimAsInt(c: Claim): Option<int> {
    if c.ClaimInt? then Some(c.n) else Numerals.ParseInt(c.text)
  }

  function Unauthorized(detail: string): Error {
    Http(401, detail)
  }

  const CouldNotValidate: string := "Could not validate credentials"
  const TokenHasExpired: string := "Token has expired"
  const InvalidUser: string := "Invalid username or password"

  /** The expiry part of `get_current_user`: a missing or falsy `exp` is
      rejected, and so is one strictly before `now`. */
  function CheckExpiry(claims: Claims, now: int): (r: Result<int>)
    ensures r.Ok? <==>
      Exp in claims && ClaimTruthy(claims[Exp]) && ClaimAsInt(claims[Exp]).Some? && ClaimAsInt(claims[Exp]).value >= now
    ensures r.Ok? ==> r.value == ClaimAsInt(claims[Exp]).value
    ensures (Exp !in claims || !ClaimTruthy(claims[Exp])) ==> r == Err(Unauthorized(TokenHasExpired))
    ensures Exp in claims && ClaimTruthy(claims[Exp]) && ClaimAsInt(claims[Exp]).Some? && ClaimAsInt(claims[Exp]).value < now
      ==> r == Err(Unauthorized(TokenHasExpired))
    ensures Exp in claims && ClaimTruthy(claims[Exp]) && ClaimAsInt(claims[Exp]).None? ==> r == Err(Numerals.NotAnInteger)
    ensures Exp in claims && claims[Exp] == ClaimInt(now) && now != 0 ==> r == Ok(now)
  {
    if Exp !in claims || !ClaimTruthy(claims[Exp]) then Err(Unauthorized(TokenHasExpired))
    else
      match ClaimAsInt(claims[Exp])
      case None => Err(Numerals.NotAnInteger)
      case Some(e) => if e < now then Err(Unauthorized(TokenHasExpired)) else Ok(e)
  }

  /** The subject part of `get_current_user`: `int(sub)`. */
  function CheckSubject(claims: Claims): (r: Result<int>)
    ensures r.Ok? <==> Sub in claims && ClaimTruthy(claims[Sub]) && ClaimAsInt(claims[Sub]).Some?
    ensures r.Ok? ==> r.value == ClaimAsInt(claims[Sub]).value
    ensures (Sub !in claims || !ClaimTruthy(claims[Sub])) ==> r == Err(Unauthorized(CouldNotValidate))
    ensures Sub in claims && ClaimTruthy(claims[Sub]) && ClaimAsInt(claims[Sub]).None? ==> r == Err(Numerals.NotAnInteger)
  {
    if Sub !in claims || !ClaimTruthy(claims[Sub]) then Err(Unauthorized(CouldNotValidate))
    else
      match ClaimAsInt(claims[Sub])
      case None => Err(Numerals.NotAnInteger)
      case Some(id) => Ok(id)
  }

  /** `get_current_user(credentials)` at time `now`: the credentials must be
      present and signed with the configured key and algorithm, `exp` must not
      be in the past, and `sub` must name a live user by id. */
  function GetCurrentUser(cfg: Config.Settings, credentials: Option<Jwt>, users: Repository.Table, now: int)
    : (r: Result<Accounts.Account>)
    ensures credentials.None? ==> r == Err(Unauthorized(CouldNotValidate))
    ensures credentials.Some? && (credentials.value.secret != cfg.jwtSecret || credentials.value.algorithm != cfg.jwtAlgorithm)
      ==> r == Err(Unauthorized(CouldNotValidate))
    ensures credentials.Some? && credentials.value.secret == cfg.jwtSecret && credentials.value.algorithm == cfg.jwtAlgorithm
      ==> var claims := credentials.value.claims;
          && (CheckExpiry(claims, now).Err? ==> r == Err(CheckExpiry(claims, now).error))
          && (CheckExpiry(claims, now).Ok? && CheckSubject(claims).Err? ==> r == Err(CheckSubject(claims).error))
          && (CheckExpiry(claims, now).Ok? && CheckSubject(claims).Ok? ==>
                var found := Users.Get(users, map[Repository.IdColumn := Int(CheckSubject(claims).value)]);
                && (found == Ok(None) ==> r == Err(Unauthorized(InvalidUser)))
                && (found.Ok? && found.value.Some? ==> r == Ok(Accounts.FromRow(found.value.value))))
    ensures r.Ok? ==>
      && credentials.Some?
      && CheckExpiry(credentials.value.claims, now).Ok?
      && CheckSubject(credentials.value.claims).Ok?
      && exists row :: row in users.rows && Repository.Live(row)
           && Field(row, Repository.IdColumn) == Int(CheckSubject(credentials.value.claims).value)
           && r.value == Accounts.FromRow(row)
  {
    if credentials.None? then Err(Unauthorized(CouldNotValidate))
    else
      var token := credentials.value;
      if token.secret != cfg.jwtSecret || token.algorithm != cfg.jwtAlgorithm then
        // the decoder's PyJWTError
        Err(Unauthorized(CouldNotValidate))
      else
        match CheckExpiry(token.claims, now)
        case Err(e) => Err(e)
        case Ok(_) =>
          match CheckSubject(token.claims)
          case Err(e) => Err(e)
          case Ok(id) =>
            match Users.Get(users, map[Repository.IdColumn := Int(id)])
            case Err(e) => Err(e)
            case Ok(None) => Err(Unauthorized(InvalidUser))
            case Ok(Some(row)) => Ok(Accounts.FromRow(row))
  }

  /** `authenticate_user(email, password)`: the live user with that email;
      the password is not looked at. */
  function AuthenticateUser(users: Repository.Table, email: string, password: string): (r: Result<Option<Accounts.Account>>)
    ensures r.Ok? && r.value.Some? ==>
      exists row :: row in users.rows && Repository.Live(row) && Field(row, "email") == Text(email)
        && r.value.value == Accounts.FromRow(row)
    ensures r == Ok(None) <==>
      Repository.Known(users, map["email" := Text(email)])
      && forall j :: 0 <= j < |users.rows| ==>
           !(Field(users.rows[j], "email") == Text(email) && Repository.Live(users.rows[j]))
  {
    match Users.Get(users, map["email" := Text(email)])
    case Err(e) => Err(e)
    case Ok(None) => Ok(None)
    case Ok(Some(row)) => Ok(Some(Accounts.FromRow(row)))
  }

  /** A token issued for a live user's id resolves back to that user at any
      time up to its expiry, and is refused as expired afterwards. */
  lemma {:induction false} IssuedTokenResolves(
    cfg: Config.Settings, users: Repository.Table, k: nat, id: int, issuedAt: int, now: int, minutes: int)
    requires Repository.IdColumn in users.columns
    requires k < |users.rows| && Repository.Live(users.rows[k]) && Field(users.rows[k], Repository.IdColumn) == Int(id)
    requires forall j :: 0 <= j < |users.rows| && j != k ==>
      !(Repository.Live(users.rows[j]) && Field(users.rows[j], Repository.IdColumn) == Int(id))
    requires issuedAt + minutes * 60 != 0
    ensures var token := Issue(cfg, SubjectClaims(Some(id)), issuedAt, minutes);
      && (now <= issuedAt + minutes * 60 ==> GetCurrentUser(cfg, Some(token), users, now) == Ok(Accounts.FromRow(users.rows[k])))
      && (now > issuedAt + minutes * 60 ==> GetCurrentUser(cfg, Some(token), users, now) == Err(Unauthorized(TokenHasExpired)))
  {
    var token := Issue(cfg, SubjectClaims(Some(id)), issuedAt, minutes);
    var text := Numerals.IntToString(id);
    Numerals.ParseIntOfIntToString(id);
    assert text != "" by {
      if id < 0 { assert |text| > 1; } else { assert |Numerals.NatToString(id)| > 0; }
    }
    assert token.claims[Sub] == ClaimText(text);
    assert CheckSubject(token.claims) == Ok(id);
    var filters := map[Repository.IdColumn := Int(id)];
    assert Matches(users.rows[k], filters);
    assert forall j :: 0 <= j < |users.rows| && Matches(users.rows[j], filters) && Repository.Live(users.rows[j]) ==> j == k;
    assert Users.Get(users, filters) == Ok(Some(users.rows[k]));
  }

  /** The password argument of `authenticate_user` makes no difference. */
  lemma AuthenticateIgnoresPassword(users: Repository.Table, email: string, p: string, q: string)
    ensures AuthenticateUser(users, email, p) == AuthenticateUser(users, email, q)
  {
  }
}

=== FILE: user_api.dfy ===
/** The `/api/v1/users` handlers: the id-or-uuid path segment, the listing
    with its presentation rules (interests, child level, subscriptions),
    creation, lookup, update and soft delete. */
module UserApi {
  import opened Common
  import opened Rows
  import Strings
  import Numerals
  import Config
  import Repository
  import Users = UserRepository
  import Accounts
  import Tokens
  import AuthApi

  // ----- the path segment -----------------------------------------------

  /** `{id_or_uuid}`: a segment of digits is an integer id, anything else a
      uuid. */
  function ParseSegment(seg: string): (f: Filters)
    ensures |f| == 1
    ensures Repository.IdColumn in f <==> Numerals.IsDigits(seg)
    ensures !Numerals.IsDigits(seg) ==> f == map["uuid" := Text(seg)]
    ensures Repository.IdColumn in f ==> f[Repository.IdColumn].Int? && f[Repository.IdColumn].i >= 0
  {
    if Numerals.IsDigits(seg) then map[Repository.IdColumn := Int(Numerals.DigitsValue(seg))]
    else map["uuid" := Text(seg)]
  }

  /** The decimal text of an id addresses that id. */
  lemma SegmentOfId(n: nat)
    ensures ParseSegment(Numerals.NatToString(n)) == map[Repository.IdColumn := Int(n)]
  {
    Numerals.DigitsValueOfNatToString(n);
  }

  // ----- presentation ---------------------------------------------------

  /** An answer to a question. */
  datatype Answer = Answer(id: int, questionId: int, answerText: string)

  /** A user's chosen answer; `customAnswer` holds answer ids as text. */
  datatype SelectedAnswer = SelectedAnswer(questionId: int, customAnswer: string)

  /** What the listing loads with each user. Subscriptions are identified by
      their keys. */
  datatype Related = Related(selectedAnswers: seq<SelectedAnswer>, subscriptions: seq<int>)

  /** The listing's view of one user: `SUserRead`'s stored record and
      computed fields, plus the reversed subscriptions that `get_users`
      means to attach. `SUserRead` itself declares no `subscriptions` field,
      so the handler as written fails instead (see `GetUsersAsWritten`). */
  datatype UserView = UserView(
    account: Accounts.Account,
    interests: seq<string>,
    selectedInterests: seq<string>,
    childLevel: Option<string>,
    subscriptions: seq<int>)

  /** The texts of the answers whose id is listed, in answer order. */
  function TextsOf(answers: seq<Answer>, ids: seq<int>): (r: seq<string>)
    ensures |r| <= |answers|
    ensures forall t :: t in r ==> exists a :: a in answers && a.id in ids && a.answerText == t
    ensures forall a :: a in answers && a.id in ids ==> a.answerText in r
  {
    if |answers| == 0 then []
    else
      var rest := TextsOf(answers[1..], ids);
      assert forall a :: a in answers[1..] ==> a in answers;
      if answers[0].id in ids then [answers[0].answerText] + rest else rest
  }

  /** `TextsOf` keeps the answers' order and multiplicity: it distributes
      over concatenation, and one answer contributes its text exactly when
      its id is listed. */
  lemma {:induction false} TextsOfConcat(a: seq<Answer>, b: seq<Answer>, ids: seq<int>)
    ensures TextsOf(a + b, ids) == TextsOf(a, ids) + TextsOf(b, ids)
    ensures TextsOf([], ids) == []
    decreases |a|
  {
    if |a| == 0 {
      assert a + b == b;
    } else {
      TextsOfConcat(a[1..], b, ids);
      TextsOfConcatStep(a, b, ids);
    }
  }

  /** The inductive step of `TextsOfConcat`: the law for `a[1..]` gives it for `a`. */
  lemma TextsOfConcatStep(a: seq<Answer>, b: seq<Answer>, ids: seq<int>)
    requires |a| > 0
    requires TextsOf(a[1..] + b, ids) == TextsOf(a[1..], ids) + TextsOf(b, ids)
    ensures TextsOf(a + b, ids) == TextsOf(a, ids) + TextsOf(b, ids)
  {
    var h := if a[0].id in ids then [a[0].answerText] else [];
    var x, y := TextsOf(a[1..], ids), TextsOf(b, ids);
    var ab := a + b;
    DropHeadOfConcat(a, b);
    assert TextsOf(ab, ids) == h + (x + y);
    assert TextsOf(a, ids) == h + x;
    ConcatAssociative(h, x, y);
  }

  /** Dropping the head of a concatenation drops the head of its left part. */
  lemma DropHeadOfConcat<T>(a: seq<T>, b: seq<T>)
    requires |a| > 0
    ensures (a + b)[0] == a[0]
    ensures (a + b)[1..] == a[1..] + b
  {
  }

  /** Concatenation is associative. */
  lemma ConcatAssociative<T>(a: seq<T>, b: seq<T>, c: seq<T>)
    ensures a + (b + c) == (a + b) + c
  {
  }

  /** One answer contributes its text exactly when its id is listed. */
  lemma TextsOfSingle(x: Answer, ids: seq<int>)
    ensures TextsOf([x], ids) == if x.id in ids then [x.answerText] else []
  {
    assert [x][1..] == [];
  }

  predicate AllIntegers(pieces: seq<string>) {
    forall i :: 0 <= i < |pieces| ==> Numerals.ParseInt(pieces[i]).Some?
  }

  /** `int(piece)` for every piece, failing on the first that is not an
      integer. */
  function ParseAll(pieces: seq<string>): (r: Result<seq<int>>)
    ensures r.Ok? <==> AllIntegers(pieces)
    ensures r.Ok? ==> (|r.value| == |pieces|
      && forall i :: 0 <= i < |pieces| ==> r.value[i] == Numerals.ParseInt(pieces[i]).value)
  {
    if |pieces| == 0 then Ok([])
    else
      match Numerals.ParseInt(pieces[0])
      case None => Err(Numerals.NotAnInteger)
      case Some(n) =>
        match ParseAll(pieces[1..])
        case Err(e) => Err(e)
        case Ok(rest) =>
          assert forall i :: 1 <= i < |pieces| ==> pieces[1..][i - 1] == pieces[i];
          Ok([n] + rest)
  }

  /** The ids in a comma-separated `custom_answer`, spaces ignored. */
  function AnswerIds(custom: string): (r: Result<seq<int>>)
    ensures var pieces := Strings.Split(Strings.Without(custom, ' '), ',');
      && (r.Ok? <==> AllIntegers(pieces))
      && (r.Ok? ==> |r.value| == |pieces|)
      && (r.Ok? ==> forall i :: 0 <= i < |pieces| ==> r.value[i] == Numerals.ParseInt(pieces[i]).value)
  {
    var pieces := Strings.Split(Strings.Without(custom, ' '), ',');
    ParseAll(pieces)
  }

  /** The interests computed from the selected answer: a plain number picks
      `interests`, a list picks `selected_interests`. */
  function Interests(selected: SelectedAnswer, answers: seq<Answer>): (r: Result<(seq<string>, seq<string>)>)
    ensures Numerals.IsDigits(selected.customAnswer) ==>
      r == Ok((TextsOf(answers, [Numerals.DigitsValue(selected.customAnswer)]), []))
    ensures !Numerals.IsDigits(selected.customAnswer) && r.Ok? ==>
      AnswerIds(selected.customAnswer).Ok? && r.value.0 == []
      && r.value.1 == TextsOf(answers, AnswerIds(selected.customAnswer).value)
    ensures r.Err? <==> AnswerIds(selected.customAnswer).Err? && !Numerals.IsDigits(selected.customAnswer)
  {
    var custom := selected.customAnswer;
    if Numerals.IsDigits(custom) then Ok((TextsOf(answers, [Numerals.DigitsValue(custom)]), []))
    else
      match AnswerIds(custom)
      case Err(e) => Err(e)
      case Ok(ids) => Ok(([], TextsOf(answers, ids)))
  }

  /** The decimal texts of some ids, as they would be written in a list. */
  function IdTexts(ids: seq<nat>): (r: seq<string>)
    ensures |r| == |ids|
    ensures forall i :: 0 <= i < |ids| ==> r[i] == Numerals.NatToString(ids[i])
  {
    seq(|ids|, i requires 0 <= i < |ids| => Numerals.NatToString(ids[i]))
  }

  /** Reading back a comma-separated list of ids gives the ids, and with two
      or more of them the answers are picked into `selected_interests`. */
  lemma {:induction false} SelectedInterestsOfList(answers: seq<Answer>, questionId: int, ids: seq<nat>)
    requires |ids| >= 2
    ensures var custom := Strings.Join(IdTexts(ids), ',');
      && AnswerIds(custom) == Ok(ids)
      && Interests(SelectedAnswer(questionId, custom), answers) == Ok(([], TextsOf(answers, ids)))
  {
    var pieces := IdTexts(ids);
    var custom := Strings.Join(pieces, ',');
    forall k | 0 <= k < |pieces|
      ensures ',' !in pieces[k] && ' ' !in pieces[k]
    {
      assert Numerals.IsDigits(pieces[k]);
    }
    JoinWithoutSpaces(pieces);
    Strings.WithoutAbsent(custom, ' ');
    Strings.SplitJoin(pieces, ',');
    forall i | 0 <= i < |pieces|
      ensures Numerals.ParseInt(pieces[i]) == Some(ids[i])
    {
      Numerals.DigitsValueOfNatToString(ids[i]);
    }
    Strings.JoinSeparator(pieces, ',');
    assert !Numerals.IsDigits(custom) by { assert !Numerals.IsDigit(custom[|pieces[0]|]); }
    var parsed := AnswerIds(custom).value;
    assert parsed == ids;
  }

  /** A join of space-free pieces with a comma holds no space. */
  lemma {:induction false} JoinWithoutSpaces(pieces: seq<string>)
    requires |pieces| >= 1
    requires forall k :: 0 <= k < |pieces| ==> ' ' !in pieces[k]
    ensures ' ' !in Strings.Join(pieces, ',')
  {
    if |pieces| > 1 {
      JoinWithoutSpaces(pieces[1..]);
    }
  }

  /** `child_levels.get(kids_age, "Toddler")`, only for a truthy age. */
  function ChildLevel(kidsAge: Option<int>): (r: Option<string>)
    ensures r.None? <==> kidsAge.None? || kidsAge.value == 0
    ensures r == Some("Toddler") <==> kidsAge.Some? && kidsAge.value != 0 && !(3 <= kidsAge.value <= 6)
    ensures r == Some("Grade") <==> kidsAge == Some(6)
  {
    var levels := map[2 := "Toddler", 3 := "PreK1", 4 := "PreK2", 5 := "Kindergarten", 6 := "Grade"];
    if kidsAge.None? || kidsAge.value == 0 then None
    else if kidsAge.value in levels then Some(levels[kidsAge.value])
    else Some("Toddler")
  }

  /** Each named level comes from exactly one age. */
  lemma ChildLevelInverse(age: int, level: string)
    requires level in ["PreK1", "PreK2", "Kindergarten", "Grade"]
    ensures ChildLevel(Some(age)) == Some(level) <==> age == LevelAge(level)
  {
  }

  function LevelAge(level: string): int {
    if level == "PreK1" then 3 else if level == "PreK2" then 4 else if level == "Kindergarten" then 5
    else if level == "Grade" then 6 else 2
  }

  function Reverse<T>(s: seq<T>): (r: seq<T>)
    ensures |r| == |s|
    ensures forall i :: 0 <= i < |s| ==> r[i] == s[|s| - 1 - i]
  {
    if |s| == 0 then [] else Reverse(s[1..]) + [s[0]]
  }

  function QuestionOf(s: SelectedAnswer): int {
    s.questionId
  }

  /** The listing's view of one user, as the handler evidently intends it,
      with the subscriptions reversed. */
  function Present(row: Row, related: Related, questionId: int, answers: seq<Answer>): (r: Result<UserView>)
    ensures r.Ok? ==> r.value.account == Accounts.FromRow(row)
    ensures r.Ok? ==> r.value.childLevel == ChildLevel(Accounts.FromRow(row).profile.kidsAge)
    ensures r.Ok? ==> r.value.subscriptions == Reverse(related.subscriptions)
    ensures FindKey(related.selectedAnswers, QuestionOf, questionId).None? ==>
      r.Ok? && r.value.interests == [] && r.value.selectedInterests == []
    ensures FindKey(related.selectedAnswers, QuestionOf, questionId).Some? ==>
      var chosen := related.selectedAnswers[FindKey(related.selectedAnswers, QuestionOf, questionId).value];
      && chosen.questionId == questionId
      && (r.Ok? <==> Interests(chosen, answers).Ok?)
      && (r.Ok? ==> (r.value.interests, r.value.selectedInterests) == Interests(chosen, answers).value)
  {
    var account := Accounts.FromRow(row);
    var level := ChildLevel(account.profile.kidsAge);
    var subs := Reverse(related.subscriptions);
    match FindKey(related.selectedAnswers, QuestionOf, questionId)
    case None => Ok(UserView(account, [], [], level, subs))
    case Some(k) =>
      match Interests(related.selectedAnswers[k], answers)
      case Err(e) => Err(e)
      case Ok(texts) => Ok(UserView(account, texts.0, texts.1, level, subs))
  }

  /** `views` is the listing's view of each of `rows`, in order. */
  predicate PresentedAs(views: seq<UserView>, rows: seq<Row>, relatedOf: Row -> Related, questionId: int, answers: seq<Answer>) {
    && |views| == |rows|
    && forall i :: 0 <= i < |rows| ==>
         Present(rows[i], relatedOf(rows[i]), questionId, answers) == Ok(views[i])
  }

  function PresentAll(rows: seq<Row>, relatedOf: Row -> Related, questionId: int, answers: seq<Answer>)
    : (r: Result<seq<UserView>>)
    ensures r.Ok? <==> forall i :: 0 <= i < |rows| ==> Present(rows[i], relatedOf(rows[i]), questionId, answers).Ok?
    ensures r.Ok? ==> PresentedAs(r.value, rows, relatedOf, questionId, answers)
  {
    if |rows| == 0 then Ok([])
    else
      match Present(rows[0], relatedOf(rows[0]), questionId, answers)
      case Err(e) => Err(e)
      case Ok(v) =>
        match PresentAll(rows[1..], relatedOf, questionId, answers)
        case Err(e) => Err(e)
        case Ok(rest) =>
          PresentedCons(v, rest, rows, relatedOf, questionId, answers);
          Ok([v] + rest)
  }

  lemma PresentedCons(v: UserView, rest: seq<UserView>, rows: seq<Row>, relatedOf: Row -> Related, questionId: int, answers: seq<Answer>)
    requires |rows| > 0 && Present(rows[0], relatedOf(rows[0]), questionId, answers) == Ok(v)
    requires PresentedAs(rest, rows[1..], relatedOf, questionId, answers)
    ensures PresentedAs([v] + rest, rows, relatedOf, questionId, answers)
  {
    forall i | 1 <= i < |rows|
      ensures Present(rows[i], relatedOf(rows[i]), questionId, answers) == Ok(([v] + rest)[i])
    {
      assert rows[1..][i - 1] == rows[i];
    }
  }

  const NoQuestion: Error := Raised("'NoneType' object has no attribute 'id'")

  /** The user listing `get_users` starts from: `all` with the default page,
      filtering by email and uuid where given. */
  function Listing(users: Repository.Table, email: Option<string>, uuid: Option<string>): (r: Result<seq<Row>>)
    ensures r.Ok? <==>
      && Repository.CreatedAtColumn in users.columns
      && (email.Some? ==> "email" in users.columns)
      && (uuid.Some? ==> "uuid" in users.columns)
    ensures r.Ok? ==> |r.value| <= 100
    ensures r.Ok? ==>
      var n := |Repository.Matching(users.rows, Repository.Query(Repository.DropNulls(Filter(email, uuid)), true))|;
      |r.value| == if n < 100 then n else 100
    ensures r.Ok? ==> Sorted(r.value, Repository.CreatedAtColumn, false)
    ensures r.Ok? ==> forall x :: x in r.value ==>
      && Repository.Live(x) && x in users.rows
      && (email.Some? ==> Field(x, "email") == Text(email.value))
      && (uuid.Some? ==> Field(x, "uuid") == Text(uuid.value))
    ensures r.Ok? && |Repository.Matching(users.rows, Repository.Query(Repository.DropNulls(Filter(email, uuid)), true))| <= 100 ==>
      forall j :: 0 <= j < |users.rows| && Repository.Live(users.rows[j])
        && (email.Some? ==> Field(users.rows[j], "email") == Text(email.value))
        && (uuid.Some? ==> Field(users.rows[j], "uuid") == Text(uuid.value))
        ==> users.rows[j] in r.value
  {
    KeptFilter(email, uuid);
    Users.All(users, Repository.DefaultPage, Filter(email, uuid))
  }

  /** The filters `get_users` keeps: the given ones, and a row matches them
      exactly when it agrees with each. */
  lemma KeptFilter(email: Option<string>, uuid: Option<string>)
    ensures var kept := Repository.DropNulls(Filter(email, uuid));
      && kept.Keys <= {"email", "uuid"}
      && ("email" in kept <==> email.Some?)
      && ("uuid" in kept <==> uuid.Some?)
      && forall x :: Matches(x, kept) <==>
           (email.Some? ==> Field(x, "email") == Text(email.value)) && (uuid.Some? ==> Field(x, "uuid") == Text(uuid.value))
  {
    var kept := Repository.DropNulls(Filter(email, uuid));
    assert email.Some? ==> "email" in kept && kept["email"] == Text(email.value);
    assert uuid.Some? ==> "uuid" in kept && kept["uuid"] == Text(uuid.value);
  }

  /** `get_users(email, uuid)`: the listed users, each presented; `question`
      is the interests question's id if it exists, `answers` that question's
      answers as listed. */
  function GetUsers(users: Repository.Table, email: Option<string>, uuid: Option<string>, relatedOf: Row -> Related,
                    question: Option<int>, answers: seq<Answer>): (r: Result<seq<UserView>>)
    ensures r.Ok? <==>
      && question.Some? && Listing(users, email, uuid).Ok?
      && forall x :: x in Listing(users, email, uuid).value ==> Present(x, relatedOf(x), question.value, answers).Ok?
    ensures Listing(users, email, uuid).Err? ==> r == Err(Listing(users, email, uuid).error)
    ensures Listing(users, email, uuid).Ok? && question.None? ==> r == Err(NoQuestion)
    ensures r.Ok? ==>
      var listed := Listing(users, email, uuid).value;
      PresentedAs(r.value, listed, relatedOf, question.value, answers)
  {
    match Listing(users, email, uuid)
    case Err(e) => Err(e)
    case Ok(listed) =>
      if question.None? then Err(NoQuestion)
      else PresentAll(listed, relatedOf, question.value, answers)
  }

  /** Reading `user_dict.subscriptions` on an `SUserRead`, which declares no
      such field. */
  const NoSubscriptionsField: Error := Raised("'SUserRead' object has no attribute 'subscriptions'")

  /** `get_users(email, uuid)` as written: the question is looked up before
      the loop, and the first listed user's `subscriptions` read raises, so
      only an empty listing gets through. */
  function GetUsersAsWritten(users: Repository.Table, email: Option<string>, uuid: Option<string>,
                             question: Option<int>): (r: Result<seq<UserView>>)
    ensures r.Ok? <==> question.Some? && Listing(users, email, uuid).Ok? && Listing(users, email, uuid).value == []
    ensures r.Ok? ==> r.value == []
    ensures Listing(users, email, uuid).Err? ==> r == Err(Listing(users, email, uuid).error)
    ensures Listing(users, email, uuid).Ok? && question.None? ==> r == Err(NoQuestion)
  {
    match Listing(users, email, uuid)
    case Err(e) => Err(e)
    case Ok(listed) =>
      if question.None? then Err(NoQuestion)
      else if |listed| == 0 then Ok([])
      else Err(NoSubscriptionsField)
  }

  /** The handler as written agrees with the intended `GetUsers` only on an
      empty listing: wherever the intended version lists someone, the
      written one raises on the `subscriptions` read. */
  lemma GetUsersAsWrittenDiffers(users: Repository.Table, email: Option<string>, uuid: Option<string>,
                                 relatedOf: Row -> Related, question: Option<int>, answers: seq<Answer>)
    requires GetUsers(users, email, uuid, relatedOf, question, answers).Ok?
    ensures var g := GetUsers(users, email, uuid, relatedOf, question, answers);
      && (g.value == [] ==> GetUsersAsWritten(users, email, uuid, question) == g)
      && (g.value != [] ==> GetUsersAsWritten(users, email, uuid, question) == Err(NoSubscriptionsField))
  {
  }

  /** A live user with key 1 and email "a@b.c". */
  function ExampleRow(): Row {
    map[Repository.IdColumn := Int(1), Repository.CreatedAtColumn := Int(5),
        Repository.DeletedAtColumn := Null, "email" := Text("a@b.c")]
  }

  function ExampleUsers(): Repository.Table {
    Repository.Table("users", {Repository.IdColumn, Repository.CreatedAtColumn, Repository.DeletedAtColumn, "email"},
                     [ExampleRow()])
  }

  /** Listing the example table by the user's email gives that user, and
      nobody else. */
  lemma ExampleListed()
    ensures Listing(ExampleUsers(), Some("a@b.c"), None).Ok?
    ensures Listing(ExampleUsers(), Some("a@b.c"), None).value != []
    ensures forall x :: x in Listing(ExampleUsers(), Some("a@b.c"), None).value ==> x == ExampleRow()
  {
    ListingByEmail(ExampleUsers(), "a@b.c", 0);
    assert ExampleRow() in Listing(ExampleUsers(), Some("a@b.c"), None).value;
  }

  /** The example user's loaded relations: no selected answers and two
      subscriptions. */
  function ExampleRelated(row: Row): Related {
    Related([], [1, 2])
  }

  /** Presenting rows that are all the example user gives one view per row,
      each with that user's record and the subscriptions reversed. */
  lemma ExamplePresented(listed: seq<Row>)
    requires forall x :: x in listed ==> x == ExampleRow()
    ensures PresentAll(listed, ExampleRelated, 7, []).Ok?
    ensures |PresentAll(listed, ExampleRelated, 7, []).value| == |listed|
    ensures forall v :: v in PresentAll(listed, ExampleRelated, 7, []).value ==>
      v.account == Accounts.FromRow(ExampleRow()) && v.subscriptions == [2, 1]
  {
    assert Present(ExampleRow(), ExampleRelated(ExampleRow()), 7, []).Ok?;
    assert Reverse([1, 2]) == [2, 1];
    assert forall i :: 0 <= i < |listed| ==> listed[i] in listed;
    var views := PresentAll(listed, ExampleRelated, 7, []).value;
    forall v | v in views
      ensures v.account == Accounts.FromRow(ExampleRow()) && v.subscriptions == [2, 1]
    {
      var k :| 0 <= k < |views| && views[k] == v;
      assert Present(listed[k], ExampleRelated(listed[k]), 7, []) == Ok(v);
    }
  }

  /** One live user and an existing question: the intended listing presents
      the user, with the subscriptions reversed, and only that user; the
      written one raises. */
  lemma SubscriptionsExample()
    ensures var g := GetUsers(ExampleUsers(), Some("a@b.c"), None, ExampleRelated, Some(7), []);
      && g.Ok? && g.value != []
      && (forall v :: v in g.value ==> v.account == Accounts.FromRow(ExampleRow()) && v.subscriptions == [2, 1])
      && GetUsersAsWritten(ExampleUsers(), Some("a@b.c"), None, Some(7)) == Err(NoSubscriptionsField)
  {
    ExampleListed();
    var listed := Listing(ExampleUsers(), Some("a@b.c"), None).value;
    ExamplePresented(listed);
  }

  function Filter(email: Option<string>, uuid: Option<string>): Filters {
    map["uuid" := Accounts.OfText(uuid), "email" := Accounts.OfText(email)]
  }

  /** When exactly one live user has the email, listing by that email gives
      that user and nobody else. */
  lemma ListingByEmail(users: Repository.Table, email: string, i: nat)
    requires Repository.CreatedAtColumn in users.columns && "email" in users.columns
    requires i < |users.rows| && Repository.Live(users.rows[i]) && Field(users.rows[i], "email") == Text(email)
    requires forall j :: 0 <= j < |users.rows| && j != i ==>
      !(Repository.Live(users.rows[j]) && Field(users.rows[j], "email") == Text(email))
    ensures Listing(users, Some(email), None).Ok?
    ensures users.rows[i] in Listing(users, Some(email), None).value
    ensures forall x :: x in Listing(users, Some(email), None).value ==> x == users.rows[i]
  {
    KeptFilter(Some(email), None);
    OneLiveWithEmail(users, email, i);
    var listed := Listing(users, Some(email), None).value;
    forall x | x in listed
      ensures x == users.rows[i]
    {
      var j :| 0 <= j < |users.rows| && users.rows[j] == x;
    }
  }

  /** A unique live user with the email is the only row that listing by
      that email admits. */
  lemma OneLiveWithEmail(users: Repository.Table, email: string, i: nat)
    requires i < |users.rows| && Repository.Live(users.rows[i]) && Field(users.rows[i], "email") == Text(email)
    requires forall j :: 0 <= j < |users.rows| && j != i ==>
      !(Repository.Live(users.rows[j]) && Field(users.rows[j], "email") == Text(email))
    ensures |Repository.Matching(users.rows, Repository.Query(Repository.DropNulls(Filter(Some(email), None)), true))| <= 1
  {
    var kept := Repository.DropNulls(Filter(Some(email), None));
    KeptFilter(Some(email), None);
    var q := Repository.Query(kept, true);
    assert forall j :: 0 <= j < |users.rows| && Repository.Admits(q, users.rows[j]) ==> j == i;
    Repository.HitsAtMostOne(users.rows, q);
  }

  /** Every listed user appears in a successful `get_users` with its stored
      record. */
  lemma GetUsersPresentsListed(users: Repository.Table, email: Option<string>, uuid: Option<string>,
                               relatedOf: Row -> Related, question: int, answers: seq<Answer>, row: Row)
    requires Listing(users, email, uuid).Ok? && row in Listing(users, email, uuid).value
    ensures var g := GetUsers(users, email, uuid, relatedOf, Some(question), answers);
      g.Ok? ==> exists v :: v in g.value && v.account == Accounts.FromRow(row)
  {
    var listed := Listing(users, email, uuid).value;
    var g := GetUsers(users, email, uuid, relatedOf, Some(question), answers);
    if g.Ok? {
      var k :| 0 <= k < |listed| && listed[k] == row;
      assert Present(listed[k], relatedOf(listed[k]), question, answers) == Ok(g.value[k]);
      assert g.value[k] in g.value;
    }
  }

  // ----- create -----------------------------------------------------------

  datatype Created = Created(accessToken: Tokens.Jwt, refreshToken: Tokens.Jwt, data: Accounts.Account, table: Repository.Table)

  /** Every exception inside `create_user` becomes a 400 carrying its text;
      an `HTTPException`'s text is "<status>: <detail>". */
  function AsBadRequest(e: Error): (r: Error)
    ensures r.Http? && r.status == 400
  {
    Http(400, Message(e))
  }

  /** `str(e)` of an exception. */
  function Message(e: Error): string {
    match e
    case Raised(m) => m
    case Http(s, d) => Numerals.IntToString(s) + ": " + d
  }

  function EmailFilter(email: Option<string>): Filters {
    map["email" := Accounts.OfText(email)]
  }

  const EmailTaken: Error := Http(400, "User with this email already exists")

  /** The record to insert: the request with a truthy password replaced by its
      hash, created at `now`. */
  function NewAccount(h: Tokens.Hasher, profile: Accounts.Profile, now: int): (a: Accounts.Account)
    ensures profile.password.Some? && profile.password.value != "" ==> a.profile.password == Some(h.hash(profile.password.value))
    ensures !(profile.password.Some? && profile.password.value != "") ==> a.profile.password == profile.password
    ensures a.profile.(password := profile.password) == profile
    ensures a.id.None? && a.deletedAt.None?
  {
    var p := if profile.password.Some? && profile.password.value != "" then Some(h.hash(profile.password.value))
             else profile.password;
    Accounts.Account(None, profile.(password := p), Some(now), None, None)
  }

  /** What `create_user` does once no live user has the email: insert the
      record through `get_or_create` and issue both tokens for its key. */
  function InsertAccount(cfg: Config.Settings, h: Tokens.Hasher, users: Repository.Table, profile: Accounts.Profile,
                         now: int, storeOk: bool): (r: Result<Created>)
    requires Users.Get(users, EmailFilter(profile.email)) == Ok(None)
    ensures r.Err? ==> r.error.Http? && r.error.status == 400
    ensures r.Ok? <==> storeOk
    ensures r.Ok? ==>
      && r.value.table == users.(rows := users.rows + [Accounts.ToRow(r.value.data)])
      && r.value.data.id.Some?
      && (forall j :: 0 <= j < |users.rows| ==> Repository.IdOf(users.rows[j]) < r.value.data.id.value)
      && r.value.data == NewAccount(h, profile, now).(id := r.value.data.id)
      && r.value.accessToken == Tokens.CreateAccessToken(cfg, Tokens.SubjectClaims(r.value.data.id), now)
      && r.value.refreshToken == Tokens.CreateRefreshToken(cfg, Tokens.SubjectClaims(r.value.data.id), now)
  {
    var filters := EmailFilter(profile.email);
    var obj := Accounts.ToRow(NewAccount(h, profile, now));
    match Users.GetOrCreate(users, obj, filters, storeOk)
    case Err(e) => Err(AsBadRequest(e))
    case Ok(saved) =>
      var created := Accounts.FromRow(saved.row);
      if created.id.None? then Err(AsBadRequest(Http(400, "User cannot be created")))
      else
        Accounts.WithId(NewAccount(h, profile, now), created.id.value);
        var claims := Tokens.SubjectClaims(created.id);
        Ok(Created(Tokens.CreateAccessToken(cfg, claims, now), Tokens.CreateRefreshToken(cfg, claims, now), created, saved.table))
  }

  /** `create_user(user)`. */
  function CreateUser(cfg: Config.Settings, h: Tokens.Hasher, users: Repository.Table, profile: Accounts.Profile,
                      now: int, storeOk: bool): (r: Result<Created>)
    ensures r.Err? ==> r.error.Http? && r.error.status == 400
    ensures Repository.Known(users, EmailFilter(profile.email))
      && (exists j :: 0 <= j < |users.rows| && Matches(users.rows[j], EmailFilter(profile.email)) && Repository.Live(users.rows[j]))
      ==> r.Err?
    ensures r.Ok? ==>
      && r.value.table == users.(rows := users.rows + [Accounts.ToRow(r.value.data)])
      && r.value.data.id.Some?
      && (forall j :: 0 <= j < |users.rows| ==> Repository.IdOf(users.rows[j]) < r.value.data.id.value)
      && r.value.data == NewAccount(h, profile, now).(id := r.value.data.id)
      && r.value.accessToken == Tokens.CreateAccessToken(cfg, Tokens.SubjectClaims(r.value.data.id), now)
      && r.value.refreshToken == Tokens.CreateRefreshToken(cfg, Tokens.SubjectClaims(r.value.data.id), now)
    ensures r.Ok? ==> Users.Get(users, EmailFilter(profile.email)) == Ok(None)
    ensures Repository.Known(users, EmailFilter(profile.email))
      && (forall j :: 0 <= j < |users.rows| ==> !(Matches(users.rows[j], EmailFilter(profile.email)) && Repository.Live(users.rows[j])))
      ==> (r.Ok? <==> storeOk)
  {
    match Users.Get(users, EmailFilter(profile.email))
    case Err(e) => Err(AsBadRequest(e))
    case Ok(Some(_)) => Err(EmailTaken)
    case Ok(None) => InsertAccount(cfg, h, users, profile, now, storeOk)
  }

  /** A new user whose password was given can log in with it. */
  lemma {:induction false} CreateThenLogin(
    cfg: Config.Settings, h: Tokens.Hasher, users: Repository.Table, profile: Accounts.Profile,
    email: string, password: string, now: int, later: int, c: Created)
    requires Tokens.Sound(h)
    requires profile.email == Some(email) && profile.password == Some(password) && password != ""
    requires CreateUser(cfg, h, users, profile, now, true) == Ok(c)
    ensures AuthApi.LoginUser(cfg, h, c.table, email, password, later).Ok?
  {
    CreatedIsFound(cfg, h, users, profile, now, c);
    AuthApi.LoginFound(cfg, h, c.table, email, password, later, Accounts.ToRow(c.data));
  }

  /** The stored row of a successful creation is what `get` by its email
      finds afterwards. */
  lemma CreatedIsFound(cfg: Config.Settings, h: Tokens.Hasher, users: Repository.Table, profile: Accounts.Profile,
                       now: int, c: Created)
    requires CreateUser(cfg, h, users, profile, now, true) == Ok(c)
    ensures Users.Get(c.table, EmailFilter(profile.email)) == Ok(Some(Accounts.ToRow(c.data)))
  {
    Accounts.ToRowFields(c.data);
    Users.GetAfterAppend(users, Accounts.ToRow(c.data), EmailFilter(profile.email));
  }

  /** Creating the same email twice is refused the second time. */
  lemma {:induction false} CreateTwiceRefused(
    cfg: Config.Settings, h: Tokens.Hasher, users: Repository.Table, profile: Accounts.Profile, now: int, later: int, storeOk: bool)
    requires CreateUser(cfg, h, users, profile, now, true).Ok?
    ensures CreateUser(cfg, h, CreateUser(cfg, h, users, profile, now, true).value.table, profile, later, storeOk) == Err(EmailTaken)
  {
    var c := CreateUser(cfg, h, users, profile, now, true).value;
    Accounts.ToRowFields(c.data);
    Users.GetAfterAppend(users, Accounts.ToRow(c.data), EmailFilter(profile.email));
  }

  /** What a successful creation leaves behind: the new live row, carrying
      the email, appended to a table in which no live user had it. */
  lemma CreatedRow(
    cfg: Config.Settings, h: Tokens.Hasher, users: Repository.Table, profile: Accounts.Profile, email: string,
    now: int, c: Created)
    requires profile.email == Some(email) && "email" in users.columns
    requires CreateUser(cfg, h, users, profile, now, true) == Ok(c)
    ensures c.table.columns == users.columns
    ensures c.table.rows == users.rows + [Accounts.ToRow(c.data)]
    ensures Repository.Live(Accounts.ToRow(c.data)) && Field(Accounts.ToRow(c.data), "email") == Text(email)
    ensures forall j :: 0 <= j < |users.rows| ==> !(Repository.Live(users.rows[j]) && Field(users.rows[j], "email") == Text(email))
  {
    Accounts.ToRowFields(c.data);
    assert EmailFilter(profile.email) == map["email" := Text(email)];
  }

  /** A live row appended after rows of which none is live with the email is
      the only live row with it. */
  lemma AppendedOnlyLive(rows: seq<Row>, row: Row, email: string)
    requires forall j :: 0 <= j < |rows| ==> !(Repository.Live(rows[j]) && Field(rows[j], "email") == Text(email))
    ensures forall j :: 0 <= j < |rows + [row]| && j != |rows| ==>
      !(Repository.Live((rows + [row])[j]) && Field((rows + [row])[j], "email") == Text(email))
  {
    forall j | 0 <= j < |rows + [row]| && j != |rows|
      ensures (rows + [row])[j] == rows[j]
    {
    }
  }

  /** A newly created user is listed when the listing is filtered by its
      email, and `get_users` presents it with the created record. */
  lemma {:induction false} CreateThenListed(
    cfg: Config.Settings, h: Tokens.Hasher, users: Repository.Table, profile: Accounts.Profile, email: string,
    now: int, c: Created, relatedOf: Row -> Related, question: int, answers: seq<Answer>)
    requires Repository.CreatedAtColumn in users.columns && "email" in users.columns
    requires profile.email == Some(email)
    requires CreateUser(cfg, h, users, profile, now, true) == Ok(c)
    ensures Listing(c.table, Some(email), None).Ok?
    ensures Accounts.ToRow(c.data) in Listing(c.table, Some(email), None).value
    ensures var g := GetUsers(c.table, Some(email), None, relatedOf, Some(question), answers);
      g.Ok? ==> exists v :: v in g.value && v.account == c.data
  {
    CreatedRow(cfg, h, users, profile, email, now, c);
    AppendedOnlyLive(users.rows, Accounts.ToRow(c.data), email);
    ListingByEmail(c.table, email, |users.rows|);
    GetUsersPresentsListed(c.table, Some(email), None, relatedOf, question, answers, Accounts.ToRow(c.data));
    Accounts.FromRowToRow(c.data);
  }

  // ----- by id or uuid ----------------------------------------------------

  const UserGone: Error := Http(404, "User not found or has been deleted")

  /** `get_user_by_id(id_or_uuid)`. */
  function GetUserById(users: Repository.Table, seg: string): (r: Result<Accounts.Account>)
    ensures r.Ok? ==> exists row :: (row in users.rows && Repository.Live(row) && Matches(row, ParseSegment(seg))
      && r.value == Accounts.FromRow(row))
    ensures Repository.Known(users, ParseSegment(seg))
      && (forall j :: 0 <= j < |users.rows| ==> !(Matches(users.rows[j], ParseSegment(seg)) && Repository.Live(users.rows[j])))
      ==> r == Err(UserGone)
    ensures forall row :: Users.Get(users, ParseSegment(seg)) == Ok(Some(row)) ==> r == Ok(Accounts.FromRow(row))
  {
    match Users.Get(users, ParseSegment(seg))
    case Err(e) => Err(e)
    case Ok(None) => Err(UserGone)
    case Ok(Some(row)) => Ok(Accounts.FromRow(row))
  }

  const PasswordColumn: string := "password"

  /** The request's set fields, with a non-empty password replaced by its
      hash. */
  function HashedPatch(h: Tokens.Hasher, patch: Row): (r: Row)
    ensures r.Keys == patch.Keys
    ensures forall k :: k in patch && k != PasswordColumn ==> r[k] == patch[k]
    ensures PasswordColumn in patch && patch[PasswordColumn].Text? && patch[PasswordColumn].s != "" ==>
      r[PasswordColumn] == Text(h.hash(patch[PasswordColumn].s))
    ensures PasswordColumn in patch && !Truthy(patch[PasswordColumn]) ==> r[PasswordColumn] == patch[PasswordColumn]
  {
    if PasswordColumn in patch && patch[PasswordColumn].Text? && patch[PasswordColumn].s != "" then
      patch[PasswordColumn := Text(h.hash(patch[PasswordColumn].s))]
    else patch
  }

  /** Updating a user that does not exist with a non-empty patch fails at
      the first `setattr` on `None`. */
  const NoCurrentUser: Error := Raised("'NoneType' object has no attribute")

  /** Updating a user that does not exist with an empty patch skips the
      `setattr` loop and fails when `None` is added to the session. */
  const UnmappedNone: Error := Raised("Class 'builtins.NoneType' is not mapped")

  /** `update_user_by_id(id_or_uuid, user)`: the set fields of the request
      (password hashed) are written to the live user the segment names. */
  function UpdateUserById(h: Tokens.Hasher, users: Repository.Table, seg: string, patch: Row, storeOk: bool)
    : (r: Result<Repository.Saved>)
    ensures Repository.Known(users, ParseSegment(seg))
      && (forall j :: 0 <= j < |users.rows| ==> !(Matches(users.rows[j], ParseSegment(seg)) && Repository.Live(users.rows[j])))
      ==> r == (if patch == map[] then Err(UnmappedNone) else Err(NoCurrentUser))
    ensures r.Ok? ==>
      var l := Users.Lookup(users, ParseSegment(seg));
      && storeOk && l.Ok? && l.value.Some? && l.value.value < |users.rows|
      && r.value.row == Repository.ApplyPatch(users.rows[l.value.value], HashedPatch(h, patch))
      && r.value.table == users.(rows := users.rows[l.value.value := r.value.row])
    ensures var l := Users.Lookup(users, ParseSegment(seg));
      l.Ok? && l.value.Some? ==> (r.Ok? <==> storeOk)
  {
    match Users.Lookup(users, ParseSegment(seg))
    case Err(e) => Err(e)
    case Ok(None) => if patch == map[] then Err(UnmappedNone) else Err(NoCurrentUser)
    case Ok(Some(i)) => Repository.Update(users, i, HashedPatch(h, patch), storeOk)
  }

  /** After an update that leaves the addressing column and `deleted_at`
      alone, the same segment reads back the updated user. */
  lemma UpdateThenGet(h: Tokens.Hasher, users: Repository.Table, seg: string, patch: Row)
    requires UpdateUserById(h, users, seg, patch, true).Ok?
    requires forall k :: k in patch ==> k !in ParseSegment(seg) && k != Repository.DeletedAtColumn
    ensures var saved := UpdateUserById(h, users, seg, patch, true).value;
      GetUserById(saved.table, seg) == Ok(Accounts.FromRow(saved.row))
  {
    var i := Users.Lookup(users, ParseSegment(seg)).value.value;
    Users.LookupAfterPatch(users, ParseSegment(seg), i, HashedPatch(h, patch));
  }

  /** `delete_user_by_id(id_or_uuid)`: the soft delete, with every failure
      reported as a 404 carrying the exception's text. */
  function DeleteUserById(users: Repository.Table, seg: string, now: int, storeOk: bool): (r: Result<Repository.Table>)
    ensures r.Err? ==> r.error.Http? && r.error.status == 404
    ensures Repository.Known(users, ParseSegment(seg))
      && (forall j :: 0 <= j < |users.rows| ==> !(Matches(users.rows[j], ParseSegment(seg)) && Repository.Live(users.rows[j])))
      ==> r == Err(Http(404, Strings.Capitalize(users.name) + " not found"))
    ensures r.Ok? ==> |r.value.rows| == |users.rows|
    ensures !storeOk ==> r.Ok? ==> r.value == users
    ensures var l := Users.Lookup(users, ParseSegment(seg));
      l.Ok? && l.value.Some? ==>
        && r.Ok?
        && l.value.value < |users.rows|
        && (storeOk ==> r.value == users.(rows := users.rows[l.value.value :=
                          users.rows[l.value.value][Repository.DeletedAtColumn := Int(now)]]))
  {
    match Users.Delete(users, ParseSegment(seg), now, storeOk)
    case Err(e) => Err(Http(404, Message(e)))
    case Ok(d) => Ok(d.table)
  }

  /** After a delete the same segment finds no user. */
  lemma DeleteThenGet(users: Repository.Table, seg: string, now: int)
    requires DeleteUserById(users, seg, now, true).Ok?
    ensures GetUserById(DeleteUserById(users, seg, now, true).value, seg) == Err(UserGone)
  {
    Users.DeleteThenGone(users, ParseSegment(seg), now, now, true);
  }
}

=== FILE: user_repository.dfy ===
/** The user repository: the generic repository with soft delete. Lookups and
    listings only see rows whose `deleted_at` is NULL, and `delete` stamps
    `deleted_at` instead of removing the row. */
module UserRepository {
  import opened Common
  import opened Rows
  import opened Repository
  import Strings

  /** `get(**filters)` restricted to live rows. */
  function Get(t: Table, filters: Filters): (r: Result<Option<Row>>)
    ensures !Known(t, filters) ==> r.Err?
    ensures r.Ok? && r.value.Some? ==>
      r.value.value in t.rows && Matches(r.value.value, filters) && Live(r.value.value)
    ensures Known(t, filters) ==>
      (r == Ok(None) <==> forall j :: 0 <= j < |t.rows| ==> !(Matches(t.rows[j], filters) && Live(t.rows[j])))
    ensures Known(t, filters) ==>
      (r.Err? <==>
        exists i, j :: 0 <= i < |t.rows| && 0 <= j < |t.rows| && i != j
          && Matches(t.rows[i], filters) && Live(t.rows[i]) && Matches(t.rows[j], filters) && Live(t.rows[j]))
  {
    Find(t, Query(filters, true))
  }

  /** The position of the one live row `get` would return, for handlers
      that go on to update it. */
  function Lookup(t: Table, filters: Filters): (r: Result<Option<nat>>)
    ensures r.Ok? && r.value.Some? ==>
      r.value.value < |t.rows| && Matches(t.rows[r.value.value], filters) && Live(t.rows[r.value.value])
    ensures Known(t, filters) ==>
      (r == Ok(None) <==> forall j :: 0 <= j < |t.rows| ==> !(Matches(t.rows[j], filters) && Live(t.rows[j])))
    ensures r.Ok? ==> Get(t, filters) == Ok(if r.value.Some? then Some(t.rows[r.value.value]) else None)
    ensures r.Err? ==> Get(t, filters) == Err(r.error)
  {
    Locate(t, Query(filters, true))
  }

  /** A patch that leaves the filtered columns and `deleted_at` alone keeps
      the patched row the one `get` finds. */
  lemma LookupAfterPatch(t: Table, filters: Filters, i: nat, patch: Row)
    requires Lookup(t, filters) == Ok(Some(i))
    requires forall k :: k in patch ==> k !in filters && k != DeletedAtColumn
    ensures i < |t.rows|
    ensures Lookup(t.(rows := t.rows[i := ApplyPatch(t.rows[i], patch)]), filters) == Ok(Some(i))
  {
    var q := Query(filters, true);
    var t1 := t.(rows := t.rows[i := ApplyPatch(t.rows[i], patch)]);
    assert Known(t, filters);
    assert Admits(q, t1.rows[i]) by {
      assert forall k :: k in filters ==> Field(t1.rows[i], k) == Field(t.rows[i], k);
      assert Field(t1.rows[i], DeletedAtColumn) == Field(t.rows[i], DeletedAtColumn);
    }
    forall j | 0 <= j < |t1.rows| && j != i
      ensures !Admits(q, t1.rows[j])
    {
      assert t1.rows[j] == t.rows[j];
    }
    LocateUnique(t1, q, i);
  }

  /** Appending a live row that matches, to a table with no live match,
      makes it the one row `get` finds. */
  lemma GetAfterAppend(t: Table, row: Row, filters: Filters)
    requires Known(t, filters) && Matches(row, filters) && Live(row)
    requires forall j :: 0 <= j < |t.rows| ==> !(Matches(t.rows[j], filters) && Live(t.rows[j]))
    ensures Get(t.(rows := t.rows + [row]), filters) == Ok(Some(row))
  {
    var t1 := t.(rows := t.rows + [row]);
    forall j | 0 <= j < |t1.rows| && j != |t.rows|
      ensures !Admits(Query(filters, true), t1.rows[j])
    {
      assert t1.rows[j] == t.rows[j];
    }
    LocateUnique(t1, Query(filters, true), |t.rows|);
  }

  /** The inherited `get_or_create`, which looks up through this
      repository's live-only `get`: a soft-deleted match does not stop a new
      row being created. */
  function GetOrCreate(t: Table, obj: Row, filters: Filters, storeOk: bool): (r: Result<Saved>)
    ensures r.Ok? && (exists j :: 0 <= j < |t.rows| && Matches(t.rows[j], filters) && Live(t.rows[j])) ==>
      r.value.table == t && r.value.row in t.rows && Matches(r.value.row, filters) && Live(r.value.row)
    ensures Known(t, filters) && (forall j :: 0 <= j < |t.rows| ==> !(Matches(t.rows[j], filters) && Live(t.rows[j]))) ==>
      r == Persist(t, obj, DefaultCreate, storeOk)
    ensures !Known(t, filters) ==> r.Err?
  {
    match Get(t, filters)
    case Err(e) => Err(e)
    case Ok(Some(row)) => Ok(Saved(t, row))
    case Ok(None) => Create(t, obj, DefaultCreate, storeOk)
  }

  /** `all(...)` restricted to live rows; otherwise the base listing's sort,
      paging and `None`-filter rules. */
  function All(t: Table, page: Page, filters: Filters): (r: Result<seq<Row>>)
    ensures r.Ok? ==> forall x :: x in r.value ==> Live(x) && x in t.rows && Matches(x, DropNulls(filters))
    ensures r.Ok? ==> |r.value| <= page.limit
    ensures r.Ok? ==> |r.value| == PageLength(|Matching(t.rows, Query(DropNulls(filters), true))|, page.skip, page.limit)
    ensures r.Ok? ==> Sorted(r.value, SortColumn(page), SortOrder(page) == "asc")
    ensures r.Ok? <==> Repository.All(t, page, filters).Ok?
    ensures (r.Ok? && page.skip == 0 && |Matching(t.rows, Query(DropNulls(filters), true))| <= page.limit) ==>
      forall j :: 0 <= j < |t.rows| && Matches(t.rows[j], DropNulls(filters)) && Live(t.rows[j]) ==> t.rows[j] in r.value
  {
    ListRows(t, page, filters, true)
  }

  /** The outcome of a soft delete: the table afterwards and the boolean the
      method returns (`False` when the commit failed and was rolled back). */
  datatype Deleted = Deleted(table: Table, done: bool)

  /** `delete(**filters)` at time `now`. */
  function Delete(t: Table, filters: Filters, now: int, storeOk: bool): (r: Result<Deleted>)
    ensures Known(t, filters) && (forall j :: 0 <= j < |t.rows| ==> !(Matches(t.rows[j], filters) && Live(t.rows[j])))
      ==> r == Err(NotFound(t))
    ensures r.Ok? && !r.value.done ==> r.value.table == t
    ensures r.Ok? ==> (r.value.done <==> storeOk)
    ensures r.Ok? && r.value.done ==>
      exists i :: 0 <= i < |t.rows| && Matches(t.rows[i], filters) && Live(t.rows[i])
        && r.value.table == t.(rows := t.rows[i := t.rows[i][DeletedAtColumn := Int(now)]])
    ensures forall i :: Known(t, filters) && 0 <= i < |t.rows| && Matches(t.rows[i], filters) && Live(t.rows[i])
              && (forall j :: 0 <= j < |t.rows| && j != i ==> !(Matches(t.rows[j], filters) && Live(t.rows[j])))
              ==> r == Ok(if storeOk then Deleted(t.(rows := t.rows[i := t.rows[i][DeletedAtColumn := Int(now)]]), true)
                  else Deleted(t, false))
  {
    match Locate(t, Query(filters, true))
    case Err(e) => Err(e)
    case Ok(None) => Err(NotFound(t))
    case Ok(Some(i)) =>
      var row := t.rows[i];
      if Truthy(Field(row, DeletedAtColumn)) then Err(NotFound(t))
      else if storeOk then Ok(Deleted(t.(rows := t.rows[i := row[DeletedAtColumn := Int(now)]]), true))
      else Ok(Deleted(t, false))
  }

  /** A soft delete keeps every row: the same number of rows, and the deleted
      one differs only in `deleted_at`. */
  lemma DeleteKeepsRow(t: Table, filters: Filters, now: int)
    requires Delete(t, filters, now, true).Ok?
    ensures var t1 := Delete(t, filters, now, true).value.table;
      && |t1.rows| == |t.rows|
      && forall j :: 0 <= j < |t.rows| ==>
           forall k :: k != DeletedAtColumn ==> Field(t1.rows[j], k) == Field(t.rows[j], k)
  {
  }

  /** After a successful delete the same filters find nothing, and deleting
      again fails with "<Table> not found". */
  lemma DeleteThenGone(t: Table, filters: Filters, now: int, later: int, storeOk: bool)
    requires Delete(t, filters, now, true).Ok?
    ensures var t1 := Delete(t, filters, now, true).value.table;
      && Get(t1, filters) == Ok(None)
      && Delete(t1, filters, later, storeOk) == Err(NotFound(t1))
  {
    var t1 := Delete(t, filters, now, true).value.table;
    var i :| 0 <= i < |t.rows| && Matches(t.rows[i], filters) && Live(t.rows[i])
      && t1 == t.(rows := t.rows[i := t.rows[i][DeletedAtColumn := Int(now)]]);
    var q := Query(filters, true);
    assert Known(t, filters);
    assert Locate(t, q) == Ok(Some(i));
    forall j | 0 <= j < |t1.rows|
      ensures !(Matches(t1.rows[j], filters) && Live(t1.rows[j]))
    {
      if j != i {
        assert t1.rows[j] == t.rows[j];
      } else {
        assert Field(t1.rows[j], DeletedAtColumn) == Int(now);
      }
    }
  }

  /** The users table answers a missed delete with "Users not found". */
  lemma UsersNotFoundMessage(t: Table)
    requires t.name == "users"
    ensures NotFound(t) == Raised("Users not found")
  {
    var c := Strings.Capitalize("users");
    assert c == "Users";
  }
}
